=== FILE: README.md ===
# Portfolio content pipeline, modelled in Dafny

The portfolio keeps all of its text in one markdown file. The file has a
`---` front-matter block of `key: value` lines. Its body has `# Section`
headings, `## Item` headings, `**Label:** value` lines and `- ` bullets.
Several independent line-scanning readers and two rewrite routes work on
that file. This project models them as pure functions over strings and
proves what they promise, and where they differ from one another.

- **Top-level sections** are split in three places:
  - the Express API's `parseSections`, with a regex heading test and a string accumulator;
  - FastAPI's `parse_sections`;
  - the build-time sync script.

  The last two are one fold (`Sections.ParseHash`), which differs only in the runtime's notion of whitespace (`Text.Flavor`). The Express fold is separate (`Sections.ParseExpress`). Lemmas state when the three agree, and how the Express and FastAPI section routes then differ.
- **Education, Experience and Projects records** are read twice: by the site's `parseContent.ts` and by the sync script. Both readers are instances of one generic fold over lines (`Items.Grammar`). It is proved equal to an independent block-by-block reading (`Items.Reference`), and the per-record lemmas are stated on top of that reading.
- **The front matter as the sync script reads it.** The config-line regular expression is modelled by its backtracking order (`FrontMatter.MatchLine`). It is proved complete against a declarative description of every way the pattern can match a line. The leading-block strip is modelled too.
- **The About section**:
  - the sync script's blank-line block reader;
  - the About component's regex extraction of the About text, the skills and the paragraphs;
  - a lemma relating the two readers.
- **The Express write path**:
  - merging the three config fields;
  - replacing one section and rebuilding the body;
  - re-serialising the whole file.

  Round trips tie these routes back to the readers: parse, rebuild, parse; write, then read with the sync script.

Strings are `seq<char>`. JavaScript and Python maps are insertion-ordered association lists (`Assoc`). In these lists, assigning to an existing key keeps its position. Reading the file, and the two front-matter libraries the backends use, are outside the model. Their result is an input `Option<Document>`, where `None` stands for a failed read.

The model follows the code in three places where a uniform reading of the format would say otherwise:
- Records: the site's parsers emit a record only when its name field is non-empty. The sync script emits every record it opens, whatever its fields hold.
- Empty skills: only the About component drops empty entries after the comma split. The sync script keeps them.
- Default contact address: a missing front-matter block gives the sync script an empty config, with no default address. Express substitutes the default only when the read itself fails.

## Model

| member | source | states |
|---|---|---|
| Text.Trim | backend/api/index.js:198 | the trim is a trimmed string, empty exactly when the input is all whitespace, never longer than the input |
| Text.TrimFixedPoint | backend/api/index.js:198 | trimming leaves a string unchanged exactly when neither end is whitespace |
| Text.TrimPadded | backend/api/index.js:198 | whitespace added around a string does not change its trim |
| Text.TrimFlavors | backend/main.py:56-57 | Python's `strip` and JavaScript's `trim` agree on text whose characters both classify alike |
| Text.Split | backend/api/index.js:190 | `split('\n')` gives at least one part and no part holds the separator |
| Text.SplitThenJoin | backend/api/index.js:190 | joining the parts of a split with the separator gives the text back |
| Text.SplitJoin | backend/main.py:49 | splitting a join of separator-free parts gives the parts back |
| Text.SplitAppend | backend/api/index.js:190 | a separator between two texts splits them independently |
| Text.SplitOn | portfolio-3d/src/components/About.tsx:32 | `split('\n\n')` gives parts free of the separator that join back to the text |
| Text.SplitOnFirstCut | portfolio-3d/src/components/About.tsx:32 | the text is cut exactly when it holds the separator, and the first part ends where the leftmost separator begins |
| Text.SplitOnLeftmost | portfolio-3d/src/components/About.tsx:32 | every cut falls at the leftmost separator of the text still to be split, so runs of overlapping separators are cut where `split` cuts them |
| Text.RemoveFirst | portfolio-3d/scripts/sync-content.cjs:47 | `replace` with a string pattern cuts out exactly the leftmost occurrence, keeping the text before and after it, and changes nothing when there is none |
| Text.CommaList | portfolio-3d/src/components/About.tsx:22 | `split(',').map(s => s.trim())`: entry `i` is the trimmed `i`-th comma-separated part, so every entry is trimmed and free of commas |
| Text.DropEmptySnoc | portfolio-3d/src/components/About.tsx:22 | `filter(s => s)` keeps one more string exactly when it is not empty |
| Text.DropBlankSnoc | portfolio-3d/src/components/About.tsx:33 | `filter(p => p.trim())` keeps one more string, untouched, exactly when it is not all whitespace |
| Text.FindFrom | portfolio-3d/src/components/About.tsx:19 | the search finds the leftmost occurrence, with none before it, or reports that there is none |
| Assoc.Get | backend/api/index.js:60 | a lookup is absent exactly when the key is not in the map, and a present value is stored under that key |
| Assoc.Put | backend/api/index.js:102 | assignment keeps an existing key's position, appends a new key, and leaves every other entry in place |
| Assoc.PutGet | backend/api/index.js:102 | after an assignment the key reads as the new value and every other key reads as before |
| Assoc.PutAllFresh | portfolio-3d/scripts/sync-content.cjs:20-31 | assigning fresh, distinct keys in turn appends them in order |
| Sections.ParseExpress | backend/api/index.js:183-212 | every section name is non-empty, trimmed and free of line terminators, every value is trimmed, and no name occurs twice |
| Sections.ExpressBlock | backend/api/index.js:194-204 | a heading stores the previous section and opens one holding exactly the lines below it; a heading whose trimmed name is empty opens nothing |
| Sections.ExpressBodyLines | backend/api/index.js:202-204 | lines that are not headings extend the open section's text, or vanish when no section is open |
| Sections.ExpressPreambleIgnored | backend/api/index.js:196-204 | lines before the first heading do not change the result |
| Sections.ExpressLastDuplicateWins | backend/api/index.js:196-208 | after any earlier lines, including earlier sections of the same name, a heading and its body decide that name's value, the trimmed body text, whatever sections of other names follow |
| Sections.ParseExpressLastWins | backend/api/index.js:183-212 | in the parsed document a repeated section name holds the trimmed text of its last occurrence |
| Sections.ExpressAfterBlock | backend/api/index.js:196-208 | once a section is open, the next heading stores its value, and sections of other names after it leave that value alone |
| Sections.ExpressKeeps | backend/api/index.js:198-208 | closing and opening sections of other names leaves the value stored under a name unchanged |
| Sections.BareAndSubheadingLines | backend/api/index.js:194-196 | a bare `# ` and a `##` line are body text for Express; for the prefix test a bare `# ` closes the open section and opens none |
| Sections.HashHeadingIsPrefix | backend/main.py:54 | a line is a heading exactly when it starts with `# `, so the `## ` exclusion is redundant |
| Sections.ParseHash | backend/main.py:46-65 | names are non-empty and trimmed, values trimmed, no name occurs twice |
| Sections.HashBlock | backend/main.py:54-60 | a heading stores the previous section and opens one holding exactly the lines below it; an empty name opens nothing and those lines are dropped |
| Sections.HashNoHeadingNoSections | backend/main.py:48-65 | text with no heading line has no sections |
| Sections.HashLastDuplicateWins | backend/main.py:55-63 | after any earlier lines, including earlier sections of the same name, a heading and its body decide that name's value, the joined and stripped body lines, whatever sections of other names follow |
| Sections.ParseHashLastWins | backend/main.py:46-65 | in the parsed document a repeated section name holds the joined and stripped lines of its last occurrence |
| Sections.HashAfterBlock | backend/main.py:52-63 | once a section is open, the next heading stores its value, and sections of other names after it leave that value alone |
| Sections.HashKeeps | backend/main.py:55-63 | closing and opening sections of other names leaves the value stored under a name unchanged |
| Sections.ExpressAgreesWithScript | portfolio-3d/scripts/sync-content.cjs:42-56 | the Express splitter and the sync script's give the same sections when every `# ` line is also an Express heading |
| Sections.PythonAgreesWithScript | backend/main.py:53-63 | FastAPI's splitter and the sync script's give the same sections when no character is whitespace to one language only |
| Reconstruction.Reconstruct | backend/api/index.js:105-107 | the rebuilt body is empty exactly when there are no sections |
| Reconstruction.ReconstructReads | backend/api/index.js:105-107 | parsing the rebuilt body assigns every entry back in order with its value trimmed, provided names are valid and no value line reads as a heading |
| Reconstruction.ReconstructRoundTrip | backend/api/index.js:105-107 | with values already trimmed, parsing the rebuilt body assigns the entries back unchanged, so it gives the sections back when their names are distinct |
| Reconstruction.ValueBody | backend/api/index.js:197-208 | the text collected under a written heading (a blank line, the value's lines, a separator) trims to the value's own trim |
| Reconstruction.OneBlock | backend/api/index.js:105-107 | parsing one written block assigns its name the trimmed value |
| Reconstruction.RunBlocks | backend/api/index.js:105-107 | parsing the written blocks in turn assigns each name its trimmed value, in order |
| Reconstruction.TrimValuesTrimmed | backend/api/index.js:198 | trimming values that are already trimmed changes nothing |
| Reconstruction.TrimValuesPut | backend/api/index.js:101 | assigning an untrimmed text among trimmed values and then trimming every value is assigning the trimmed text |
| Reconstruction.ParseReconstructParse | backend/api/index.js:101-107 | parse, rebuild, parse gives the first parse back when no value has a line that reads as a heading |
| Reconstruction.IndentedHeadingResurfaces | backend/api/index.js:198 | without that proviso the round trip fails: an indented `# b` body line becomes a section of its own once written back |
| ExpressApi.PageData | backend/api/index.js:27-42 | a successful read is returned as is; a failed read gives exactly the default contact address and an empty body |
| ExpressApi.GetSection | backend/api/index.js:53-65 | a section is found exactly when it is present with non-empty text, and then its stored text is returned; otherwise 404 |
| ExpressApi.ConfigLines | backend/api/index.js:79-81 | one `key: "value"` line per config entry, in config order |
| ExpressApi.Serialise | backend/api/index.js:83 | the file opens with `---\n` and ends with `\n---\n\n` followed by the body |
| ExpressApi.SetIfGiven | backend/api/index.js:74 | an empty field changes nothing; a given field reads back as its value |
| ExpressApi.MergeConfig | backend/api/index.js:73-76 | keys stay unique, entries other than the three fields keep their place, and a request with no field set changes nothing |
| ExpressApi.MergeConfigReads | backend/api/index.js:74-76 | after the merge each given field reads as its new value and every other key as before |
| ExpressApi.UpdateConfig | backend/api/index.js:68-91 | the body is kept, every key reads as the merge rule says, and the file is the serialisation of the result |
| ExpressApi.UpdateSection | backend/api/index.js:94-121 | the config is written back unchanged, the file is the serialisation of config and rebuilt body, and that body is never empty |
| ExpressApi.UpdateSectionContents | backend/api/index.js:100-107 | for any new text with no heading line, the rewritten body parses to the old sections with only the named entry replaced or appended by the trimmed text |
| ExpressApi.UpdateThenGet | backend/api/index.js:101-102 | looking the section up in the updated document finds the new text as trimmed, and answers not found when it trims to the empty string |
| ExpressApi.UpdateTrailingNewline | backend/api/index.js:101-102 | a one-line text sent with a trailing newline is found without the newline |
| ExpressApi.UpdateHello | backend/api/index.js:101-102 | a `PUT` of `"Hello\n"` is then read back as `"Hello"` |
| ExpressApi.UpdateKeepsOtherSections | backend/api/index.js:101-107 | for any new text with no heading line, looking any other section up in the updated document finds exactly what it held before the update |
| ExpressApi.UpdateAfterFailedRead | backend/api/index.js:98-114 | after a failed read the file is replaced by the default address and the one updated section |
| ExpressApi.CrLfHasNoSections | backend/api/index.js:194 | a body with `\r\n` line endings has no sections for `parseSections` |
| ExpressApi.CrLfUpdateKeepsOnlyNewSection | backend/api/index.js:101-107 | a section update of such a body keeps only the new section |
| ExpressApi.CrLfHeadingSeenOnlyByScript | backend/api/index.js:194 | a heading line ending in `\r` is no heading for Express but a section for the sync script |
| FastApi.ReadDataFile | backend/main.py:30-44 | a successful read is returned as is; a failed read gives an empty config and an empty body |
| FastApi.GetContent | backend/main.py:76-85 | the reply carries the config and the unmodified body, and its sections have unique names; a failed read gives all three empty |
| FastApi.GetSection | backend/main.py:87-96 | 404 exactly when the name is not a key, otherwise the stored text, even when it is empty |
| FastApi.SectionRouteAgreesWithContentRoute | backend/main.py:87-96 | the section route answers with what the whole-content route lists under that name |
| FastApi.BackendsDifferOnlyOnEmptySections | backend/main.py:93-96 | on a body both backends read alike, the two section routes differ exactly on empty sections: Python returns the empty text, Express answers 404 |
| Items.ParseLines | portfolio-3d/src/utils/parseContent.ts:31-57 | every record emitted passes the emission test, and there are no more records than heading lines |
| Items.ParseIsReference | portfolio-3d/src/utils/parseContent.ts:31-57 | the line loop gives the records of the block-by-block reading: each heading with the lines up to the next heading |
| Items.PreambleIgnored | portfolio-3d/src/utils/parseContent.ts:42 | lines before the first heading never affect the result |
| Items.InertLine | portfolio-3d/src/utils/parseContent.ts:42-50 | a line that is no heading and matches no label can be dropped without changing the result |
| Items.SingleBlock | portfolio-3d/src/utils/parseContent.ts:31-56 | one heading and its lines give at most that heading's record |
| Items.EmitAll | portfolio-3d/scripts/sync-content.cjs:94-104 | a reader that emits every record it opens gives exactly one record per heading line |
| Items.KeepFilters | portfolio-3d/src/utils/parseContent.ts:33-35 | a reader with an emission test keeps exactly those records of the emit-everything reader that pass the test |
| Items.SameRecords | portfolio-3d/src/utils/parseContent.ts:53-55 | when every record passes the test, both readers give the same records |
| Records.ParseEducation | portfolio-3d/src/utils/parseContent.ts:25-58 | every education record returned has an institution |
| Records.ScriptEducation | portfolio-3d/scripts/sync-content.cjs:88-105 | the sync script returns one education record per `## ` line |
| Records.EducationInTurn | portfolio-3d/scripts/sync-content.cjs:99-101 | testing the labels with separate `if`s is the same as an `else if` chain |
| Records.EducationFields | portfolio-3d/src/utils/parseContent.ts:43-49 | each education field comes from the last line carrying its label, else keeps its value; the institution is untouched |
| Records.EducationBlock | portfolio-3d/src/utils/parseContent.ts:32-41 | a heading and its block give one record named by the trimmed heading text, with `''` for every field no line sets, dropped when the name is empty |
| Records.SkillsLineIgnored | portfolio-3d/src/utils/parseContent.ts:32 | a `## ` line mentioning `Skills` is neither heading nor label, so the record above it stays open |
| Records.EducationParsersAgree | portfolio-3d/scripts/sync-content.cjs:94-104 | where no `## ` line mentions `Skills` and no name trims to nothing, both education readers agree |
| Records.ParseExperience | portfolio-3d/src/utils/parseContent.ts:60-93 | every experience record returned has a company |
| Records.ScriptExperience | portfolio-3d/scripts/sync-content.cjs:107-124 | the sync script returns one experience record per `## ` line |
| Records.ExperienceInTurn | portfolio-3d/scripts/sync-content.cjs:119-120 | the separate `if`s equal the `else if` chain |
| Records.ExperienceFields | portfolio-3d/src/utils/parseContent.ts:78-85 | the period comes from the last `**Period:**` line; the description is extended by exactly the block's bullets, in order, prefix removed and trimmed |
| Records.ExperienceBlock | portfolio-3d/src/utils/parseContent.ts:66-85 | a heading and its block give one record: the heading's company and role, the last period, the block's bullets; dropped when the company is empty |
| Records.ExperienceHeadingParts | portfolio-3d/src/utils/parseContent.ts:71-77 | heading text `a|b…` gives company `a` and role `b`, both trimmed, and whatever follows a second `|` is ignored |
| Records.ExperienceHeadingNoBar | portfolio-3d/src/utils/parseContent.ts:71-77 | without a `|` the whole heading text is the company and the role is `''` |
| Records.ExperienceParsersAgree | portfolio-3d/scripts/sync-content.cjs:113-123 | where no company trims to nothing, both experience readers agree |
| Records.ParseProjects | portfolio-3d/src/utils/parseContent.ts:95-132 | every project record returned has a title |
| Records.ScriptProjects | portfolio-3d/scripts/sync-content.cjs:126-147 | the sync script returns one project record per `## ` line |
| Records.ProjectInTurn | portfolio-3d/scripts/sync-content.cjs:137-143 | the separate `if`s equal the `else if` chain |
| Records.ProjectFields | portfolio-3d/src/utils/parseContent.ts:113-124 | each project field comes from the last line with its label, so a second `**Tech:**` line replaces the whole list |
| Records.ProjectBlock | portfolio-3d/src/utils/parseContent.ts:106-112 | a project has tech `[]`, description `''` and github and live `#` unless a label line sets them; dropped when the title is empty |
| Records.BareTechLine | portfolio-3d/src/utils/parseContent.ts:114-116 | a bare `**Tech:**` line gives a list holding one empty string |
| Records.ProjectParsersAgree | portfolio-3d/scripts/sync-content.cjs:132-146 | where no title trims to nothing, both project readers agree |
| FrontMatter.FindClose | portfolio-3d/scripts/sync-content.cjs:15 | the lazy block ends at the first place where `\r?\n---` matches, or the block is not closed |
| FrontMatter.OpenLength | portfolio-3d/scripts/sync-content.cjs:15 | the opening `^---\r?\n` matches exactly when the text starts with `---\r\n` or `---\n`, and the block begins right after it |
| FrontMatter.ConfigBlock | portfolio-3d/scripts/sync-content.cjs:15 | a config block is found exactly when the opening line matches and a closing `\r?\n---` follows; it is the text between the opening line and the first such closing |
| FrontMatter.SplitLines | portfolio-3d/scripts/sync-content.cjs:20 | `split(/\r?\n/)` cuts at the same places as `split('\n')` |
| FrontMatter.SplitLinesParts | portfolio-3d/scripts/sync-content.cjs:20 | no line holds `\n`; each line but the last is its `split('\n')` part less the `\r` that ends it, if any; the last line is the last part unchanged |
| FrontMatter.MatchLine | portfolio-3d/scripts/sync-content.cjs:21 | a match found is one way for the config-line pattern to match the whole line |
| FrontMatter.MatchLineComplete | portfolio-3d/scripts/sync-content.cjs:21 | whenever the pattern can match a line, a match is found, with the same key and the same value once trimmed |
| FrontMatter.LineValueIsTrimmedGroup | portfolio-3d/scripts/sync-content.cjs:24-28 | the stored value is the trimmed group and holds no quote, so the quote removal never fires |
| FrontMatter.ParseConfig | portfolio-3d/scripts/sync-content.cjs:15-34 | no config block gives an empty config; the keys are unique |
| FrontMatter.LastMatch | portfolio-3d/scripts/sync-content.cjs:20-30 | a reference reading of one key: a value exactly when some line of the block matches with that key |
| FrontMatter.LastMatchAt | portfolio-3d/scripts/sync-content.cjs:20-30 | the reference value is the value of the last line that matches with the key |
| FrontMatter.LineEntriesGet | portfolio-3d/scripts/sync-content.cjs:20-30 | assigning the block's lines in turn leaves each key with the value of its last matching line, and leaves keys no line matches as they were |
| FrontMatter.GetAfterLine | portfolio-3d/scripts/sync-content.cjs:21-29 | one line assigns a key exactly when it matches the pattern with that key, and then the key reads as the line's value |
| FrontMatter.ConfigReads | portfolio-3d/scripts/sync-content.cjs:15-34 | the config reads a key as nothing without a config block, otherwise as the value of the block's last line with that key; lines that do not match assign nothing |
| FrontMatter.ConfigValuesQuoteFree | portfolio-3d/scripts/sync-content.cjs:21-29 | no config value the sync script reads holds a quote |
| FrontMatter.ConfigLastWins | portfolio-3d/scripts/sync-content.cjs:20-30 | a key on several lines of the block reads as the value of the last of them |
| FrontMatter.StripFrontMatter | portfolio-3d/scripts/sync-content.cjs:37 | a text that starts with `---\n` and has a later `\n---\n` loses everything up to the end of the first such `\n---\n`; any other text is unchanged; the result is always a suffix of the text |
| FrontMatter.StripBlock | portfolio-3d/scripts/sync-content.cjs:37 | a block that holds no `\n---\n`, even with the closing line's break, is removed with its delimiters, leaving exactly the body |
| FrontMatter.CrLfNotStripped | portfolio-3d/scripts/sync-content.cjs:37 | a block opened with `---\r\n` is not stripped |
| About.SplitBlankWithoutCr | portfolio-3d/scripts/sync-content.cjs:64 | without `\r` the sync script cuts where `split('\n\n')` does |
| About.Paragraph | portfolio-3d/scripts/sync-content.cjs:81-82 | a block adds no paragraph exactly when its trim starts with `##` |
| About.PlainBlocks | portfolio-3d/scripts/sync-content.cjs:73-83 | blocks before the first `## Skills` are read one by one as paragraphs |
| About.SkillsBlockTaken | portfolio-3d/scripts/sync-content.cjs:75-80 | the block after a `## Skills` block becomes the trimmed skills text and is never a paragraph |
| About.SkillsHeadingLast | portfolio-3d/scripts/sync-content.cjs:75-80 | a `## Skills` block with nothing after it leaves the skills text as it was |
| About.SkillList | portfolio-3d/scripts/sync-content.cjs:86 | an empty skills text gives no skills; otherwise entry `i` is the trimmed `i`-th comma-separated part, empty entries kept |
| About.ReadBlocksParagraphs | portfolio-3d/scripts/sync-content.cjs:64-84 | every paragraph kept is non-empty, trimmed and does not start with `##` |
| About.ReadAbout | portfolio-3d/scripts/sync-content.cjs:58-86 | an empty About text gives no paragraphs and no skills, and every paragraph is non-empty, trimmed and not a `##` line |
| About.ReadAboutPlain | portfolio-3d/scripts/sync-content.cjs:64-86 | without a `## Skills` block, the paragraphs are the blocks read one by one and there are no skills |
| About.ReadAboutSkills | portfolio-3d/scripts/sync-content.cjs:64-86 | with one `## Skills` block and a block after it, that block gives the skills and the paragraphs are read around the pair |
| About.ReadAboutSkillsLast | portfolio-3d/scripts/sync-content.cjs:75-86 | a `## Skills` block that comes last gives no skills |
| About.ScriptAbout | portfolio-3d/scripts/sync-content.cjs:59 | a missing About section reads as empty |
| About.FindHead | portfolio-3d/src/components/About.tsx:13 | the search finds the leftmost place where the word and at least one whitespace character match |
| About.AboutText | portfolio-3d/src/components/About.tsx:13-16 | there is no About text exactly when `# About` is never followed by whitespace; the text is trimmed and holds no `\n# ` |
| About.AboutTextOf | portfolio-3d/src/components/About.tsx:13-15 | the About text is the trimmed body after the first `# About` and its whitespace, up to the next `\n# ` or the end |
| About.SubheadingAboutMatches | portfolio-3d/src/components/About.tsx:13 | a `## About` heading matches as well |
| About.SkillsText | portfolio-3d/src/components/About.tsx:19-21 | there is no skills text exactly when `## Skills` is never followed by whitespace; the text is trimmed |
| About.SkillsTextAt | portfolio-3d/src/components/About.tsx:19-21 | when the first `## Skills` is followed by whitespace, the skills text is everything after it, trimmed |
| About.ComponentSkills | portfolio-3d/src/components/About.tsx:19-23 | no skills without a match; every skill is non-empty, trimmed and free of commas |
| About.BeforeSkills | portfolio-3d/src/components/About.tsx:31 | the text before the first `## Skills`: a prefix of the About text without `## Skills`, ending exactly where the leftmost `## Skills` begins, and the whole text when there is none |
| About.ComponentParagraphs | portfolio-3d/src/components/About.tsx:30-33 | every paragraph is non-blank, holds no blank line and no `## Skills`; paragraphs are not trimmed |
| About.AboutView | portfolio-3d/src/components/About.tsx:14-33 | an empty About text gives no paragraphs and no skills |
| About.ComponentAbout | portfolio-3d/src/components/About.tsx:7-27 | without a `# About` heading followed by whitespace, paragraphs and skills stay empty |
| About.ReadersAgree | portfolio-3d/scripts/sync-content.cjs:64-86 | on paragraphs, a `## Skills` heading and a skills line, the sync script's paragraphs are the component's, trimmed and without `##` blocks, and its skills are the component's with empty entries kept |
| Sync.SyncContent | portfolio-3d/scripts/sync-content.cjs:15-147 | no front matter gives an empty config with unique keys; a missing About section gives empty About data; a missing or empty record section gives no records |
| Sync.SyncReadsWrittenFile | portfolio-3d/scripts/sync-content.cjs:15-56 | a file written by Express is read back by the sync script with the config Express wrote and the sections of the body it wrote |
| Sync.WrittenConfig | portfolio-3d/scripts/sync-content.cjs:20-31 | the config lines Express writes read back as that config |
| Sync.LeadingBreakIgnored | portfolio-3d/scripts/sync-content.cjs:37-56 | the line break the strip leaves in front of the body does not change the sections |
| Sync.EmptyValueNotRead | portfolio-3d/scripts/sync-content.cjs:21 | an empty value that Express writes as `key: ""` does not match the config-line pattern, so the sync script drops that key |

## Left out

- Reading and writing the file, and the failure of a write: file contents are strings, and a read is an `Option<Document>` input.
- The `front-matter` and `python-frontmatter` libraries: foreign parsers whose `(config, body)` result is an input. They may also produce non-string values (numbers, lists), which the `key: "${value}"` template would stringify; config values are modelled as strings only.
- Request bodies with fields that are not strings: an absent field is modelled as `""`, since both are falsy. A section update without `newContent` would store the text `undefined`, which is not modelled.
- Mail sending, the resume download, the health and root routes, CORS, environment loading, framework wiring and the 500 error replies: network and framework plumbing.
- The sync script's TypeScript code generation and console messages (portfolio-3d/scripts/sync-content.cjs:149-175): output formatting.
- All React rendering and animation. React state is not modelled: when no `# About` match is found, the component keeps its previous values, and the model uses the initial empty ones.
- JavaScript objects: keys inherited from the prototype (`constructor`, `__proto__`) are left out, and so is the ordering of integer-like keys ahead of other keys. Maps are insertion-ordered lists.
- Strings are sequences of code points. JavaScript's UTF-16 code units and surrogate pairs are not modelled.
- About.AboutTextOf: covers only About bodies that start with a non-whitespace character, so the regex's whitespace run ends where the body begins.
- About.ReadersAgree: covers only About texts shaped as paragraphs, one `## Skills` heading and one skills block, without `\r`.
- ExpressApi.UpdateThenGet, ExpressApi.UpdateKeepsOtherSections: look the section up in the document the update builds. They assume the `front-matter` library reads the written file back as the written config and body; the written text is stated separately by `Sync.SyncReadsWrittenFile`.
- The `key: "${value}"` template (backend/api/index.js:80) does not escape its value, so a value holding `"` or `\` gives a line that is not valid YAML. The round trips through the sync script cover only values without `"` (`Sync.CleanConfig`). That script's line pattern treats `\` as an ordinary character, so the YAML library's reading of such lines is what is left out.
- FastApi.GetContent: states the shape of the reply and the uniqueness of section names. The section contents are stated by the lemmas on `Sections.ParseHash`.

=== FILE: about.dfy ===
/** The About section's two readers. The sync script cuts the section's text
    into blank-line-separated blocks: blocks become paragraphs, a `## Skills`
    block hands the block after it over as the skills list. The About
    component finds the section with a regular expression over the whole
    body, takes the skills from after `## Skills`, and the paragraphs from
    before it. */
module About {
  import opened Text
  import opened Options
  import opened Assoc

  /** What both readers produce. */
  datatype AboutParts = AboutParts(paragraphs: seq<string>, skills: seq<string>)

  // ================================================================ splitting on blank lines

  /** Length of a `\r?\n` match at `p`, or 0. */
  function LineBreakAt(s: string, p: nat): (n: nat)
    requires p <= |s|
    ensures p + n <= |s| && n <= 2
  {
    if p + 1 < |s| && s[p] == '\r' && s[p + 1] == '\n' then 2
    else if p < |s| && s[p] == '\n' then 1
    else 0
  }

  /** Length of a `\r?\n\r?\n` match at `p`, or 0 when there is none. */
  function BlankLineAt(s: string, p: nat): (n: nat)
    requires p <= |s|
    ensures p + n <= |s|
    ensures n != 0 ==> 2 <= n <= 4
  {
    var a := LineBreakAt(s, p);
    if a == 0 then 0
    else
      var b := LineBreakAt(s, p + a);
      if b == 0 then 0 else a + b
  }

  /** The leftmost match at or after `from`. */
  function NextBlankLine(s: string, from: nat): (r: Option<nat>)
    requires from <= |s|
    ensures r.Some? ==> from <= r.value < |s| && BlankLineAt(s, r.value) > 0
    ensures r.Some? ==> forall p :: from <= p < r.value ==> BlankLineAt(s, p) == 0
    ensures r.None? ==> forall p :: from <= p <= |s| ==> BlankLineAt(s, p) == 0
    decreases |s| - from
  {
    if from == |s| then None
    else if BlankLineAt(s, from) > 0 then Some(from)
    else NextBlankLine(s, from + 1)
  }

  /** `s.split(/\r?\n\r?\n/)`: cut at each leftmost match, searching on
      after it. */
  function SplitBlank(s: string): (parts: seq<string>)
    ensures |parts| >= 1
    decreases |s|
  {
    match NextBlankLine(s, 0)
    case None => [s]
    case Some(p) => [s[..p]] + SplitBlank(s[p + BlankLineAt(s, p)..])
  }

  /** Without `\r`, the pattern is the plain separator `\n\n`, so the sync
      script cuts the text exactly where `split('\n\n')` does. */
  lemma {:induction false} SplitBlankWithoutCr(s: string)
    requires '\r' !in s
    ensures SplitBlank(s) == SplitOn(s, "\n\n")
    decreases |s|
  {
    SameSeparators(s, 0);
    match NextBlankLine(s, 0)
    case None =>
    case Some(p) =>
      assert BlankLineAt(s, p) == 2;
      var rest := s[p + 2..];
      assert '\r' !in rest by {
        assert forall i :: 0 <= i < |rest| ==> rest[i] == s[p + 2 + i];
      }
      SplitBlankWithoutCr(rest);
  }

  /** Without `\r`, a match of the pattern is an occurrence of `\n\n`. */
  lemma {:induction false} SameSeparators(s: string, from: nat)
    requires '\r' !in s && from <= |s|
    ensures NextBlankLine(s, from) == FindFrom(s, "\n\n", from)
    ensures NextBlankLine(s, from).Some? ==> BlankLineAt(s, NextBlankLine(s, from).value) == 2
    decreases |s| - from
  {
    BlankLineIsPair(s, from);
    if from < |s| && BlankLineAt(s, from) == 0 {
      SameSeparators(s, from + 1);
    }
  }

  lemma BlankLineIsPair(s: string, p: nat)
    requires '\r' !in s && p <= |s|
    ensures BlankLineAt(s, p) > 0 <==> StartsWith(s[p..], "\n\n")
    ensures BlankLineAt(s, p) > 0 ==> BlankLineAt(s, p) == 2
  {
    if p < |s| { assert s[p] in s; }
    if p + 1 < |s| { assert s[p + 1] in s; }
    if StartsWith(s[p..], "\n\n") {
      assert s[p..][0] == s[p] && s[p..][1] == s[p + 1];
    }
  }

  // ================================================================ the sync script's blocks

  /** `block.startsWith('## Skills')` after the trim. */
  predicate IsSkillsHeading(block: string) {
    StartsWith(Trim(Js, block), "## Skills")
  }

  /** The loop's state: the paragraphs so far and the skills text. */
  datatype BlockState = BlockState(paragraphs: seq<string>, skillsText: string)

  /** The loop over the non-blank blocks: a `## Skills` block takes the next
      block (trimmed) as the skills text and both are skipped; another block
      starting with `##` is dropped; any other block is a paragraph, trimmed. */
  function ReadBlocks(blocks: seq<string>, st: BlockState): (r: BlockState)
    ensures |st.paragraphs| <= |r.paragraphs| <= |st.paragraphs| + |blocks|
    decreases |blocks|
  {
    if |blocks| == 0 then st
    else
      var b := Trim(Js, blocks[0]);
      if StartsWith(b, "## Skills") then
        if |blocks| > 1 then ReadBlocks(blocks[2..], st.(skillsText := Trim(Js, blocks[1])))
        else st
      else if !StartsWith(b, "##") then
        ReadBlocks(blocks[1..], st.(paragraphs := st.paragraphs + [b]))
      else ReadBlocks(blocks[1..], st)
  }

  /** What one block other than `## Skills` adds to the paragraphs: itself,
      trimmed, unless it starts with `##`. */
  function Paragraph(block: string): (ps: seq<string>)
    ensures |ps| <= 1
    ensures ps == [] <==> StartsWith(Trim(Js, block), "##")
  {
    var b := Trim(Js, block);
    if StartsWith(b, "##") then [] else [b]
  }

  /** Reference reading of blocks with no `## Skills` among them: each
      block's paragraph, in order. */
  function PlainParagraphs(blocks: seq<string>): (ps: seq<string>)
    ensures |ps| <= |blocks|
    decreases |blocks|
  {
    if |blocks| == 0 then []
    else Paragraph(blocks[0]) + PlainParagraphs(blocks[1..])
  }

  predicate NoSkillsHeading(blocks: seq<string>) {
    forall b <- blocks :: !IsSkillsHeading(b)
  }

  /** Blocks before the first `## Skills` are read one by one as paragraphs. */
  lemma {:induction false} PlainBlocks(pre: seq<string>, rest: seq<string>, st: BlockState)
    requires NoSkillsHeading(pre)
    ensures ReadBlocks(pre + rest, st)
            == ReadBlocks(rest, st.(paragraphs := st.paragraphs + PlainParagraphs(pre)))
    decreases |pre|
  {
    if |pre| == 0 {
      assert pre + rest == rest;
      assert st.paragraphs + [] == st.paragraphs;
    } else {
      var next := st.(paragraphs := st.paragraphs + Paragraph(pre[0]));
      NoSkillsHeadingTail(pre);
      PlainStep(pre, rest, st);
      PlainBlocks(pre[1..], rest, next);
      AppendParagraphs(st, Paragraph(pre[0]), PlainParagraphs(pre[1..]));
    }
  }

  lemma NoSkillsHeadingTail(pre: seq<string>)
    requires |pre| > 0 && NoSkillsHeading(pre)
    ensures NoSkillsHeading(pre[1..]) && !IsSkillsHeading(pre[0])
  {
    assert forall x <- pre[1..] :: x in pre;
    assert pre[0] in pre;
  }

  lemma PlainStep(pre: seq<string>, rest: seq<string>, st: BlockState)
    requires |pre| > 0 && !IsSkillsHeading(pre[0])
    ensures ReadBlocks(pre + rest, st)
            == ReadBlocks(pre[1..] + rest, st.(paragraphs := st.paragraphs + Paragraph(pre[0])))
  {
    assert (pre + rest)[0] == pre[0] && (pre + rest)[1..] == pre[1..] + rest;
    assert st.paragraphs + [] == st.paragraphs;
  }

  lemma AppendParagraphs(st: BlockState, h: seq<string>, t: seq<string>)
    ensures st.(paragraphs := st.paragraphs + h).(paragraphs := st.paragraphs + h + t)
            == st.(paragraphs := st.paragraphs + (h + t))
  {
    assert st.paragraphs + h + t == st.paragraphs + (h + t);
  }

  /** The block right after a `## Skills` block becomes the skills text and
      is never a paragraph; reading goes on after it. */
  lemma SkillsBlockTaken(pre: seq<string>, h: string, s: string, post: seq<string>, st: BlockState)
    requires NoSkillsHeading(pre) && IsSkillsHeading(h)
    ensures ReadBlocks(pre + [h, s] + post, st)
            == ReadBlocks(post, BlockState(st.paragraphs + PlainParagraphs(pre), Trim(Js, s)))
  {
    assert pre + [h, s] + post == pre + ([h, s] + post);
    PlainBlocks(pre, [h, s] + post, st);
    assert ([h, s] + post)[2..] == post;
  }

  /** A `## Skills` block with nothing after it leaves the skills text as it was. */
  lemma SkillsHeadingLast(pre: seq<string>, h: string, st: BlockState)
    requires NoSkillsHeading(pre) && IsSkillsHeading(h)
    ensures ReadBlocks(pre + [h], st) == st.(paragraphs := st.paragraphs + PlainParagraphs(pre))
  {
    PlainBlocks(pre, [h], st);
  }

  /** `skillsText ? skillsText.split(',').map(s => s.trim()) : []`: empty
      entries are kept. */
  function SkillList(text: string): (r: seq<string>)
    ensures |r| == 0 <==> text == ""
    ensures text != "" ==> |r| == |Split(text, ',')|
    ensures text != "" ==> forall i :: 0 <= i < |r| ==> r[i] == Trim(Js, Split(text, ',')[i])
    ensures forall i :: 0 <= i < |r| ==> IsTrimmed(Js, r[i]) && ',' !in r[i]
  {
    if text == "" then [] else CommaList(text)
  }

  /** What every paragraph the sync script keeps looks like. */
  predicate GoodParagraphs(ps: seq<string>) {
    forall p <- ps :: p != "" && IsTrimmed(Js, p) && !StartsWith(p, "##")
  }

  /** Reading non-blank blocks only ever adds non-empty, trimmed paragraphs
      that do not start with `##`. */
  lemma {:induction false} ReadBlocksParagraphs(blocks: seq<string>, st: BlockState)
    requires GoodParagraphs(st.paragraphs)
    requires forall b <- blocks :: Trim(Js, b) != ""
    ensures GoodParagraphs(ReadBlocks(blocks, st).paragraphs)
    decreases |blocks|
  {
    if |blocks| > 0 {
      assert blocks[0] in blocks;
      assert forall b <- blocks[1..] :: b in blocks;
      var b := Trim(Js, blocks[0]);
      if StartsWith(b, "## Skills") {
        if |blocks| > 1 {
          assert forall x <- blocks[2..] :: x in blocks;
          ReadBlocksParagraphs(blocks[2..], st.(skillsText := Trim(Js, blocks[1])));
        }
      } else if !StartsWith(b, "##") {
        ReadBlocksParagraphs(blocks[1..], st.(paragraphs := st.paragraphs + [b]));
      } else {
        ReadBlocksParagraphs(blocks[1..], st);
      }
    }
  }

  /** The sync script's reading of the About text: its non-blank blocks,
      read in order. */
  function ReadAbout(about: string): (r: AboutParts)
    ensures about == "" ==> r == AboutParts([], [])
    ensures GoodParagraphs(r.paragraphs)
  {
    var blocks := DropBlank(SplitBlank(about));
    ReadBlocksParagraphs(blocks, BlockState([], ""));
    var st := ReadBlocks(blocks, BlockState([], ""));
    assert about == "" ==> blocks == [] by {
      if about == "" {
        assert NextBlankLine("", 0).None?;
        assert Trim(Js, "") == "";
      }
    }
    AboutParts(st.paragraphs, SkillList(st.skillsText))
  }

  /** `sections.About || ''`: a missing About section reads as empty. */
  function ScriptAbout(sections: Entries): (r: AboutParts)
    ensures Get(sections, "About").None? ==> r == AboutParts([], [])
  {
    ReadAbout(Get(sections, "About").GetOr(""))
  }

  // ================================================================ the About component

  const AboutWord := "# About"
  const SkillsWord := "## Skills"

  /** `word` at `i` followed by a whitespace character: where `word\s+` matches. */
  predicate HeadAt(s: string, word: string, i: nat) {
    i + |word| < |s| && s[i..i + |word|] == word && IsSpace(Js, s[i + |word|])
  }

  /** The leftmost position at or after `from` where `word\s+` matches. */
  function FindHead(s: string, word: string, from: nat): (r: Option<nat>)
    requires from <= |s|
    ensures r.Some? ==> from <= r.value && HeadAt(s, word, r.value)
    ensures forall j: nat :: from <= j && (r.None? || j < r.value) ==> !HeadAt(s, word, j)
    decreases |s| - from
  {
    if from == |s| then None
    else if HeadAt(s, word, from) then Some(from)
    else FindHead(s, word, from + 1)
  }

  /** Where the group after `word\s+` starts. `\s+` is greedy and what
      follows it in both patterns cannot fail, so it keeps the whole
      whitespace run. */
  function HeadingEnd(s: string, word: string, i: nat): (q: nat)
    requires HeadAt(s, word, i)
    ensures i + |word| < q <= |s|
    ensures AllSpace(Js, s[i + |word|..q])
    ensures q < |s| ==> !IsSpace(Js, s[q])
  {
    var k := i + |word|;
    var n := LeadSpaces(Js, s[k..]);
    assert s[k..][..n] == s[k..k + n];
    assert n > 0 by {
      assert s[k..][0] == s[k];
    }
    k + n
  }

  /** `content.match(/# About\s+([\s\S]*?)(?=\n# |$)/)` and the trim of its
      group: from the first `# About` followed by whitespace, past that
      whitespace, up to the next `\n# ` or the end. */
  function AboutText(content: string): (r: Option<string>)
    ensures r.None? <==> forall i: nat :: !HeadAt(content, AboutWord, i)
    ensures r.Some? ==> IsTrimmed(Js, r.value) && !Contains(r.value, "\n# ")
  {
    match FindHead(content, AboutWord, 0)
    case None => None
    case Some(i) =>
      var q := HeadingEnd(content, AboutWord, i);
      var e := match FindFrom(content, "\n# ", q) case None => |content| case Some(e) => e;
      GroupKeepsOut(content, q, e, "\n# ");
      Some(Trim(Js, content[q..e]))
  }

  /** The lazy group stops at the first `\n# `, so it holds none, and
      neither does its trim. */
  lemma GroupKeepsOut(s: string, q: nat, e: nat, pat: string)
    requires q <= e <= |s| && |pat| > 0
    requires forall j :: q <= j < e ==> !StartsWith(s[j..], pat)
    ensures !Contains(Trim(Js, s[q..e]), pat)
  {
    var g := s[q..e];
    forall j | 0 <= j <= |g| ensures !StartsWith(g[j..], pat) {
      if j + |pat| <= |g| {
        assert g[j..][..|pat|] == s[q + j..][..|pat|];
      }
    }
    TrimKeepsOut(g, pat);
  }

  lemma TrimKeepsOut(g: string, pat: string)
    requires !Contains(g, pat)
    ensures !Contains(Trim(Js, g), pat)
  {
    TrimSlice(Js, g);
    var r := Trim(Js, g);
    if |r| > 0 {
      SliceIsOut(g, LeadSpaces(Js, g), r, pat);
    }
  }

  lemma SliceIsOut(g: string, k: nat, r: string, pat: string)
    requires !Contains(g, pat) && k + |r| <= |g| && r == g[k..k + |r|]
    ensures !Contains(r, pat)
  {
    SliceKeepsOut(g, k, k + |r|, pat);
  }

  /** `aboutText.match(/## Skills\s+([\s\S]*?)$/)` and the trim of its group:
      everything after the first `## Skills` followed by whitespace. */
  function SkillsText(about: string): (r: Option<string>)
    ensures r.None? <==> forall i: nat :: !HeadAt(about, SkillsWord, i)
    ensures r.Some? ==> IsTrimmed(Js, r.value)
  {
    match FindHead(about, SkillsWord, 0)
    case None => None
    case Some(i) => Some(Trim(Js, about[HeadingEnd(about, SkillsWord, i)..]))
  }

  /** `skillsText.split(',').map(s => s.trim()).filter(s => s)`, or no skills
      when the pattern does not match. */
  function ComponentSkills(about: string): (r: seq<string>)
    ensures SkillsText(about).None? ==> r == []
    ensures forall x <- r :: x != "" && IsTrimmed(Js, x) && ',' !in x
  {
    match SkillsText(about)
    case None => []
    case Some(t) =>
      CommaEntries(t);
      DropEmpty(CommaList(t))
  }

  lemma CommaEntries(t: string)
    ensures forall x <- CommaList(t) :: IsTrimmed(Js, x) && ',' !in x
  {
    var xs := CommaList(t);
    forall x | x in xs ensures IsTrimmed(Js, x) && ',' !in x {
      var k :| 0 <= k < |xs| && xs[k] == x;
    }
  }

  /** `aboutContent.replace(/## Skills[\s\S]*$/, '')`: everything before the
      first `## Skills`, whatever follows it. */
  function BeforeSkills(about: string): (r: string)
    ensures !Contains(r, SkillsWord)
    ensures !Contains(about, SkillsWord) ==> r == about
    ensures StartsWith(about, r)
    ensures Contains(about, SkillsWord) ==> FindFrom(about, SkillsWord, 0) == Some(|r|)
    ensures Contains(about, SkillsWord) ==> StartsWith(about[|r|..], SkillsWord)
  {
    match FindFrom(about, SkillsWord, 0)
    case None => about
    case Some(p) =>
      PrefixWithout(about, SkillsWord, p);
      about[..p]
  }

  /** `.split('\n\n').filter(p => p.trim())`: the blocks before the skills,
      untrimmed. */
  function ComponentParagraphs(about: string): (r: seq<string>)
    ensures forall p <- r :: Trim(Js, p) != "" && !Contains(p, "\n\n") && !Contains(p, SkillsWord)
  {
    var before := BeforeSkills(about);
    SplitOnKeepsOut(before, "\n\n", SkillsWord);
    DropBlank(SplitOn(before, "\n\n"))
  }

  /** The component's paragraphs and skills for the About text it found. */
  function AboutView(about: string): (r: AboutParts)
    ensures about == "" ==> r == AboutParts([], [])
  {
    assert SkillsText("").None?;
    assert SplitOn("", "\n\n") == [""] by {
      assert FindFrom("", "\n\n", 0).None?;
    }
    assert Trim(Js, "") == "";
    AboutParts(ComponentParagraphs(about), ComponentSkills(about))
  }

  /** The About component: nothing without a `# About` heading followed by
      whitespace, otherwise the view of the About text. */
  function ComponentAbout(content: string): (r: AboutParts)
    ensures (forall i: nat :: !HeadAt(content, AboutWord, i)) ==> r == AboutParts([], [])
  {
    match AboutText(content)
    case None => AboutParts([], [])
    case Some(a) => AboutView(a)
  }

  // ================================================================ the component's matches

  lemma FindHeadFirst(s: string, word: string, k: nat)
    requires HeadAt(s, word, k)
    requires forall j: nat :: j < k ==> !HeadAt(s, word, j)
    ensures FindHead(s, word, 0) == Some(k)
  {
  }

  /** The group after `word\s+` trims to the trimmed rest after `word`: the
      whitespace `\s+` took is whitespace the trim would drop anyway. */
  lemma GroupTrimsToRest(s: string, word: string, i: nat)
    requires HeadAt(s, word, i)
    ensures Trim(Js, s[HeadingEnd(s, word, i)..]) == Trim(Js, s[i + |word|..])
  {
    var k, q := i + |word|, HeadingEnd(s, word, i);
    assert s[k..] == s[k..q] + s[q..] + "";
    TrimPadded(Js, s[k..q], s[q..], "");
  }

  /** When the first `## Skills` is followed by whitespace, the skills text
      is everything after it, trimmed. */
  lemma SkillsTextAt(about: string, i: nat)
    requires FindFrom(about, SkillsWord, 0) == Some(i)
    requires i + |SkillsWord| < |about| && IsSpace(Js, about[i + |SkillsWord|])
    ensures SkillsText(about) == Some(Trim(Js, about[i + |SkillsWord|..]))
  {
    FirstOccurrenceHead(about, SkillsWord, i);
    GroupTrimsToRest(about, SkillsWord, i);
  }

  /** When the first occurrence of `word` is followed by whitespace, that is
      where `word\s+` first matches. */
  lemma FirstOccurrenceHead(s: string, word: string, i: nat)
    requires FindFrom(s, word, 0) == Some(i)
    requires i + |word| < |s| && IsSpace(Js, s[i + |word|])
    ensures FindHead(s, word, 0) == Some(i)
  {
    assert s[i..][..|word|] == s[i..i + |word|];
    forall j: nat | j < i ensures !HeadAt(s, word, j) {
      if j + |word| <= |s| {
        assert s[j..][..|word|] == s[j..j + |word|];
      }
    }
    FindHeadFirst(s, word, i);
  }

  /** Where the About text comes from: after the first `# About` and the
      whitespace that follows it, a body that starts with a non-space and
      runs to the next `\n# ` or the end; the text is the body trimmed. */
  lemma AboutTextOf(pre: string, ws: string, body: string, tail: string)
    requires forall j: nat :: j < |pre| ==> !HeadAt(pre + AboutWord + ws + body + tail, AboutWord, j)
    requires |ws| > 0 && AllSpace(Js, ws)
    requires |body| > 0 && !IsSpace(Js, body[0]) && !Contains(body, "\n# ")
    requires tail == "" || StartsWith(tail, "\n# ")
    ensures AboutText(pre + AboutWord + ws + body + tail) == Some(Trim(Js, body))
  {
    var s := pre + AboutWord + ws + body + tail;
    var q := |pre| + 7 + |ws|;
    AboutStartsAt(pre, ws, body, tail);
    assert s[q..] == body + tail;
    AboutEndsAt(s, q, body, tail);
    assert s[q..q + |body|] == body;
  }

  lemma AboutStartsAt(pre: string, ws: string, body: string, tail: string)
    requires forall j: nat :: j < |pre| ==> !HeadAt(pre + AboutWord + ws + body + tail, AboutWord, j)
    requires |ws| > 0 && AllSpace(Js, ws)
    requires |body| > 0 && !IsSpace(Js, body[0])
    ensures var s := pre + AboutWord + ws + body + tail;
            && FindHead(s, AboutWord, 0) == Some(|pre|)
            && HeadingEnd(s, AboutWord, |pre|) == |pre| + 7 + |ws|
  {
    var s := pre + AboutWord + ws + body + tail;
    var k := |pre|;
    assert s[k..k + 7] == AboutWord && s[k + 7] == ws[0];
    FindHeadFirst(s, AboutWord, k);
    WhitespaceRun(s, k + 7, ws, body + tail);
  }

  lemma AboutEndsAt(s: string, q: nat, body: string, tail: string)
    requires q + |body| + |tail| == |s| && s[q..] == body + tail
    requires !Contains(body, "\n# ")
    requires tail == "" || StartsWith(tail, "\n# ")
    ensures FindFrom(s, "\n# ", q).None? ==> q + |body| == |s|
    ensures FindFrom(s, "\n# ", q).Some? ==> FindFrom(s, "\n# ", q).value == q + |body|
  {
    BodyHasNoStop(s, q, body, tail);
    if tail != "" {
      assert s[q + |body|..] == tail;
      FindFirst(s, "\n# ", q, q + |body|);
    }
  }

  lemma WhitespaceRun(s: string, k: nat, ws: string, rest: string)
    requires k <= |s| && s[k..] == ws + rest
    requires AllSpace(Js, ws) && |rest| > 0 && !IsSpace(Js, rest[0])
    ensures LeadSpaces(Js, s[k..]) == |ws|
  {
    assert s[k..][..|ws|] == ws;
    LeadSpacesOf(Js, s[k..], |ws|);
  }

  /** No `\n# ` starts inside the body: not within it, and not across its end
      into a tail that itself starts with `\n`. */
  lemma BodyHasNoStop(s: string, q: nat, body: string, tail: string)
    requires q + |body| + |tail| == |s| && s[q..] == body + tail
    requires !Contains(body, "\n# ")
    requires tail == "" || StartsWith(tail, "\n# ")
    ensures forall j :: q <= j < q + |body| ==> !StartsWith(s[j..], "\n# ")
  {
    forall j | q <= j < q + |body| ensures !StartsWith(s[j..], "\n# ") {
      var d := j - q;
      if j + 3 <= q + |body| {
        assert s[j..][..3] == body[d..][..3];
        NotContainsAt(body, "\n# ", d);
      } else if tail != "" {
        assert s[q + |body|] == '\n';
      }
    }
  }

  /** A `## About` heading matches too: the pattern finds `# About` inside it. */
  lemma SubheadingAboutMatches(ws: string, body: string, tail: string)
    requires |ws| > 0 && AllSpace(Js, ws)
    requires |body| > 0 && !IsSpace(Js, body[0]) && !Contains(body, "\n# ")
    requires tail == "" || StartsWith(tail, "\n# ")
    ensures AboutText("#" + AboutWord + ws + body + tail) == Some(Trim(Js, body))
  {
    var s := "#" + AboutWord + ws + body + tail;
    assert s[0..7] != AboutWord by {
      assert s[1] == '#' && AboutWord[1] == ' ';
    }
    AboutTextOf("#", ws, body, tail);
  }

  // ================================================================ the two readers side by side

  /** The sync script on blocks without a `## Skills` heading: every
      non-blank block, trimmed, unless it starts with `##`; no skills. */
  lemma ReadAboutPlain(about: string)
    requires NoSkillsHeading(DropBlank(SplitBlank(about)))
    ensures ReadAbout(about) == AboutParts(PlainParagraphs(DropBlank(SplitBlank(about))), [])
  {
    var blocks := DropBlank(SplitBlank(about));
    ReadAboutIs(about);
    PlainBlocksAll(blocks, BlockState([], ""));
    assert [] + PlainParagraphs(blocks) == PlainParagraphs(blocks);
  }

  /** The sync script on blocks with one `## Skills` heading followed by a
      block: that block, trimmed, is the skills text, and the paragraphs are
      read around the pair. */
  lemma ReadAboutSkills(about: string, pre: seq<string>, h: string, t: string, post: seq<string>)
    requires DropBlank(SplitBlank(about)) == pre + [h, t] + post
    requires NoSkillsHeading(pre) && IsSkillsHeading(h) && NoSkillsHeading(post)
    ensures ReadAbout(about)
            == AboutParts(PlainParagraphs(pre) + PlainParagraphs(post), SkillList(Trim(Js, t)))
  {
    var init := BlockState([], "");
    var st := BlockState(PlainParagraphs(pre), Trim(Js, t));
    ReadAboutIs(about);
    assert init.paragraphs + PlainParagraphs(pre) == PlainParagraphs(pre);
    SkillsBlockTaken(pre, h, t, post, init);
    PlainBlocksAll(post, st);
  }

  /** `ReadAbout` is the block reading of the text's non-blank blocks. */
  lemma ReadAboutIs(about: string)
    ensures var st := ReadBlocks(DropBlank(SplitBlank(about)), BlockState([], ""));
            ReadAbout(about) == AboutParts(st.paragraphs, SkillList(st.skillsText))
  {
  }

  lemma PlainBlocksAll(blocks: seq<string>, st: BlockState)
    requires NoSkillsHeading(blocks)
    ensures ReadBlocks(blocks, st) == st.(paragraphs := st.paragraphs + PlainParagraphs(blocks))
  {
    assert blocks + [] == blocks;
    PlainBlocks(blocks, [], st);
  }

  /** The same with the skills block last. */
  lemma ReadAboutSkillsEnd(about: string, pre: seq<string>, h: string, t: string)
    requires DropBlank(SplitBlank(about)) == pre + [h, t]
    requires NoSkillsHeading(pre) && IsSkillsHeading(h)
    ensures ReadAbout(about) == AboutParts(PlainParagraphs(pre), SkillList(Trim(Js, t)))
  {
    assert pre + [h, t] == pre + [h, t] + [];
    ReadAboutSkills(about, pre, h, t, []);
    assert PlainParagraphs(pre) + PlainParagraphs([]) == PlainParagraphs(pre);
  }

  /** A `## Skills` heading as the last block: the skills text stays empty,
      so there are no skills. */
  lemma ReadAboutSkillsLast(about: string, pre: seq<string>, h: string)
    requires DropBlank(SplitBlank(about)) == pre + [h]
    requires NoSkillsHeading(pre) && IsSkillsHeading(h)
    ensures ReadAbout(about) == AboutParts(PlainParagraphs(pre), [])
  {
    ReadAboutIs(about);
    SkillsHeadingLast(pre, h, BlockState([], ""));
    assert [] + PlainParagraphs(pre) == PlainParagraphs(pre);
  }

  lemma SkillsHeadingContains(p: string)
    requires IsSkillsHeading(p)
    ensures Contains(p, SkillsWord)
  {
    var r := Trim(Js, p);
    TrimSlice(Js, p);
    var k := LeadSpaces(Js, p);
    assert r == p[k..k + |r|];
    assert p[k..][..|SkillsWord|] == r[..|SkillsWord|];
    ContainsAt(p, SkillsWord, k);
  }

  /** A text without `## Skills` has no `## Skills` block. */
  lemma NoSkillsBlocks(s: string)
    requires !Contains(s, SkillsWord)
    ensures NoSkillsHeading(DropBlank(SplitOn(s, "\n\n")))
  {
    SplitOnKeepsOut(s, "\n\n", SkillsWord);
    forall b | b in DropBlank(SplitOn(s, "\n\n")) ensures !IsSkillsHeading(b) {
      if IsSkillsHeading(b) {
        SkillsHeadingContains(b);
      }
    }
  }

  lemma SplitOnWithout(x: string, sep: string)
    requires |sep| > 0 && !Contains(x, sep)
    ensures SplitOn(x, sep) == [x]
  {
  }

  /** How the sync script cuts `pre`, a blank line, `## Skills`, a blank
      line and the skills `t`. */
  lemma ScriptBlocks(pre: string, t: string)
    requires '\r' !in pre && '\r' !in t
    requires pre == "" || pre[|pre| - 1] != '\n'
    requires !Contains(t, "\n\n") && Trim(Js, t) != ""
    ensures DropBlank(SplitBlank(pre + "\n\n" + SkillsWord + "\n\n" + t))
            == DropBlank(SplitOn(pre, "\n\n")) + [SkillsWord, t]
  {
    var parts := SplitOn(pre, "\n\n");
    ScriptCuts(pre, t);
    assert DropBlank(parts + [SkillsWord, t]) == DropBlank(parts) + [SkillsWord, t] by {
      DropBlankAppend(parts, [SkillsWord, t]);
      SkillsPairKept(t);
    }
  }

  /** The blocks before dropping blank ones: those of `pre`, the heading and `t`. */
  lemma ScriptCuts(pre: string, t: string)
    requires '\r' !in pre && '\r' !in t
    requires pre == "" || pre[|pre| - 1] != '\n'
    requires !Contains(t, "\n\n")
    ensures SplitBlank(pre + "\n\n" + SkillsWord + "\n\n" + t) == SplitOn(pre, "\n\n") + [SkillsWord, t]
  {
    var about := pre + "\n\n" + SkillsWord + "\n\n" + t;
    assert SplitBlank(about) == SplitOn(about, "\n\n") by {
      NoCarriageReturn(pre, t);
      SplitBlankWithoutCr(about);
    }
    ScriptCutsOn(pre, t);
  }

  lemma ScriptCutsOn(pre: string, t: string)
    requires pre == "" || pre[|pre| - 1] != '\n'
    requires !Contains(t, "\n\n")
    ensures SplitOn(pre + "\n\n" + SkillsWord + "\n\n" + t, "\n\n") == SplitOn(pre, "\n\n") + [SkillsWord, t]
  {
    var tailPart := SkillsWord + "\n\n" + t;
    assert pre + "\n\n" + SkillsWord + "\n\n" + t == pre + "\n\n" + tailPart;
    SplitOnAt(pre, tailPart);
    SkillsPartSplit(t);
  }

  lemma NoCarriageReturn(pre: string, t: string)
    requires '\r' !in pre && '\r' !in t
    ensures '\r' !in pre + "\n\n" + SkillsWord + "\n\n" + t
  {
    var about := pre + "\n\n" + SkillsWord + "\n\n" + t;
    assert forall c :: c in about ==> c in pre || c in SkillsWord || c in t || c == '\n';
  }

  lemma SkillsPartSplit(t: string)
    requires !Contains(t, "\n\n")
    ensures SplitOn(SkillsWord + "\n\n" + t, "\n\n") == [SkillsWord, t]
  {
    SplitOnAt(SkillsWord, t);
    SkillsWordHasNoBreak("\n\n");
    SplitOnWithout(SkillsWord, "\n\n");
    SplitOnWithout(t, "\n\n");
  }

  lemma SkillsPairKept(t: string)
    requires Trim(Js, t) != ""
    ensures DropBlank([SkillsWord, t]) == [SkillsWord, t]
  {
    NotBlank(SkillsWord);
    PairKept(SkillsWord, t);
  }

  lemma PairKept(h: string, t: string)
    requires Trim(Js, h) != "" && Trim(Js, t) != ""
    ensures DropBlank([h, t]) == [h, t]
  {
    OneKept(t);
    assert [h, t][0] == h && [h, t][1..] == [t];
  }

  lemma NotBlank(s: string)
    requires |s| > 0 && !IsSpace(Js, s[0])
    ensures Trim(Js, s) != ""
  {
  }

  lemma SkillsWordIsHeading()
    ensures IsSkillsHeading(SkillsWord)
  {
    assert SkillsWord[..|SkillsWord|] == SkillsWord;
    HeadingBlock(SkillsWord);
  }

  /** A block that is exactly the heading, with nothing around it, is a
      `## Skills` heading. */
  lemma HeadingBlock(h: string)
    requires StartsWith(h, SkillsWord) && IsTrimmed(Js, h)
    ensures IsSkillsHeading(h)
  {
    TrimFixedPoint(Js, h);
  }

  lemma OneKept(t: string)
    requires Trim(Js, t) != ""
    ensures DropBlank([t]) == [t]
  {
    assert [t][0] == t && [t][1..] == [];
  }

  lemma SkillsWordHasNoBreak(pat: string)
    requires |pat| > 0 && pat[0] == '\n'
    ensures !Contains(SkillsWord, pat)
  {
    forall j | 0 <= j <= |SkillsWord| ensures !StartsWith(SkillsWord[j..], pat) {
      if j < |SkillsWord| {
        assert SkillsWord[j..][0] == SkillsWord[j];
      }
    }
  }

  /** Where the component finds `## Skills` in the same text: right after
      the blank line that follows `pre`. */
  lemma ComponentFindsSkills(pre: string, t: string)
    requires !Contains(pre, SkillsWord)
    ensures FindFrom(pre + "\n\n" + SkillsWord + "\n\n" + t, SkillsWord, 0) == Some(|pre| + 2)
  {
    var about := pre + "\n\n" + SkillsWord + "\n\n" + t;
    var k := |pre| + 2;
    forall j | 0 <= j < k ensures !StartsWith(about[j..], SkillsWord) {
      if j + 9 <= |pre| {
        assert about[j..][..9] == pre[j..][..9];
        assert !StartsWith(pre[j..], SkillsWord);
      } else if j + 9 <= |about| {
        var d := if j <= |pre| then |pre| - j else 0;
        assert about[j..][..9][d] == '\n';
      }
    }
    assert about[k..][..9] == SkillsWord;
    FindFirst(about, SkillsWord, 0, k);
  }

  /** On an About text made of paragraphs, a `## Skills` heading and a
      skills line, separated by blank lines and free of `\r`, the two readers
      agree up to what each does to the pieces: the sync script trims the
      paragraphs and drops those starting with `##`, where the component
      keeps them as they are; the sync script keeps empty skills, where the
      component drops them. */
  lemma ReadersAgree(pre: string, t: string)
    requires '\r' !in pre && '\r' !in t
    requires !Contains(pre, SkillsWord)
    requires pre == "" || pre[|pre| - 1] != '\n'
    requires !Contains(t, "\n\n") && Trim(Js, t) != ""
    ensures var about := pre + "\n\n" + SkillsWord + "\n\n" + t;
            && ReadAbout(about).paragraphs == PlainParagraphs(AboutView(about).paragraphs)
            && ReadAbout(about).skills == SkillList(Trim(Js, t))
            && AboutView(about).skills == DropEmpty(ReadAbout(about).skills)
  {
    var about := pre + "\n\n" + SkillsWord + "\n\n" + t;
    var blocks := DropBlank(SplitOn(pre, "\n\n"));
    ScriptSide(pre, t);
    ComponentParagraphsSide(pre, t);
    ComponentSkillsSide(pre, t);
    assert AboutView(about) == AboutParts(blocks, DropEmpty(CommaList(Trim(Js, t))));
  }

  lemma ScriptSide(pre: string, t: string)
    requires '\r' !in pre && '\r' !in t
    requires !Contains(pre, SkillsWord)
    requires pre == "" || pre[|pre| - 1] != '\n'
    requires !Contains(t, "\n\n") && Trim(Js, t) != ""
    ensures ReadAbout(pre + "\n\n" + SkillsWord + "\n\n" + t)
            == AboutParts(PlainParagraphs(DropBlank(SplitOn(pre, "\n\n"))), SkillList(Trim(Js, t)))
  {
    var about := pre + "\n\n" + SkillsWord + "\n\n" + t;
    var blocks := DropBlank(SplitOn(pre, "\n\n"));
    SkillsWordIsHeading();
    NoSkillsBlocks(pre);
    ScriptBlocks(pre, t);
    ReadAboutSkillsEnd(about, blocks, SkillsWord, t);
  }

  lemma ComponentParagraphsSide(pre: string, t: string)
    requires !Contains(pre, SkillsWord)
    requires pre == "" || pre[|pre| - 1] != '\n'
    ensures ComponentParagraphs(pre + "\n\n" + SkillsWord + "\n\n" + t)
            == DropBlank(SplitOn(pre, "\n\n"))
  {
    var about := pre + "\n\n" + SkillsWord + "\n\n" + t;
    BeforeSkillsOfGlued(pre, t);
    SplitOnTrailingBlank(pre);
    DropBlankTrailing(SplitOn(pre, "\n\n"));
  }

  lemma BeforeSkillsOfGlued(pre: string, t: string)
    requires !Contains(pre, SkillsWord)
    ensures BeforeSkills(pre + "\n\n" + SkillsWord + "\n\n" + t) == pre + "\n\n"
  {
    var about := pre + "\n\n" + SkillsWord + "\n\n" + t;
    ComponentFindsSkills(pre, t);
    BeforeAt(about, |pre| + 2);
    GluedPrefix(pre, t);
  }

  lemma BeforeAt(about: string, k: nat)
    requires FindFrom(about, SkillsWord, 0) == Some(k)
    ensures BeforeSkills(about) == about[..k]
  {
  }

  lemma GluedPrefix(pre: string, t: string)
    ensures (pre + "\n\n" + SkillsWord + "\n\n" + t)[..|pre| + 2] == pre + "\n\n"
  {
    Regroup(pre, "\n\n", SkillsWord, "\n\n", t);
    PrefixOfGlued(pre + "\n\n", SkillsWord + "\n\n" + t);
  }

  lemma SplitOnTrailingBlank(pre: string)
    requires pre == "" || pre[|pre| - 1] != '\n'
    ensures SplitOn(pre + "\n\n", "\n\n") == SplitOn(pre, "\n\n") + [""]
  {
    SplitOnAt(pre, "");
    SplitOnWithout("", "\n\n");
    assert pre + "\n\n" + "" == pre + "\n\n";
  }

  lemma DropBlankTrailing(xs: seq<string>)
    ensures DropBlank(xs + [""]) == DropBlank(xs)
  {
    DropBlankAppend(xs, [""]);
    assert Trim(Js, "") == "";
    assert [""][1..] == [];
  }

  lemma ComponentSkillsSide(pre: string, t: string)
    requires !Contains(pre, SkillsWord)
    ensures SkillsText(pre + "\n\n" + SkillsWord + "\n\n" + t) == Some(Trim(Js, t))
  {
    var about := pre + "\n\n" + SkillsWord + "\n\n" + t;
    TrimLeadingSpace("\n\n", t);
    GluedSuffix(pre, t);
    SkillsAfterGlue(pre, t);
  }

  lemma SkillsAfterGlue(pre: string, t: string)
    requires !Contains(pre, SkillsWord)
    ensures var about := pre + "\n\n" + SkillsWord + "\n\n" + t;
            SkillsText(about) == Some(Trim(Js, about[|pre| + 11..]))
  {
    var about := pre + "\n\n" + SkillsWord + "\n\n" + t;
    ComponentFindsSkills(pre, t);
    assert about[|pre| + 2 + 9] == '\n';
    SkillsTextAt(about, |pre| + 2);
  }

  lemma TrimLeadingSpace(ws: string, t: string)
    requires AllSpace(Js, ws)
    ensures Trim(Js, ws + t) == Trim(Js, t)
  {
    TrimPadded(Js, ws, t, "");
    assert ws + t + "" == ws + t;
  }

  lemma GluedSuffix(pre: string, t: string)
    ensures (pre + "\n\n" + SkillsWord + "\n\n" + t)[|pre| + 11..] == "\n\n" + t
  {
    Regroup(pre, "\n\n", SkillsWord, "\n\n", t);
    SuffixOfGlued(pre + "\n\n" + SkillsWord, "\n\n" + t);
  }

  lemma PrefixOfGlued(x: string, y: string)
    ensures (x + y)[..|x|] == x
  {
  }

  lemma SuffixOfGlued(x: string, y: string)
    ensures (x + y)[|x|..] == y
  {
  }}

=== FILE: assoc.dfy ===
/** Insertion-ordered string maps: the JavaScript plain objects and Python
    dicts that hold the front-matter config and the parsed sections. Assigning
    to a key that is already present keeps its position and replaces its value;
    a new key goes to the end. */
module Assoc {
  import opened Options

  type Entries = seq<(string, string)>

  function Keys(m: Entries): (ks: seq<string>)
    ensures |ks| == |m|
    ensures forall i :: 0 <= i < |m| ==> ks[i] == m[i].0
  {
    if |m| == 0 then [] else [m[0].0] + Keys(m[1..])
  }

  /** No key occurs twice: what every object or dict built through `Put` satisfies. */
  predicate UniqueKeys(m: Entries) {
    forall i, j :: 0 <= i < j < |m| ==> m[i].0 != m[j].0
  }

  /** `obj[k]` / `d.get(k)`: the value stored under `k`, if any. */
  function Get(m: Entries, k: string): (r: Option<string>)
    ensures r.None? <==> k !in Keys(m)
    ensures r.Some? ==> (k, r.value) in m
  {
    if |m| == 0 then None
    else if m[0].0 == k then Some(m[0].1)
    else Get(m[1..], k)
  }

  lemma {:induction false} GetAt(m: Entries, i: nat)
    requires UniqueKeys(m) && i < |m|
    ensures Get(m, m[i].0) == Some(m[i].1)
    decreases i
  {
    if i > 0 {
      assert UniqueKeys(m[1..]);
      assert m[1..][i - 1] == m[i];
      GetAt(m[1..], i - 1);
    }
  }

  /** `obj[k] = v` / `d[k] = v`: only the entry for `k` changes, in place when
      `k` was present, appended when it was not; every other entry keeps its
      value and its position. */
  function Put(m: Entries, k: string, v: string): (r: Entries)
    ensures k in Keys(m) ==> |r| == |m| && Keys(r) == Keys(m)
    ensures k !in Keys(m) ==> r == m + [(k, v)]
    ensures forall i :: 0 <= i < |m| && m[i].0 != k ==> r[i] == m[i]
    ensures UniqueKeys(m) ==> UniqueKeys(r)
  {
    var r :=
      if |m| == 0 then [(k, v)]
      else if m[0].0 == k then [(k, v)] + m[1..]
      else
        var rest := Put(m[1..], k, v);
        assert Keys(m) == [m[0].0] + Keys(m[1..]);
        [m[0]] + rest;
    if k in Keys(m) then
      SameKeysUnique(m, r);
      r
    else
      AppendFreshUnique(m, k, v);
      r
  }

  lemma SameKeysUnique(a: Entries, b: Entries)
    requires Keys(a) == Keys(b)
    ensures UniqueKeys(a) <==> UniqueKeys(b)
  {
  }

  lemma AppendFreshUnique(m: Entries, k: string, v: string)
    requires k !in Keys(m)
    ensures UniqueKeys(m) ==> UniqueKeys(m + [(k, v)])
  {
  }

  /** Reading back after `Put`: `k` now holds `v`, every other key reads as before. */
  lemma {:induction false} PutGet(m: Entries, k: string, v: string)
    ensures Get(Put(m, k, v), k) == Some(v)
    ensures forall k' :: k' != k ==> Get(Put(m, k, v), k') == Get(m, k')
    decreases |m|
  {
    if |m| > 0 && m[0].0 != k {
      PutGet(m[1..], k, v);
    }
  }

  /** Every entry after `Put` is the new one or was there before. */
  lemma {:induction false} PutEntries(m: Entries, k: string, v: string)
    ensures forall e :: e in Put(m, k, v) ==> e in m || e == (k, v)
    decreases |m|
  {
    if |m| > 0 && m[0].0 != k {
      PutEntries(m[1..], k, v);
    }
  }

  /** Assigns every entry of `es` in turn, as a loop of `obj[k] = v` does. */
  function PutAll(m: Entries, es: Entries): Entries
    decreases |es|
  {
    if |es| == 0 then m else PutAll(Put(m, es[0].0, es[0].1), es[1..])
  }

  /** Assigning fresh, distinct keys one by one appends them in order. */
  lemma {:induction false} PutAllFresh(m: Entries, es: Entries)
    requires UniqueKeys(m + es)
    ensures PutAll(m, es) == m + es
    decreases |es|
  {
    if |es| > 0 {
      var k := es[0].0;
      assert k !in Keys(m) by {
        forall i | 0 <= i < |m| ensures m[i].0 != k {
          assert (m + es)[i] == m[i] && (m + es)[|m|] == es[0];
        }
      }
      assert m + [es[0]] + es[1..] == m + es;
      PutAllFresh(m + [es[0]], es[1..]);
    }
  }
}

=== FILE: datafile.dfy ===
/** The content file as the front-matter libraries hand it to the backends:
    the attributes of the `---` block and the Markdown body after it. The
    libraries themselves are not modelled; a read that fails is `None`. */
module DataFile {
  import opened Assoc

  datatype Document = Document(config: Entries, body: string)

  /** A section route's answer: the section's text, or a 404. */
  datatype Reply = Found(content: string) | NotFound
}

=== FILE: express.dfy ===
/** The Express backend's content routes: reading the content file, looking
    up a section, merging new config values, and rewriting one section. Every
    write re-serialises the whole file: the config as `key: "value"` lines
    between `---` markers, then the body. */
module ExpressApi {
  import opened Text
  import opened Options
  import opened Assoc
  import opened Sections
  import opened Reconstruction
  import opened DataFile

  const DefaultEmail := "work.srivastav@gmail.com"

  /** `getPageData()`: the file as read, or, when reading or parsing it
      fails, a stand-in with only the default contact address and no body. */
  function PageData(read: Option<Document>): (d: Document)
    ensures read.Some? ==> d == read.value
    ensures read.None? ==> Get(d.config, "contactEmail") == Some(DefaultEmail) && |d.config| == 1
    ensures read.None? ==> d.body == ""
  {
    match read
    case Some(doc) => doc
    case None => Document([("contactEmail", DefaultEmail)], "")
  }

  // ================================================================ GET /api/content/:section

  /** Only a section that is present with a non-empty (truthy) text is
      found; an empty section answers 404 as a missing one does. */
  function GetSection(read: Option<Document>, name: string): (r: Reply)
    ensures var sections := ParseExpress(PageData(read).body);
            && (r.Found? <==> Get(sections, name).Some? && Get(sections, name).value != "")
            && (r.Found? ==> (name, r.content) in sections)
  {
    match Get(ParseExpress(PageData(read).body), name)
    case Some(v) => if v != "" then Found(v) else NotFound
    case None => NotFound
  }

  // ================================================================ writing the file

  /** One front-matter line: `${key}: "${value}"`, with no escaping. */
  function ConfigLine(e: (string, string)): string {
    e.0 + ": \"" + e.1 + "\""
  }

  function ConfigLines(config: Entries): (ls: seq<string>)
    ensures |ls| == |config|
    ensures forall i :: 0 <= i < |ls| ==> ls[i] == ConfigLine(config[i])
  {
    if |config| == 0 then [] else [ConfigLine(config[0])] + ConfigLines(config[1..])
  }

  /** The file text both writing routes produce. */
  function Serialise(config: Entries, body: string): (file: string)
    ensures StartsWith(file, "---\n") && EndsWith(file, "\n---\n\n" + body)
  {
    var file := "---\n" + Join(ConfigLines(config), "\n") + "\n---\n\n" + body;
    assert file == "---\n" + (Join(ConfigLines(config), "\n") + "\n---\n\n" + body);
    assert file == "---\n" + Join(ConfigLines(config), "\n") + ("\n---\n\n" + body);
    file
  }

  /** What a write route leaves behind: the data it now holds, and the file text. */
  datatype Written = Written(doc: Document, file: string)

  // ================================================================ PUT /api/config

  /** The fields of the request body; an absent field is modelled as "". */
  datatype ConfigRequest = ConfigRequest(contactEmail: string, heroTitle: string, heroSubtitle: string)

  /** `if (value) config.key = value`. */
  function SetIfGiven(config: Entries, key: string, value: string): (r: Entries)
    ensures value == "" ==> r == config
    ensures value != "" ==> Get(r, key) == Some(value)
  {
    if value != "" then
      PutGet(config, key, value);
      Put(config, key, value)
    else config
  }

  /** Entries that are not replaced keep their place, new fields are
      appended after them, and a request with no field set changes nothing. */
  function MergeConfig(config: Entries, req: ConfigRequest): (r: Entries)
    ensures UniqueKeys(config) ==> UniqueKeys(r)
    ensures |r| >= |config|
    ensures forall i :: 0 <= i < |config| && !IsConfigField(config[i].0) ==> r[i] == config[i]
    ensures req == ConfigRequest("", "", "") ==> r == config
  {
    var c1 := SetIfGiven(config, "contactEmail", req.contactEmail);
    var c2 := SetIfGiven(c1, "heroTitle", req.heroTitle);
    SetIfGiven(c2, "heroSubtitle", req.heroSubtitle)
  }

  /** The three fields the route accepts. */
  predicate IsConfigField(k: string) {
    k == "contactEmail" || k == "heroTitle" || k == "heroSubtitle"
  }

  /** A given field reads as its new value; an absent field, and every other
      key, reads as before. */
  function FieldAfter(config: Entries, req: ConfigRequest, k: string): Option<string> {
    var given := if k == "contactEmail" then req.contactEmail
                 else if k == "heroTitle" then req.heroTitle
                 else if k == "heroSubtitle" then req.heroSubtitle
                 else "";
    if given != "" then Some(given) else Get(config, k)
  }

  lemma MergeConfigReads(config: Entries, req: ConfigRequest, k: string)
    ensures Get(MergeConfig(config, req), k) == FieldAfter(config, req, k)
  {
    var c1 := SetIfGiven(config, "contactEmail", req.contactEmail);
    var c2 := SetIfGiven(c1, "heroTitle", req.heroTitle);
    var c3 := SetIfGiven(c2, "heroSubtitle", req.heroSubtitle);
    assert c3 == MergeConfig(config, req);
    var g0, g1, g2, g3 := Get(config, k), Get(c1, k), Get(c2, k), Get(c3, k);
    assert g1 == if req.contactEmail != "" && k == "contactEmail" then Some(req.contactEmail) else g0 by {
      SetIfGivenReads(config, "contactEmail", req.contactEmail, k);
    }
    assert g2 == if req.heroTitle != "" && k == "heroTitle" then Some(req.heroTitle) else g1 by {
      SetIfGivenReads(c1, "heroTitle", req.heroTitle, k);
    }
    assert g3 == if req.heroSubtitle != "" && k == "heroSubtitle" then Some(req.heroSubtitle) else g2 by {
      SetIfGivenReads(c2, "heroSubtitle", req.heroSubtitle, k);
    }
    FieldNamesDistinct();
  }

  lemma FieldNamesDistinct()
    ensures "contactEmail" != "heroTitle" && "contactEmail" != "heroSubtitle" && "heroTitle" != "heroSubtitle"
  {
    assert |"heroTitle"| != |"heroSubtitle"|;
    assert "contactEmail"[0] != "heroTitle"[0];
    assert "contactEmail"[0] != "heroSubtitle"[0];
  }

  lemma SetIfGivenReads(config: Entries, key: string, value: string, k: string)
    ensures Get(SetIfGiven(config, key, value), k) ==
            if value != "" && k == key then Some(value) else Get(config, k)
  {
    if value != "" { PutGet(config, key, value); }
  }

  /** PUT /api/config: merge the given fields, keep the body, rewrite the file. */
  function UpdateConfig(read: Option<Document>, req: ConfigRequest): (w: Written)
    ensures w.doc.body == PageData(read).body
    ensures forall k :: Get(w.doc.config, k) == FieldAfter(PageData(read).config, req, k)
    ensures w.file == Serialise(w.doc.config, w.doc.body)
  {
    var d := PageData(read);
    var config := MergeConfig(d.config, req);
    forall k ensures Get(config, k) == FieldAfter(d.config, req, k) {
      MergeConfigReads(d.config, req, k);
    }
    Written(Document(config, d.body), Serialise(config, d.body))
  }

  // ================================================================ PUT /api/content/:section

  /** PUT /api/content/:section: parse the sections, set the named one, and
      write every section back as `# name`, a blank line and its text,
      separated by blank lines. The config is written back unchanged. */
  function UpdateSection(read: Option<Document>, name: string, newContent: string): (w: Written)
    ensures w.doc.config == PageData(read).config
    ensures w.file == Serialise(w.doc.config, w.doc.body)
    ensures w.doc.body != ""
  {
    var d := PageData(read);
    var sections := Put(ParseExpress(d.body), name, newContent);
    var body := Reconstruct(sections);
    Written(Document(d.config, body), Serialise(d.config, body))
  }

  /** The sections the rewritten body parses back to: the old ones with only
      the named entry replaced (or appended) by the new text, trimmed, as the
      parser reads every section, provided nothing in the old texts or the
      new one reads as a heading once written out. */
  lemma UpdateSectionContents(read: Option<Document>, name: string, newContent: string)
    requires ValidName(name) && NoExpressHeading(Split(newContent, '\n'))
    requires forall e :: e in ParseExpress(PageData(read).body) ==> NoExpressHeading(Split(e.1, '\n'))
    ensures ParseExpress(UpdateSection(read, name, newContent).doc.body)
            == Put(ParseExpress(PageData(read).body), name, Trim(Js, newContent))
  {
    var before := ParseExpress(PageData(read).body);
    var sections := Put(before, name, newContent);
    PutRereadable(before, name, newContent);
    ReconstructReads(sections);
    TrimValuesPut(before, name, newContent);
    var after := Put(before, name, Trim(Js, newContent));
    assert [] + after == after;
    PutAllFresh([], after);
  }

  lemma PutRereadable(before: Entries, name: string, newContent: string)
    requires WellKeyed(before) && ValidName(name) && NoExpressHeading(Split(newContent, '\n'))
    requires forall e :: e in before ==> NoExpressHeading(Split(e.1, '\n'))
    ensures Rereadable(Put(before, name, newContent))
  {
    PutEntries(before, name, newContent);
    forall e | e in Put(before, name, newContent)
      ensures ValidName(e.0) && NoExpressHeading(Split(e.1, '\n'))
    {
      if e != (name, newContent) { assert e in before; }
    }
  }

  /** Looking the section up in the document the update builds finds the new
      text as trimmed, or nothing when it trims to the empty string. */
  lemma UpdateThenGet(read: Option<Document>, name: string, newContent: string)
    requires ValidName(name) && NoExpressHeading(Split(newContent, '\n'))
    requires forall e :: e in ParseExpress(PageData(read).body) ==> NoExpressHeading(Split(e.1, '\n'))
    ensures GetSection(Some(UpdateSection(read, name, newContent).doc), name)
            == if Trim(Js, newContent) != "" then Found(Trim(Js, newContent)) else NotFound
  {
    UpdateSectionContents(read, name, newContent);
    PutGet(ParseExpress(PageData(read).body), name, Trim(Js, newContent));
  }

  /** Looking any other section up in the document the update builds finds
      what it held before the update. */
  lemma UpdateKeepsOtherSections(read: Option<Document>, name: string, newContent: string, other: string)
    requires ValidName(name) && NoExpressHeading(Split(newContent, '\n')) && other != name
    requires forall e :: e in ParseExpress(PageData(read).body) ==> NoExpressHeading(Split(e.1, '\n'))
    ensures GetSection(Some(UpdateSection(read, name, newContent).doc), other) == GetSection(read, other)
  {
    UpdateSectionContents(read, name, newContent);
    PutGet(ParseExpress(PageData(read).body), name, Trim(Js, newContent));
  }

  /** A one-line text sent with a trailing newline is read back without it. */
  lemma UpdateTrailingNewline(read: Option<Document>, name: string, a: string)
    requires ValidName(name) && a != "" && IsTrimmed(Js, a)
    requires '\n' !in a && !IsExpressHeading(a)
    requires forall e :: e in ParseExpress(PageData(read).body) ==> NoExpressHeading(Split(e.1, '\n'))
    ensures GetSection(Some(UpdateSection(read, name, a + "\n").doc), name) == Found(a)
  {
    OneLine(a);
    assert Trim(Js, a + "\n") == a by {
      assert a + "\n" == "" + a + "\n";
      TrimPadded(Js, "", a, "\n");
      TrimFixedPoint(Js, a);
    }
    UpdateThenGet(read, name, a + "\n");
  }

  lemma OneLine(a: string)
    requires '\n' !in a && !IsExpressHeading(a)
    ensures NoExpressHeading(Split(a + "\n", '\n'))
  {
    assert a + "\n" == a + ['\n'] + "";
    SplitAtGlue(a, '\n', "");
    SplitWithout(a, '\n');
    SplitWithout("", '\n');
    assert Split(a + "\n", '\n') == [a, ""];
  }

  /** For instance `PUT` of `"Hello\n"` is then read back as `"Hello"`. */
  lemma UpdateHello(read: Option<Document>)
    requires forall e :: e in ParseExpress(PageData(read).body) ==> NoExpressHeading(Split(e.1, '\n'))
    ensures GetSection(Some(UpdateSection(read, "about", "Hello" + "\n").doc), "about") == Found("Hello")
  {
    assert ValidName("about") by {
      TrimFixedPoint(Js, "about");
    }
    assert !IsExpressHeading("Hello") by {
      assert "Hello"[..2] == "He";
    }
    UpdateTrailingNewline(read, "about", "Hello");
  }

  /** A failed read is not reported: the routes go on to write the stand-in
      data, so the file is replaced by the default address and, for a section
      update, that one section alone. */
  lemma UpdateAfterFailedRead(name: string, newContent: string)
    ensures UpdateSection(None, name, newContent).file
            == Serialise([("contactEmail", DefaultEmail)], Reconstruct([(name, newContent)]))
  {
    assert Split("", '\n') == [""] by { SplitWithout("", '\n'); }
    assert !IsExpressHeading("");
    ExpressBodyLines([""], ExpressStart);
  }

  // ================================================================ Windows line endings

  /** `.` in `^# (.+)$` does not match `\r`, so a file saved with `\r\n`
      line endings has no headings at all for `parseSections`. */
  lemma CrLfHasNoSections(content: string)
    requires forall l :: l in Split(content, '\n') ==> l == "" || EndsWith(l, "\r")
    ensures ParseExpress(content) == []
  {
    var lines := Split(content, '\n');
    forall l | l in lines ensures !IsExpressHeading(l) {
      if l != "" && |l| >= 3 {
        assert l[|l| - 1] == '\r' by { assert l[|l| - 1..] == "\r"; }
      }
    }
    ExpressBodyLines(lines, ExpressStart);
  }

  /** Consequently a section update on such a file keeps only the new section. */
  lemma CrLfUpdateKeepsOnlyNewSection(doc: Document, name: string, newContent: string)
    requires forall l :: l in Split(doc.body, '\n') ==> l == "" || EndsWith(l, "\r")
    ensures UpdateSection(Some(doc), name, newContent).doc.body == Reconstruct([(name, newContent)])
  {
    CrLfHasNoSections(doc.body);
  }

  /** The sync script's heading test has no such restriction: it reads the
      same heading line, with the `\r` trimmed off the name. */
  lemma CrLfHeadingSeenOnlyByScript(a: string)
    requires ValidName(a)
    ensures ParseExpress("# " + a + "\r") == []
    ensures ParseHash(Js, "# " + a + "\r") == [(a, "")]
  {
    var line := "# " + a + "\r";
    assert '\n' !in line by {
      assert forall c :: c in a ==> !IsLineTerminator(c);
    }
    SplitWithout(line, '\n');
    CrLfHasNoSections(line);
    assert line[..2] == "# ";
    HashHeadingIsPrefix(line);
    assert line[2..] == a + "\r";
    TrimAppendSpace(Js, a, '\r');
    TrimFixedPoint(Js, a);
    HashBlock(Js, line, [], HashStart);
    assert Split(line, '\n') == [line] + [];
    assert Join([], "\n") == "";
  }
}

=== FILE: fastapi.dfy ===
/** The FastAPI backend's content routes. It reads the same file with its
    own front-matter library and splits the body with `parse_sections`,
    which is the sync script's section splitter with Python's notion of
    whitespace. */
module FastApi {
  import opened Text
  import opened Options
  import opened Assoc
  import opened Sections
  import opened DataFile
  import ExpressApi

  /** `read_data_file()`: the file as read, or an empty config and body when
      reading or parsing it fails (unlike Express, no default address). */
  function ReadDataFile(read: Option<Document>): (d: Document)
    ensures read.Some? ==> d == read.value
    ensures read.None? ==> d.config == [] && d.body == ""
  {
    match read
    case Some(doc) => doc
    case None => Document([], "")
  }

  /** The body of GET /api/content. */
  datatype ContentReply = ContentReply(config: Entries, sections: Entries, rawContent: string)

  function ParsedSections(read: Option<Document>): (r: Entries)
    ensures UniqueKeys(r)
    ensures forall e :: e in r ==> e.0 != "" && IsTrimmed(Py, e.0) && IsTrimmed(Py, e.1)
  {
    ParseHash(Py, ReadDataFile(read).body)
  }

  /** GET /api/content: the config as read, the parsed sections, and the
      body itself. */
  function GetContent(read: Option<Document>): (r: ContentReply)
    ensures r.config == ReadDataFile(read).config && r.rawContent == ReadDataFile(read).body
    ensures UniqueKeys(r.sections)
    ensures read.None? ==> r == ContentReply([], [], "")
  {
    assert read.None? ==> ParsedSections(read) == [] by {
      if read.None? {
        assert Split("", '\n') == [""] by { SplitWithout("", '\n'); }
        HashNoHeadingNoSections(Py, "");
      }
    }
    ContentReply(ReadDataFile(read).config, ParsedSections(read), ReadDataFile(read).body)
  }

  /** GET /api/content/{section}: 404 exactly when the name is not a key;
      an empty section is still found. */
  function GetSection(read: Option<Document>, name: string): (r: Reply)
    ensures r.NotFound? <==> name !in Keys(ParsedSections(read))
    ensures r.Found? ==> (name, r.content) in ParsedSections(read)
  {
    match Get(ParsedSections(read), name)
    case Some(v) => Found(v)
    case None => NotFound
  }

  /** The section route answers with what the whole-content route lists
      under that name. */
  lemma SectionRouteAgreesWithContentRoute(read: Option<Document>, name: string, v: string)
    requires (name, v) in GetContent(read).sections
    ensures GetSection(read, name) == Found(v)
  {
    var m := GetContent(read).sections;
    var i :| 0 <= i < |m| && m[i] == (name, v);
    GetAt(m, i);
  }

  /** On a body both backends read alike (every `# ` line is an Express
      heading, and no character is whitespace to one language only), the two
      section routes differ exactly on empty sections: Python answers with
      the empty text, Express with 404. */
  lemma BackendsDifferOnlyOnEmptySections(doc: Document, name: string)
    requires forall l :: l in Split(doc.body, '\n') && StartsWith(l, "# ") ==> IsExpressHeading(l)
    requires SameSpaces(doc.body)
    ensures ExpressApi.GetSection(Some(doc), name) ==
            if GetSection(Some(doc), name) == Found("") then NotFound else GetSection(Some(doc), name)
  {
    ExpressAgreesWithScript(doc.body);
    PythonAgreesWithScript(doc.body);
  }
}

=== FILE: frontmatter.dfy ===
/** The sync script's own reading of the front matter (it does not use a
    front-matter library): the block between the opening `---` line and the
    next `---`, each of its lines matched against a `key: value` pattern, and
    separately the removal of a leading `---` block before the body is split
    into sections. The regular expressions are modelled by their backtracking
    behaviour, written out as plain functions. */
module FrontMatter {
  import opened Text
  import opened Options
  import opened Assoc

  // ================================================================ the config block

  /** `^---\r?\n`: where the block's text begins, if the text opens with a
      `---` line. */
  function OpenLength(text: string): (r: Option<nat>)
    ensures r.Some? ==> r.value <= |text|
    ensures r == Some(5) <==> StartsWith(text, "---\r\n")
    ensures r == Some(4) <==> StartsWith(text, "---\n")
    ensures r.Some? ==> r == Some(4) || r == Some(5)
  {
    if StartsWith(text, "---\r\n") then
      assert text[..4][3] == '\r';
      Some(5)
    else if StartsWith(text, "---\n") then Some(4)
    else None
  }

  /** `\r?\n---` matches at `p`. */
  predicate CloseAt(text: string, p: nat)
    requires p <= |text|
  {
    StartsWith(text[p..], "\r\n---") || StartsWith(text[p..], "\n---")
  }

  /** The lazy `[\s\S]*?` stops at the first position where the closing
      pattern matches. */
  function FindClose(text: string, from: nat): (r: Option<nat>)
    requires from <= |text|
    ensures r.Some? ==> from <= r.value <= |text| && CloseAt(text, r.value)
    ensures r.Some? ==> forall p :: from <= p < r.value ==> !CloseAt(text, p)
    ensures r.None? ==> forall p :: from <= p <= |text| ==> !CloseAt(text, p)
    decreases |text| - from
  {
    if CloseAt(text, from) then Some(from)
    else if from == |text| then None
    else FindClose(text, from + 1)
  }

  lemma FindCloseIs(text: string, from: nat, p: nat)
    requires from <= p <= |text| && CloseAt(text, p)
    requires forall q :: from <= q < p ==> !CloseAt(text, q)
    ensures FindClose(text, from) == Some(p)
  {
  }

  /** `text.match(/^---\r?\n([\s\S]*?)\r?\n---/)[1]`, or `None` when the text
      does not match. */
  function ConfigBlock(text: string): (r: Option<string>)
    ensures r.Some? ==> StartsWith(text, "---")
    ensures r.Some? <==> OpenLength(text).Some? && FindClose(text, OpenLength(text).value).Some?
    ensures r.Some? ==>
              var s, p := OpenLength(text).value, FindClose(text, OpenLength(text).value).value;
              s <= p && r.value == text[s..p]
  {
    match OpenLength(text)
    case None => None
    case Some(s) =>
      match FindClose(text, s)
      case None => None
      case Some(p) => Some(text[s..p])
  }

  /** `s.split(/\r?\n/)`: split at every `\n`, a `\r` just before it going with it. */
  function SplitLines(s: string): (r: seq<string>)
    ensures |r| == |Split(s, '\n')|
  {
    var parts := Split(s, '\n');
    seq(|parts|, i requires 0 <= i < |parts| =>
      if i < |parts| - 1 && EndsWith(parts[i], "\r") then parts[i][..|parts[i]| - 1] else parts[i])
  }

  /** The lines hold no `\n`; each line but the last is its `split('\n')`
      part less one trailing `\r`, when the part has one; the last line is
      the last part as it stands. */
  lemma SplitLinesParts(s: string)
    ensures forall i :: 0 <= i < |SplitLines(s)| ==> '\n' !in SplitLines(s)[i]
    ensures SplitLines(s)[|SplitLines(s)| - 1] == Split(s, '\n')[|Split(s, '\n')| - 1]
    ensures forall i :: 0 <= i < |SplitLines(s)| - 1 ==>
              if EndsWith(Split(s, '\n')[i], "\r") then Split(s, '\n')[i] == SplitLines(s)[i] + "\r"
              else Split(s, '\n')[i] == SplitLines(s)[i]
  {
    var parts := Split(s, '\n');
    forall i | 0 <= i < |parts| ensures forall j :: 0 <= j < |parts[i]| ==> parts[i][j] != '\n' {
      assert parts[i] in parts;
    }
  }

  // ================================================================ one config line

  /** How `^(\w+):\s*"?([^"\r\n]+)"?$` matches a line: the key, the whitespace
      after the colon, an optional opening quote, the captured group, an
      optional closing quote. */
  datatype LineMatch = LineMatch(key: string, spaces: string, open: string, group: string, close: string)

  predicate IsWordString(s: string) {
    forall i :: 0 <= i < |s| ==> IsWordChar(s[i])
  }

  /** `[^"\r\n]+`. */
  predicate IsGroup(g: string) {
    |g| > 0 && forall i :: 0 <= i < |g| ==> g[i] != '"' && g[i] != '\r' && g[i] != '\n'
  }

  /** The text after the colon, as the match divides it. */
  function Tail(m: LineMatch): string {
    m.spaces + m.open + m.group + m.close
  }

  /** The parts after the colon are of the kinds the pattern allows. */
  predicate GoodTail(m: LineMatch) {
    && AllSpace(Js, m.spaces)
    && (m.open == "" || m.open == "\"")
    && IsGroup(m.group)
    && (m.close == "" || m.close == "\"")
  }

  /** `m` is one way for the pattern to match the whole of `line`. */
  predicate IsLineMatch(line: string, m: LineMatch) {
    && line == m.key + ":" + Tail(m)
    && |m.key| > 0 && IsWordString(m.key)
    && GoodTail(m)
  }

  /** Length of the longest prefix of word characters. */
  function WordPrefix(s: string): (n: nat)
    ensures n <= |s| && IsWordString(s[..n])
    ensures n < |s| ==> !IsWordChar(s[n])
  {
    if |s| == 0 || !IsWordChar(s[0]) then 0
    else
      var n := 1 + WordPrefix(s[1..]);
      assert forall i :: 1 <= i < n ==> s[..n][i] == s[1..][..n - 1][i - 1];
      n
  }

  /** `([^"\r\n]+)"?$` on the text `t`: the group and the closing quote. */
  function GroupAndClose(t: string): (r: Option<(string, string)>)
    ensures r.Some? ==> IsGroup(r.value.0) && (r.value.1 == "" || r.value.1 == "\"")
    ensures r.Some? ==> t == r.value.0 + r.value.1
  {
    if |t| > 0 && t[|t| - 1] == '"' then
      if IsGroup(t[..|t| - 1]) then Some((t[..|t| - 1], "\"")) else None
    else if IsGroup(t) then Some((t, ""))
    else None
  }

  /** The first match in the regular expression's backtracking order: `\s*`
      takes all the whitespace it can, `"?` takes a quote when it can, and
      `[^"\r\n]+` as much as it can. Only when all that fails does `\s*` give
      back one whitespace character for the group (it cannot give back more,
      since the group would then hold the same offending text). */
  function MatchLine(line: string): (r: Option<LineMatch>)
    ensures r.Some? ==> IsLineMatch(line, r.value)
  {
    var n := WordPrefix(line);
    if n == 0 || n == |line| || line[n] != ':' then None
    else
      assert line == line[..n] + ":" + line[n + 1..];
      MatchRest(line[..n], line[n + 1..])
  }

  /** What follows the colon: `\s*"?([^"\r\n]+)"?$`. */
  function MatchRest(key: string, rest: string): (r: Option<LineMatch>)
    ensures r.Some? ==> r.value.key == key && rest == Tail(r.value) && GoodTail(r.value)
  {
    var w := LeadSpaces(Js, rest);
    var t := rest[w..];
    match AfterSpaces(t)
    case Some((o, g, c)) =>
      GreedyTail(key, rest, o, g, c);
      Some(LineMatch(key, rest[..w], o, g, c))
    case None =>
      if (t == "" || t == "\"") && w > 0 && rest[w - 1] != '\r' && rest[w - 1] != '\n' then
        SpaceGroup(rest, w, t);
        Some(LineMatch(key, rest[..w - 1], "", [rest[w - 1]], t))
      else None
  }

  /** `"?([^"\r\n]+)"?$` on the text after the whitespace, read greedily:
      the opening quote when there is one, the group, the closing quote. */
  function AfterSpaces(t: string): (r: Option<(string, string, string)>)
    ensures r.Some? ==> t == r.value.0 + r.value.1 + r.value.2
    ensures r.Some? ==> (r.value.0 == "" || r.value.0 == "\"") && IsGroup(r.value.1)
                        && (r.value.2 == "" || r.value.2 == "\"")
  {
    if |t| > 0 && t[0] == '"' && GroupAndClose(t[1..]).Some? then
      var gc := GroupAndClose(t[1..]).value;
      assert t == [t[0]] + t[1..];
      Some(("\"", gc.0, gc.1))
    else if |t| > 0 && t[0] != '"' then
      match GroupAndClose(t)
      case None => None
      case Some(gc) => Some(("", gc.0, gc.1))
    else None
  }

  lemma GreedyTail(key: string, rest: string, o: string, g: string, c: string)
    requires rest[LeadSpaces(Js, rest)..] == o + g + c
    requires (o == "" || o == "\"") && IsGroup(g) && (c == "" || c == "\"")
    ensures var m := LineMatch(key, rest[..LeadSpaces(Js, rest)], o, g, c);
            rest == Tail(m) && GoodTail(m)
  {
    var w := LeadSpaces(Js, rest);
    LeadSlice(Js, rest);
    assert rest == rest[..w] + rest[w..];
    Regroup(rest[..w], o, g, c, "");
  }

  /** The fallback: the last whitespace character becomes the group. */
  lemma SpaceGroup(rest: string, w: nat, t: string)
    requires 0 < w <= |rest| && (forall j :: 0 <= j < w ==> IsSpace(Js, rest[j])) && t == rest[w..]
    requires (t == "" || t == "\"") && rest[w - 1] != '\r' && rest[w - 1] != '\n'
    ensures var m := LineMatch("", rest[..w - 1], "", [rest[w - 1]], t);
            rest == Tail(m) && GoodTail(m)
  {
    assert rest == rest[..w - 1] + [rest[w - 1]] + t;
    var lead := rest[..w - 1];
    assert forall i :: 0 <= i < w - 1 ==> lead[i] == rest[i];
  }

  /** The pattern matches the line in some way exactly when `MatchLine` finds
      a match, and then with the same key and, once trimmed, the same value:
      which of the possible matches the regular expression picks makes no
      difference to the config. */
  lemma MatchLineComplete(line: string, m: LineMatch)
    requires IsLineMatch(line, m)
    ensures MatchLine(line).Some? && MatchLine(line).value.key == m.key
    ensures Trim(Js, MatchLine(line).value.group) == Trim(Js, m.group)
  {
    KeyOfMatch(line, m);
    MatchRestComplete(m.key, line[|m.key| + 1..], m);
  }

  lemma MatchRestComplete(key: string, rest: string, m: LineMatch)
    requires rest == Tail(m) && GoodTail(m)
    ensures MatchRest(key, rest).Some?
    ensures Trim(Js, MatchRest(key, rest).value.group) == Trim(Js, m.group)
  {
    SpacesWithinLead(rest, m.spaces);
    if |m.spaces| == LeadSpaces(Js, rest) {
      SameSpacesMatch(key, rest, m);
    } else {
      LateMatch(key, rest, m);
    }
  }

  /** The match takes all the leading whitespace: the greedy reading is that match. */
  lemma SameSpacesMatch(key: string, rest: string, m: LineMatch)
    requires rest == Tail(m) && GoodTail(m) && |m.spaces| == LeadSpaces(Js, rest)
    ensures MatchRest(key, rest).Some? && MatchRest(key, rest).value.group == m.group
  {
    var t := rest[|m.spaces|..];
    assert t == m.open + m.group + m.close;
    AfterSpacesOf(t, m.open, m.group, m.close);
  }

  lemma AfterSpacesOf(t: string, o: string, g: string, c: string)
    requires t == o + g + c && (o == "" || o == "\"") && IsGroup(g) && (c == "" || c == "\"")
    ensures AfterSpaces(t) == Some((o, g, c))
  {
    if o == "\"" {
      assert t[1..] == g + c;
      GroupAndCloseOf(t[1..], g, c);
    } else {
      assert t == g + c;
      assert t[0] == g[0];
      GroupAndCloseOf(t, g, c);
    }
  }

  /** The match leaves some of the leading whitespace to its group. */
  lemma LateMatch(key: string, rest: string, m: LineMatch)
    requires rest == Tail(m) && GoodTail(m) && |m.spaces| < LeadSpaces(Js, rest)
    ensures MatchRest(key, rest).Some?
    ensures Trim(Js, MatchRest(key, rest).value.group) == Trim(Js, m.group)
  {
    var s := |m.spaces|;
    // the group starts inside the whitespace, so there is no opening quote
    assert IsSpace(Js, rest[s]);
    assert rest[s] == Tail(m)[s];
    assert m.open == "";
    assert rest[s..] == m.group + m.close;
    LateGroup(key, rest, s, LeadSpaces(Js, rest), m.group, m.close);
  }

  lemma KeyOfMatch(line: string, m: LineMatch)
    requires IsLineMatch(line, m)
    ensures WordPrefix(line) == |m.key| && line[..|m.key|] == m.key && line[|m.key|] == ':'
    ensures line[|m.key| + 1..] == Tail(m)
  {
    var k := |m.key|;
    assert line[..k] == m.key;
    assert line[k] == ':';
    WordPrefixIs(line, k);
    assert line[k + 1..] == Tail(m);
  }

  lemma {:induction false} WordPrefixIs(s: string, k: nat)
    requires k < |s| && IsWordString(s[..k]) && !IsWordChar(s[k])
    ensures WordPrefix(s) == k
    decreases k
  {
    if k > 0 {
      assert IsWordChar(s[..k][0]);
      assert s[1..][..k - 1] == s[..k][1..];
      WordPrefixIs(s[1..], k - 1);
    }
  }

  /** Whitespace at the start of `rest` lies within its leading whitespace. */
  lemma SpacesWithinLead(rest: string, sp: string)
    requires StartsWith(rest, sp) && AllSpace(Js, sp)
    ensures |sp| <= LeadSpaces(Js, rest)
  {
  }

  lemma GroupAndCloseOf(t: string, g: string, c: string)
    requires IsGroup(g) && (c == "" || c == "\"") && t == g + c
    ensures GroupAndClose(t) == Some((g, c))
  {
    if c == "\"" {
      assert t[..|t| - 1] == g;
    } else {
      assert t == g;
      assert t[|t| - 1] == g[|g| - 1];
    }
  }

  /** A match whose group starts inside the leading whitespace: either the
      greedy reading matches as well, or the fallback applies. */
  lemma LateGroup(key: string, rest: string, s: nat, w: nat, g: string, c: string)
    requires s < w == LeadSpaces(Js, rest) && w <= |rest|
    requires rest[s..] == g + c && IsGroup(g) && (c == "" || c == "\"")
    ensures MatchRest(key, rest).Some?
    ensures Trim(Js, MatchRest(key, rest).value.group) == Trim(Js, g)
  {
    var k := w - s;
    WhitespaceOfGroup(rest, s, w, g, c);
    assert AllSpace(Js, g[..k]);
    SliceOfConcat(rest, s, k, g, c);
    assert rest[w..] == g[k..] + c;
    if k < |g| {
      TrimAfterSpaces(g, k);
      GroupSuffix(g, k);
      GroupPastSpaces(key, rest, g[k..], c);
    } else {
      GroupOfSpaces(key, rest, s, w, g, c);
    }
  }

  lemma GroupSuffix(g: string, k: nat)
    requires IsGroup(g) && k < |g|
    ensures IsGroup(g[k..])
  {
    assert forall i :: 0 <= i < |g| - k ==> g[k..][i] == g[k + i];
  }

  lemma SliceOfConcat(rest: string, s: nat, k: nat, g: string, c: string)
    requires s <= |rest| && rest[s..] == g + c && k <= |g|
    ensures rest[s + k..] == g[k..] + c
  {
    assert rest[s..][k..] == rest[s + k..];
  }

  /** The whitespace the greedy `\s*` would take from the group. */
  lemma WhitespaceOfGroup(rest: string, s: nat, w: nat, g: string, c: string)
    requires s < w == LeadSpaces(Js, rest) && w <= |rest|
    requires rest[s..] == g + c && IsGroup(g) && (c == "" || c == "\"")
    ensures w - s <= |g| && g[..w - s] == rest[s..w] && AllSpace(Js, g[..w - s])
  {
    var k := w - s;
    if c == "\"" {
      assert rest[s + |g|] == rest[s..][|g|];
    }
    var mid := rest[s..w];
    assert g[..k] == mid;
    assert forall i :: 0 <= i < k ==> mid[i] == rest[s + i];
  }

  /** The group runs past the whitespace: the greedy reading finds its tail. */
  lemma GroupPastSpaces(key: string, rest: string, tail: string, c: string)
    requires rest[LeadSpaces(Js, rest)..] == tail + c && IsGroup(tail) && (c == "" || c == "\"")
    ensures MatchRest(key, rest).Some? && MatchRest(key, rest).value.group == tail
  {
    var t := rest[LeadSpaces(Js, rest)..];
    assert t[0] == tail[0];
    GroupAndCloseOf(t, tail, c);
    MatchRestPlain(key, rest);
  }

  /** Nothing but whitespace before the closing quote or the end: the
      fallback applies, and both groups trim to nothing. */
  lemma GroupOfSpaces(key: string, rest: string, s: nat, w: nat, g: string, c: string)
    requires s < w == LeadSpaces(Js, rest) && w <= |rest|
    requires rest[s..] == g + c && IsGroup(g) && (c == "" || c == "\"")
    requires w - s == |g| && g == rest[s..w] && AllSpace(Js, g)
    requires rest[w..] == c
    ensures MatchRest(key, rest).Some?
    ensures Trim(Js, MatchRest(key, rest).value.group) == Trim(Js, g)
  {
    assert rest[w - 1] == g[|g| - 1];
    MatchRestFallback(key, rest);
    LastSpaceTrims(g);
  }

  lemma LastSpaceTrims(g: string)
    requires |g| > 0 && AllSpace(Js, g)
    ensures Trim(Js, [g[|g| - 1]]) == "" && Trim(Js, g) == ""
  {
    assert AllSpace(Js, [g[|g| - 1]]);
  }

  lemma MatchRestPlain(key: string, rest: string)
    requires var t := rest[LeadSpaces(Js, rest)..];
             |t| > 0 && t[0] != '"' && GroupAndClose(t).Some?
    ensures MatchRest(key, rest).Some?
    ensures MatchRest(key, rest).value.group == GroupAndClose(rest[LeadSpaces(Js, rest)..]).value.0
  {
  }

  lemma MatchRestFallback(key: string, rest: string)
    requires var w := LeadSpaces(Js, rest);
             && 0 < w && (rest[w..] == "" || rest[w..] == "\"")
             && rest[w - 1] != '\r' && rest[w - 1] != '\n'
    ensures MatchRest(key, rest).Some?
    ensures MatchRest(key, rest).value.group == [rest[LeadSpaces(Js, rest) - 1]]
  {
    var w := LeadSpaces(Js, rest);
    if rest[w..] == "\"" {
      assert rest[w..][1..] == "";
    }
  }

  lemma TrimAfterSpaces(g: string, k: nat)
    requires k <= |g| && AllSpace(Js, g[..k])
    ensures Trim(Js, g[k..]) == Trim(Js, g)
  {
    assert g == g[..k] + g[k..] + "";
    TrimPadded(Js, g[..k], g[k..], "");
  }



  // ================================================================ the config

  /** The value a matched line stores: the group trimmed, then the
      surrounding quotes removed if it has them (`slice(1, -1)`). */
  function LineValue(m: LineMatch): (v: string)
    ensures |v| <= |m.group|
  {
    var value := Trim(Js, m.group);
    if StartsWith(value, "\"") && EndsWith(value, "\"") then
      if |value| < 2 then "" else value[1..|value| - 1]
    else value
  }

  /** The group never holds a quote, so the quote removal never fires: the
      stored value is the trimmed group, and it holds no quote. */
  lemma LineValueIsTrimmedGroup(m: LineMatch)
    requires IsGroup(m.group)
    ensures LineValue(m) == Trim(Js, m.group)
    ensures '"' !in LineValue(m)
  {
    TrimNoQuote(m.group);
  }

  lemma TrimNoQuote(g: string)
    requires IsGroup(g)
    ensures '"' !in Trim(Js, g) && !StartsWith(Trim(Js, g), "\"")
  {
    var value := Trim(Js, g);
    TrimmedCharsFromSource(Js, g);
    forall c | c in g ensures c != '"' {
      var i :| 0 <= i < |g| && g[i] == c;
    }
    if |value| > 0 {
      assert value[0] in value;
      assert value[..1] == [value[0]];
    }
  }

  /** The entries the block's lines assign, in line order; lines that do not
      match are skipped. */
  function LineEntries(lines: seq<string>): (es: Entries)
    ensures |es| <= |lines|
    decreases |lines|
  {
    if |lines| == 0 then []
    else
      var here := match MatchLine(lines[0])
        case None => []
        case Some(m) => [(m.key, LineValue(m))];
      here + LineEntries(lines[1..])
  }

  /** The sync script's `config` object: empty when the text has no config
      block, otherwise every matching line assigned in turn. */
  function ParseConfig(text: string): (r: Entries)
    ensures ConfigBlock(text).None? ==> r == []
    ensures UniqueKeys(r)
  {
    match ConfigBlock(text)
    case None => []
    case Some(block) =>
      PutAllUnique([], LineEntries(SplitLines(block)));
      PutAll([], LineEntries(SplitLines(block)))
  }

  lemma {:induction false} PutAllUnique(m: Entries, es: Entries)
    requires UniqueKeys(m)
    ensures UniqueKeys(PutAll(m, es))
    decreases |es|
  {
    if |es| > 0 {
      PutAllUnique(Put(m, es[0].0, es[0].1), es[1..]);
    }
  }

  /** No config value the sync script reads holds a quote. */
  lemma ConfigValuesQuoteFree(text: string)
    ensures forall e :: e in ParseConfig(text) ==> '"' !in e.1
  {
    if ConfigBlock(text).Some? {
      var es := LineEntries(SplitLines(ConfigBlock(text).value));
      LineEntriesQuoteFree(SplitLines(ConfigBlock(text).value));
      PutAllFrom([], es);
    }
  }

  lemma {:induction false} LineEntriesQuoteFree(lines: seq<string>)
    ensures forall e :: e in LineEntries(lines) ==> '"' !in e.1
    decreases |lines|
  {
    if |lines| > 0 {
      if MatchLine(lines[0]).Some? {
        LineValueIsTrimmedGroup(MatchLine(lines[0]).value);
      }
      LineEntriesQuoteFree(lines[1..]);
    }
  }

  /** Every entry of `PutAll(m, es)` comes from `m` or `es`. */
  lemma {:induction false} PutAllFrom(m: Entries, es: Entries)
    ensures forall e :: e in PutAll(m, es) ==> e in m || e in es
    decreases |es|
  {
    if |es| > 0 {
      PutEntries(m, es[0].0, es[0].1);
      PutAllFrom(Put(m, es[0].0, es[0].1), es[1..]);
    }
  }

  /** How each line of the block matches the config pattern, if it does. */
  function LineMatches(lines: seq<string>): (ms: seq<Option<LineMatch>>)
    ensures |ms| == |lines|
    ensures forall i :: 0 <= i < |lines| ==> ms[i] == MatchLine(lines[i])
  {
    seq(|lines|, i requires 0 <= i < |lines| => MatchLine(lines[i]))
  }

  /** Line `i` matched with key `k`. */
  predicate KeyAt(ms: seq<Option<LineMatch>>, i: int, k: string) {
    0 <= i < |ms| && ms[i].Some? && ms[i].value.key == k
  }

  /** The value read for `k`, stated without the object: the value of the
      last line whose key is `k` (`LastMatchAt`), or `None` when no line has
      that key. */
  function LastMatch(ms: seq<Option<LineMatch>>, k: string): (r: Option<string>)
    ensures r.Some? <==> exists i :: KeyAt(ms, i, k)
    decreases |ms|
  {
    if |ms| == 0 then None
    else if KeyAt(ms, |ms| - 1, k) then Some(LineValue(ms[|ms| - 1].value))
    else
      var front := ms[..|ms| - 1];
      var r := LastMatch(front, k);
      assert r.Some? ==> exists i :: KeyAt(ms, i, k) by {
        if r.Some? {
          var i :| KeyAt(front, i, k);
          assert front[i] == ms[i];
          assert KeyAt(ms, i, k);
        }
      }
      assert (exists i :: KeyAt(ms, i, k)) ==> r.Some? by {
        if i :| KeyAt(ms, i, k) {
          assert front[i] == ms[i];
          assert KeyAt(front, i, k);
        }
      }
      r
  }

  /** The line that matches with key `k` last decides its value. */
  lemma {:induction false} LastMatchAt(ms: seq<Option<LineMatch>>, k: string, j: nat)
    requires KeyAt(ms, j, k)
    requires forall i :: j < i < |ms| ==> !KeyAt(ms, i, k)
    ensures LastMatch(ms, k) == Some(LineValue(ms[j].value))
    decreases |ms|
  {
    var n := |ms| - 1;
    if j < n {
      var front := ms[..n];
      assert !KeyAt(ms, n, k);
      assert LastMatch(ms, k) == LastMatch(front, k);
      assert front[j] == ms[j];
      forall i | j < i < |front| ensures !KeyAt(front, i, k) {
        assert front[i] == ms[i] && !KeyAt(ms, i, k);
      }
      LastMatchAt(front, k, j);
    }
  }

  /** Reading `k` after assigning the block's lines over `m`: the last line
      with key `k` decides, and without one `m` is left as it was. */
  lemma {:induction false} LineEntriesGet(m: Entries, lines: seq<string>, k: string)
    ensures Get(PutAll(m, LineEntries(lines)), k) ==
              if LastMatch(LineMatches(lines), k).Some? then LastMatch(LineMatches(lines), k) else Get(m, k)
    decreases |lines|
  {
    if |lines| > 0 {
      var n := |lines| - 1;
      var front, last := lines[..n], lines[n];
      assert lines == front + [last];
      assert LineMatches(lines)[..n] == LineMatches(front);
      LineEntriesAppend(front, [last]);
      PutAllAppend(m, LineEntries(front), LineEntries([last]));
      LineEntriesGet(m, front, k);
      GetAfterLine(PutAll(m, LineEntries(front)), last, k);
    }
  }

  /** One more line assigns `k` exactly when it matches with key `k`. */
  lemma GetAfterLine(m: Entries, line: string, k: string)
    ensures Get(PutAll(m, LineEntries([line])), k) ==
              if MatchLine(line).Some? && MatchLine(line).value.key == k then Some(LineValue(MatchLine(line).value))
              else Get(m, k)
  {
    assert [line][1..] == [];
    match MatchLine(line)
    case None =>
      assert LineEntries([line]) == [];
    case Some(mt) =>
      assert LineEntries([line]) == [(mt.key, LineValue(mt))];
      assert PutAll(m, [(mt.key, LineValue(mt))]) == PutAll(Put(m, mt.key, LineValue(mt)), []);
      PutGet(m, mt.key, LineValue(mt));
  }

  lemma {:induction false} LineEntriesAppend(a: seq<string>, b: seq<string>)
    ensures LineEntries(a + b) == LineEntries(a) + LineEntries(b)
    decreases |a|
  {
    if |a| == 0 {
      assert a + b == b;
    } else {
      assert (a + b)[0] == a[0] && (a + b)[1..] == a[1..] + b;
      LineEntriesAppend(a[1..], b);
    }
  }

  /** What the sync script reads for `k`: nothing without a config block,
      otherwise the value of the block's last line with key `k`; lines that
      do not match the pattern assign nothing. */
  lemma ConfigReads(text: string, k: string)
    ensures Get(ParseConfig(text), k) ==
              if ConfigBlock(text).None? then None else LastMatch(LineMatches(SplitLines(ConfigBlock(text).value)), k)
  {
    if ConfigBlock(text).Some? {
      LineEntriesGet([], SplitLines(ConfigBlock(text).value), k);
    }
  }

  /** A key on several lines of the block keeps the value of its last line. */
  lemma ConfigLastWins(text: string, k: string, j: nat)
    requires ConfigBlock(text).Some?
    requires KeyAt(LineMatches(SplitLines(ConfigBlock(text).value)), j, k)
    requires forall i :: j < i < |SplitLines(ConfigBlock(text).value)| ==>
               !KeyAt(LineMatches(SplitLines(ConfigBlock(text).value)), i, k)
    ensures Get(ParseConfig(text), k) == Some(LineValue(MatchLine(SplitLines(ConfigBlock(text).value)[j]).value))
  {
    ConfigReads(text, k);
    LastMatchAt(LineMatches(SplitLines(ConfigBlock(text).value)), k, j);
  }

  lemma {:induction false} PutAllAppend(m: Entries, a: Entries, b: Entries)
    ensures PutAll(m, a + b) == PutAll(PutAll(m, a), b)
    decreases |a|
  {
    if |a| > 0 {
      assert (a + b)[0] == a[0];
      assert (a + b)[1..] == a[1..] + b;
      PutAllAppend(Put(m, a[0].0, a[0].1), a[1..], b);
    } else {
      assert a + b == b;
    }
  }

  // ================================================================ removing the block before the body

  /** `text.replace(/^---\n[\s\S]*?\n---\n/, '')`: only a block opened by
      `---\n` and closed by the first later `\n---\n` is removed; nothing else
      changes. */
  function StripFrontMatter(text: string): (r: string)
    ensures !StartsWith(text, "---\n") ==> r == text
    ensures StartsWith(text, "---\n") && FindFrom(text, "\n---\n", 4).None? ==> r == text
    ensures StartsWith(text, "---\n") && FindFrom(text, "\n---\n", 4).Some? ==>
              var p := FindFrom(text, "\n---\n", 4).value;
              p + 5 <= |text| && StartsWith(text[p..], "\n---\n") && r == text[p + 5..]
    ensures |r| <= |text| && EndsWith(text, r)
  {
    if !StartsWith(text, "---\n") then text
    else
      match FindFrom(text, "\n---\n", 4)
      case None => text
      case Some(p) => text[p + 5..]
  }

  /** The config block may end lines with `\r\n`, but the strip pattern needs
      `---\n`: a file written with Windows line endings keeps its front matter
      in front of the body. */
  lemma CrLfNotStripped(rest: string)
    ensures StripFrontMatter("---\r\n" + rest) == "---\r\n" + rest
  {
    var text := "---\r\n" + rest;
    assert text[3] == '\r';
  }

  /** A block whose text, with the closing line's break, holds no
      `\n---\n` is removed together with its delimiters, leaving the body. */
  lemma StripBlock(block: string, body: string)
    requires !Contains(block + "\n", "\n---\n")
    ensures StripFrontMatter("---\n" + block + "\n---\n" + body) == body
  {
    var text := "---\n" + block + "\n---\n" + body;
    var k := 4 + |block|;
    assert text[..4] == "---\n";
    assert text[k..][..5] == "\n---\n";
    forall q | 4 <= q < k ensures !StartsWith(text[q..], "\n---\n") {
      NoCloseInside(block, body, q);
    }
    FindFirst(text, "\n---\n", 4, k);
    assert text[k + 5..] == body;
  }

  lemma NoCloseInside(block: string, body: string, q: nat)
    requires !Contains(block + "\n", "\n---\n") && 4 <= q < 4 + |block|
    ensures !StartsWith(("---\n" + block + "\n---\n" + body)[q..], "\n---\n")
  {
    var text := "---\n" + block + "\n---\n" + body;
    var inner := block + "\n";
    var k := 4 + |block|;
    if q + 5 <= k + 1 {
      NotContainsAt(inner, "\n---\n", q - 4);
      assert text[q..][..5] == inner[q - 4..][..5];
    } else {
      assert text[k] == '\n';
      assert text[q..][k - q] == text[k];
    }
  }

}

=== FILE: items.dfy ===
/** The sub-item parsers of the Education, Experience and Projects sections
    all have one shape: a `## ` heading line closes the open record and opens a
    new one, the lines under it fill in its fields, and a record is emitted when
    it is closed (by the next heading or the end of the text) if it passes the
    parser's emission test. A `Grammar` names the four varying parts; `Parse`
    is the shared loop, and `Reference` an independent block-by-block reading
    of the same text that `ParseIsReference` proves it equal to. */
module Items {
  import opened Text
  import opened Options

  datatype Grammar<!T> = Grammar(
    heading: string -> bool,    // does this line open a new record?
    start: string -> T,         // the record a heading line opens
    fill: (T, string) -> T,     // the effect of a non-heading line on the open record
    keep: T -> bool)            // is a closed record emitted?

  /** The loop variables: records emitted so far and the open record, if any. */
  datatype Fold<T> = Fold(items: seq<T>, open: Option<T>)

  function Emit<T>(g: Grammar<T>, x: T): seq<T> {
    if g.keep(x) then [x] else []
  }

  function Close<T>(g: Grammar<T>, st: Fold<T>): seq<T> {
    if st.open.Some? then st.items + Emit(g, st.open.value) else st.items
  }

  function Step<T>(g: Grammar<T>, st: Fold<T>, line: string): Fold<T> {
    if g.heading(line) then Fold(Close(g, st), Some(g.start(line)))
    else if st.open.Some? then Fold(st.items, Some(g.fill(st.open.value, line)))
    else st
  }

  function Run<T>(g: Grammar<T>, lines: seq<string>, st: Fold<T>): Fold<T>
    decreases |lines|
  {
    if |lines| == 0 then st else Run(g, lines[1..], Step(g, st, lines[0]))
  }

  predicate NoHeading<T>(g: Grammar<T>, lines: seq<string>) {
    forall i :: 0 <= i < |lines| ==> !g.heading(lines[i])
  }

  function Headings<T>(g: Grammar<T>, lines: seq<string>): nat
    decreases |lines|
  {
    if |lines| == 0 then 0
    else (if g.heading(lines[0]) then 1 else 0) + Headings(g, lines[1..])
  }

  /** The records parsed from the lines of a section body, in order. Each is
      one that passes the emission test, and there are no more of them than
      heading lines. */
  function ParseLines<T>(g: Grammar<T>, lines: seq<string>): (r: seq<T>)
    ensures |r| <= Headings(g, lines)
    ensures forall i :: 0 <= i < |r| ==> g.keep(r[i])
  {
    ParseIsReference(g, lines);
    ReferenceBounds(g, lines);
    Close(g, Run(g, lines, Fold([], None)))
  }

  /** `content.split('\n')` followed by the loop. */
  function Parse<T>(g: Grammar<T>, content: string): seq<T> {
    ParseLines(g, Split(content, '\n'))
  }

  // ---------------------------------------------------------------- the block-by-block reading

  /** Index of the first heading line, or `|lines|` when there is none. */
  function FirstHeading<T>(g: Grammar<T>, lines: seq<string>): (i: nat)
    ensures i <= |lines|
    ensures i < |lines| ==> g.heading(lines[i])
    ensures NoHeading(g, lines[..i])
    decreases |lines|
  {
    if |lines| == 0 || g.heading(lines[0]) then 0
    else
      var j := FirstHeading(g, lines[1..]);
      assert NoHeading(g, lines[..j + 1]) by {
        var pre := lines[..j + 1];
        forall k | 0 <= k < |pre| ensures !g.heading(pre[k]) {
          if k > 0 { assert pre[k] == lines[1..][..j][k - 1]; }
        }
      }
      j + 1
  }

  /** The record a heading's block fills in: the body lines applied in order. */
  function Labels<T>(g: Grammar<T>, x: T, lines: seq<string>): T
    decreases |lines|
  {
    if |lines| == 0 then x else Labels(g, g.fill(x, lines[0]), lines[1..])
  }

  /** Lines before the first heading are skipped; then each heading with the
      lines up to the next heading makes one candidate record, emitted if it
      passes the test. */
  function Reference<T>(g: Grammar<T>, lines: seq<string>): seq<T>
    decreases |lines|
  {
    if |lines| == 0 then []
    else if !g.heading(lines[0]) then Reference(g, lines[1..])
    else
      var j := 1 + FirstHeading(g, lines[1..]);
      Emit(g, Labels(g, g.start(lines[0]), lines[1..j])) + Reference(g, lines[j..])
  }

  /** What is still to come from `lines` when `open` is the open record. */
  function Pending<T>(g: Grammar<T>, open: Option<T>, lines: seq<string>): seq<T> {
    match open
    case None => Reference(g, lines)
    case Some(x) =>
      var j := FirstHeading(g, lines);
      Emit(g, Labels(g, x, lines[..j])) + Reference(g, lines[j..])
  }

  lemma {:induction false} RunIsPending<T>(g: Grammar<T>, lines: seq<string>, st: Fold<T>)
    ensures Close(g, Run(g, lines, st)) == st.items + Pending(g, st.open, lines)
    decreases |lines|
  {
    if |lines| == 0 {
      assert lines[..0] == [];
    } else {
      RunIsPending(g, lines[1..], Step(g, st, lines[0]));
      if g.heading(lines[0]) {
        PendingAtHeading(g, lines, st);
      } else if st.open.Some? {
        PendingInBlock(g, lines, st.open.value);
      }
    }
  }

  /** A heading closes the open record and starts the next block. */
  lemma PendingAtHeading<T>(g: Grammar<T>, lines: seq<string>, st: Fold<T>)
    requires |lines| > 0 && g.heading(lines[0])
    ensures st.items + Pending(g, st.open, lines) == Close(g, st) + Pending(g, Some(g.start(lines[0])), lines[1..])
  {
    HeadingOpensBlock(g, lines);
    if st.open.Some? {
      HeadingClosesBlock(g, lines, st.open.value);
      assert st.items + (Emit(g, st.open.value) + Reference(g, lines))
          == (st.items + Emit(g, st.open.value)) + Reference(g, lines);
    }
  }

  lemma HeadingOpensBlock<T>(g: Grammar<T>, lines: seq<string>)
    requires |lines| > 0 && g.heading(lines[0])
    ensures Reference(g, lines) == Pending(g, Some(g.start(lines[0])), lines[1..])
  {
    var rest := lines[1..];
    var j := FirstHeading(g, rest);
    ReferenceAtHeading(g, lines);
    assert lines[1..1 + j] == rest[..j] && lines[1 + j..] == rest[j..];
  }

  lemma HeadingClosesBlock<T>(g: Grammar<T>, lines: seq<string>, x: T)
    requires |lines| > 0 && g.heading(lines[0])
    ensures Pending(g, Some(x), lines) == Emit(g, x) + Reference(g, lines)
  {
    assert FirstHeading(g, lines) == 0;
    assert lines[..0] == [] && lines[0..] == lines;
    assert Labels(g, x, lines[..0]) == x;
  }

  /** A line that is no heading goes into the open record. */
  lemma PendingInBlock<T>(g: Grammar<T>, lines: seq<string>, x: T)
    requires |lines| > 0 && !g.heading(lines[0])
    ensures Pending(g, Some(x), lines) == Pending(g, Some(g.fill(x, lines[0])), lines[1..])
  {
    var rest := lines[1..];
    var j := FirstHeading(g, rest);
    assert FirstHeading(g, lines) == j + 1;
    assert lines[..j + 1] == [lines[0]] + rest[..j];
    assert lines[j + 1..] == rest[j..];
  }

  /** The loop reads the text exactly as the block-by-block reference does. */
  lemma ParseIsReference<T>(g: Grammar<T>, lines: seq<string>)
    ensures Close(g, Run(g, lines, Fold([], None))) == Reference(g, lines)
  {
    RunIsPending(g, lines, Fold([], None));
    assert [] + Reference(g, lines) == Reference(g, lines);
  }

  lemma {:induction false} ReferenceBounds<T>(g: Grammar<T>, lines: seq<string>)
    ensures |Reference(g, lines)| <= Headings(g, lines)
    ensures forall i :: 0 <= i < |Reference(g, lines)| ==> g.keep(Reference(g, lines)[i])
    decreases |lines|
  {
    if |lines| > 0 {
      ReferenceBounds(g, lines[1..]);
      if g.heading(lines[0]) {
        var j := 1 + FirstHeading(g, lines[1..]);
        ReferenceBounds(g, lines[j..]);
        HeadingsSkip(g, lines[1..], j - 1);
        assert lines[1..][j - 1..] == lines[j..];
      }
    }
  }

  /** Skipping lines without headings leaves the heading count unchanged. */
  lemma {:induction false} HeadingsSkip<T>(g: Grammar<T>, lines: seq<string>, j: nat)
    requires j <= |lines| && NoHeading(g, lines[..j])
    ensures Headings(g, lines[j..]) == Headings(g, lines)
    decreases j
  {
    if j > 0 {
      assert lines[..j][0] == lines[0];
      assert lines[1..][..j - 1] == lines[..j][1..];
      HeadingsSkip(g, lines[1..], j - 1);
      assert lines[1..][j - 1..] == lines[j..];
    }
  }

  // ---------------------------------------------------------------- consequences

  /** Lines before the first heading never affect the result. */
  lemma {:induction false} PreambleIgnored<T>(g: Grammar<T>, pre: seq<string>, rest: seq<string>)
    requires NoHeading(g, pre)
    ensures ParseLines(g, pre + rest) == ParseLines(g, rest)
    decreases |pre|
  {
    ParseIsReference(g, pre + rest);
    ParseIsReference(g, rest);
    ReferencePreamble(g, pre, rest);
  }

  lemma {:induction false} ReferencePreamble<T>(g: Grammar<T>, pre: seq<string>, rest: seq<string>)
    requires NoHeading(g, pre)
    ensures Reference(g, pre + rest) == Reference(g, rest)
    decreases |pre|
  {
    if |pre| > 0 {
      assert (pre + rest)[0] == pre[0];
      assert (pre + rest)[1..] == pre[1..] + rest;
      ReferencePreamble(g, pre[1..], rest);
    } else {
      assert pre + rest == rest;
    }
  }

  /** A line that is no heading and that the fill step ignores can be
      dropped without changing the result. */
  lemma InertLine<T>(g: Grammar<T>, a: seq<string>, l: string, b: seq<string>)
    requires !g.heading(l)
    requires forall x :: g.fill(x, l) == x
    ensures ParseLines(g, a + [l] + b) == ParseLines(g, a + b)
  {
    RunAppend(g, a, [l] + b, Fold([], None));
    RunAppend(g, a, b, Fold([], None));
    assert a + [l] + b == a + ([l] + b);
    var st := Run(g, a, Fold([], None));
    assert ([l] + b)[1..] == b;
    assert Step(g, st, l) == st;
  }

  lemma {:induction false} RunAppend<T>(g: Grammar<T>, a: seq<string>, b: seq<string>, st: Fold<T>)
    ensures Run(g, a + b, st) == Run(g, b, Run(g, a, st))
    decreases |a|
  {
    if |a| > 0 {
      assert (a + b)[1..] == a[1..] + b;
      RunAppend(g, a[1..], b, Step(g, st, a[0]));
    } else {
      assert a + b == b;
    }
  }

  /** One heading and lines without headings: at most that one record. */
  lemma SingleBlock<T>(g: Grammar<T>, h: string, body: seq<string>)
    requires g.heading(h) && NoHeading(g, body)
    ensures ParseLines(g, [h] + body) == Emit(g, Labels(g, g.start(h), body))
  {
    var lines := [h] + body;
    ParseIsReference(g, lines);
    assert lines[1..] == body;
    NoHeadingFirst(g, body);
    assert lines[1 + |body|..] == [];
    assert lines[1..1 + |body|] == body;
  }

  lemma NoHeadingFirst<T>(g: Grammar<T>, lines: seq<string>)
    requires NoHeading(g, lines)
    ensures FirstHeading(g, lines) == |lines|
  {
  }

  /** Filling in a record line by line: the last line is applied last. */
  lemma {:induction false} LabelsSnoc<T>(g: Grammar<T>, x: T, lines: seq<string>, l: string)
    ensures Labels(g, x, lines + [l]) == g.fill(Labels(g, x, lines), l)
    decreases |lines|
  {
    if |lines| == 0 {
      assert lines + [l] == [l];
    } else {
      assert (lines + [l])[1..] == lines[1..] + [l];
      LabelsSnoc(g, g.fill(x, lines[0]), lines[1..], l);
    }
  }

  /** A parser that emits every record it opens yields one per heading line. */
  lemma {:induction false} EmitAll<T>(g: Grammar<T>, lines: seq<string>)
    requires forall x :: g.keep(x)
    ensures |ParseLines(g, lines)| == Headings(g, lines)
    decreases |lines|
  {
    ParseIsReference(g, lines);
    ReferenceCount(g, lines);
  }

  lemma {:induction false} ReferenceCount<T>(g: Grammar<T>, lines: seq<string>)
    requires forall x :: g.keep(x)
    ensures |Reference(g, lines)| == Headings(g, lines)
    decreases |lines|
  {
    if |lines| > 0 {
      if g.heading(lines[0]) {
        var j := 1 + FirstHeading(g, lines[1..]);
        ReferenceCount(g, lines[j..]);
        assert g.keep(Labels(g, g.start(lines[0]), lines[1..j]));
        HeadingsSkip(g, lines[1..], j - 1);
        assert lines[1..][j - 1..] == lines[j..];
      } else {
        ReferenceCount(g, lines[1..]);
      }
    }
  }

  // ---------------------------------------------------------------- comparing two grammars

  /** The records of `xs` that pass `keep`, in order. */
  function Filter<T>(keep: T -> bool, xs: seq<T>): (r: seq<T>)
    ensures |r| <= |xs|
    decreases |xs|
  {
    if |xs| == 0 then []
    else (if keep(xs[0]) then [xs[0]] else []) + Filter(keep, xs[1..])
  }

  lemma {:induction false} FilterAll<T>(keep: T -> bool, xs: seq<T>)
    requires forall i :: 0 <= i < |xs| ==> keep(xs[i])
    ensures Filter(keep, xs) == xs
    decreases |xs|
  {
    if |xs| > 0 {
      FilterAll(keep, xs[1..]);
    }
  }

  /** Two grammars that read the lines alike and differ only in the emission
      test: the one that emits everything (`g2`) yields a superset, and the
      other keeps exactly those of its records that pass its own test. */
  lemma {:induction false} KeepFilters<T>(g1: Grammar<T>, g2: Grammar<T>, lines: seq<string>)
    requires forall i :: 0 <= i < |lines| ==> g1.heading(lines[i]) == g2.heading(lines[i])
    requires forall l :: g1.start(l) == g2.start(l)
    requires forall x, l :: g1.fill(x, l) == g2.fill(x, l)
    requires forall x :: g2.keep(x)
    ensures Reference(g1, lines) == Filter(g1.keep, Reference(g2, lines))
    decreases |lines|
  {
    if |lines| > 0 {
      if g1.heading(lines[0]) {
        var j := 1 + FirstHeading(g1, lines[1..]);
        KeepFilters(g1, g2, lines[j..]);
        KeepFiltersBlock(g1, g2, lines);
      } else {
        KeepFilters(g1, g2, lines[1..]);
      }
    }
  }

  /** One step of `KeepFilters`: a heading line and its block. */
  lemma KeepFiltersBlock<T>(g1: Grammar<T>, g2: Grammar<T>, lines: seq<string>)
    requires |lines| > 0 && g1.heading(lines[0])
    requires forall i :: 0 <= i < |lines| ==> g1.heading(lines[i]) == g2.heading(lines[i])
    requires forall l :: g1.start(l) == g2.start(l)
    requires forall x, l :: g1.fill(x, l) == g2.fill(x, l)
    requires forall x :: g2.keep(x)
    requires var j := 1 + FirstHeading(g1, lines[1..]);
             Reference(g1, lines[j..]) == Filter(g1.keep, Reference(g2, lines[j..]))
    ensures Reference(g1, lines) == Filter(g1.keep, Reference(g2, lines))
  {
    var j := 1 + FirstHeading(g1, lines[1..]);
    var x := Labels(g1, g1.start(lines[0]), lines[1..j]);
    ReferenceAtHeading(g1, lines);
    SameBlock(g1, g2, lines);
    FilterAppend(g1.keep, [x], Reference(g2, lines[j..]));
    FilterOne(g1.keep, x);
  }

  /** `Reference` at a heading: the heading's block, then the rest. */
  lemma ReferenceAtHeading<T>(g: Grammar<T>, lines: seq<string>)
    requires |lines| > 0 && g.heading(lines[0])
    ensures var j := 1 + FirstHeading(g, lines[1..]);
            Reference(g, lines) == Emit(g, Labels(g, g.start(lines[0]), lines[1..j])) + Reference(g, lines[j..])
  {
  }

  /** The grammar that emits everything reads the same first block as `g1`. */
  lemma SameBlock<T>(g1: Grammar<T>, g2: Grammar<T>, lines: seq<string>)
    requires |lines| > 0 && g1.heading(lines[0])
    requires forall i :: 0 <= i < |lines| ==> g1.heading(lines[i]) == g2.heading(lines[i])
    requires forall l :: g1.start(l) == g2.start(l)
    requires forall x, l :: g1.fill(x, l) == g2.fill(x, l)
    requires forall x :: g2.keep(x)
    ensures var j := 1 + FirstHeading(g1, lines[1..]);
            Reference(g2, lines) == [Labels(g1, g1.start(lines[0]), lines[1..j])] + Reference(g2, lines[j..])
  {
    var tail := lines[1..];
    assert forall i :: 0 <= i < |tail| ==> tail[i] == lines[i + 1];
    SameFirstHeading(g1, g2, tail);
    var j := 1 + FirstHeading(g1, tail);
    BlockRecord(g1, g2, lines[0], lines[1..j]);
    ReferenceAtHeading(g2, lines);
  }

  /** The record of one block, as the grammar that emits everything emits it. */
  lemma BlockRecord<T>(g1: Grammar<T>, g2: Grammar<T>, h: string, body: seq<string>)
    requires forall l :: g1.start(l) == g2.start(l)
    requires forall x, l :: g1.fill(x, l) == g2.fill(x, l)
    requires forall x :: g2.keep(x)
    ensures Emit(g2, Labels(g2, g2.start(h), body)) == [Labels(g1, g1.start(h), body)]
  {
    var x := Labels(g1, g1.start(h), body);
    SameLabels(g1, g2, g1.start(h), body);
    assert g2.start(h) == g1.start(h);
    assert Labels(g2, g2.start(h), body) == x;
    assert g2.keep(x);
  }

  lemma FilterOne<T>(keep: T -> bool, x: T)
    ensures Filter(keep, [x]) == if keep(x) then [x] else []
  {
    assert Filter(keep, [x]) == (if keep(x) then [x] else []) + Filter(keep, []);
  }

  lemma {:induction false} SameFirstHeading<T>(g1: Grammar<T>, g2: Grammar<T>, lines: seq<string>)
    requires forall i :: 0 <= i < |lines| ==> g1.heading(lines[i]) == g2.heading(lines[i])
    ensures FirstHeading(g1, lines) == FirstHeading(g2, lines)
    decreases |lines|
  {
    if |lines| > 0 {
      SameFirstHeading(g1, g2, lines[1..]);
    }
  }

  lemma {:induction false} SameLabels<T>(g1: Grammar<T>, g2: Grammar<T>, x: T, lines: seq<string>)
    requires forall x, l :: g1.fill(x, l) == g2.fill(x, l)
    ensures Labels(g1, x, lines) == Labels(g2, x, lines)
    decreases |lines|
  {
    if |lines| > 0 {
      SameLabels(g1, g2, g1.fill(x, lines[0]), lines[1..]);
    }
  }

  lemma {:induction false} FilterAppend<T>(keep: T -> bool, a: seq<T>, b: seq<T>)
    ensures Filter(keep, a + b) == Filter(keep, a) + Filter(keep, b)
    decreases |a|
  {
    if |a| > 0 {
      assert (a + b)[1..] == a[1..] + b;
      FilterAppend(keep, a[1..], b);
    } else {
      assert a + b == b;
    }
  }

  /** When every record the emit-everything grammar produces passes `g1`'s
      test, the two parsers give the same records. */
  lemma SameRecords<T>(g1: Grammar<T>, g2: Grammar<T>, lines: seq<string>)
    requires forall i :: 0 <= i < |lines| ==> g1.heading(lines[i]) == g2.heading(lines[i])
    requires forall l :: g1.start(l) == g2.start(l)
    requires forall x, l :: g1.fill(x, l) == g2.fill(x, l)
    requires forall x :: g2.keep(x)
    requires forall i :: 0 <= i < |ParseLines(g2, lines)| ==> g1.keep(ParseLines(g2, lines)[i])
    ensures ParseLines(g1, lines) == ParseLines(g2, lines)
  {
    ParseIsReference(g1, lines);
    ParseIsReference(g2, lines);
    KeepFilters(g1, g2, lines);
    assert ParseLines(g2, lines) == Reference(g2, lines);
    FilterAll(g1.keep, Reference(g2, lines));
  }
}

=== FILE: options.dfy ===
/** The optional value used throughout the model: a JavaScript `null`/`undefined`
    or a Python `None` on one side, a present value on the other. */
module Options {

  datatype Option<+T> = None | Some(value: T) {

    /** The value when present, otherwise the given default. */
    function GetOr(default: T): (r: T)
      ensures Some? ==> r == value
      ensures None? ==> r == default
    {
      match this
      case Some(v) => v
      case None => default
    }
  }
}

=== FILE: reconstruction.dfy ===
/** Writing parsed sections back as a markdown body, as the Express API's
    section update does, and reading that body back with `parseSections`. */
module Reconstruction {
  import opened Text
  import opened Assoc
  import opened Sections

  /** `# ${key}\n\n${val}` for one entry. */
  function Block(e: (string, string)): string {
    "# " + e.0 + "\n\n" + e.1
  }

  /** `Object.entries(sections).map(...).join('\n\n')`. */
  function Reconstruct(m: Entries): (body: string)
    ensures |m| == 0 <==> body == ""
    decreases |m|
  {
    if |m| == 0 then ""
    else if |m| == 1 then Block(m[0])
    else Block(m[0]) + "\n\n" + Reconstruct(m[1..])
  }

  /** A value survives being written under a heading and parsed back: it is
      trimmed, and none of its lines would be read as a new heading. */
  predicate ValidValue(v: string) {
    IsTrimmed(Js, v) && NoExpressHeading(Split(v, '\n'))
  }

  predicate Writable(m: Entries) {
    forall e :: e in m ==> ValidName(e.0) && ValidValue(e.1)
  }

  /** Every entry can be written and read back under its own heading: the
      name is valid and no line of the value reads as a heading. The value
      need not be trimmed; it is read back trimmed. */
  predicate Rereadable(m: Entries) {
    forall e :: e in m ==> ValidName(e.0) && NoExpressHeading(Split(e.1, '\n'))
  }

  /** The entries with every value trimmed, as `parseSections` stores them. */
  function TrimValues(m: Entries): (r: Entries)
    ensures |r| == |m|
    ensures forall i :: 0 <= i < |m| ==> r[i] == (m[i].0, Trim(Js, m[i].1))
    decreases |m|
  {
    if |m| == 0 then [] else [(m[0].0, Trim(Js, m[0].1))] + TrimValues(m[1..])
  }

  /** Entries whose values are already trimmed are left as they are. */
  lemma TrimValuesTrimmed(m: Entries)
    requires forall e :: e in m ==> IsTrimmed(Js, e.1)
    ensures TrimValues(m) == m
  {
    forall i | 0 <= i < |m| ensures TrimValues(m)[i] == m[i] {
      assert m[i] in m;
      TrimFixedPoint(Js, m[i].1);
    }
  }

  /** Assigning an untrimmed value among trimmed ones and then trimming every
      value is assigning the trimmed value. */
  lemma {:induction false} TrimValuesPut(m: Entries, k: string, v: string)
    requires forall e :: e in m ==> IsTrimmed(Js, e.1)
    ensures TrimValues(Put(m, k, v)) == Put(m, k, Trim(Js, v))
    decreases |m|
  {
    if |m| == 0 {
    } else if m[0].0 == k {
      assert forall e :: e in m[1..] ==> e in m;
      TrimValuesTrimmed(m[1..]);
      assert Put(m, k, v) == [(k, v)] + m[1..];
    } else {
      assert forall e :: e in m[1..] ==> e in m;
      TrimValuesPut(m[1..], k, v);
      assert m[0] in m;
      TrimFixedPoint(Js, m[0].1);
      assert Put(m, k, v) == [m[0]] + Put(m[1..], k, v);
      assert Put(m, k, Trim(Js, v)) == [m[0]] + Put(m[1..], k, Trim(Js, v));
      assert TrimValues(Put(m, k, v)) == [m[0]] + TrimValues(Put(m[1..], k, v));
    }
  }

  /** The lines under one written heading: an empty line, the value's lines,
      and an empty separator line unless the entry is the last one. */
  function BodyLines(v: string, last: bool): seq<string> {
    [""] + Split(v, '\n') + (if last then [] else [""])
  }

  /** The lines `Reconstruct(m)` splits into: each entry's heading and body lines. */
  function BlockLines(m: Entries): seq<string>
    decreases |m|
  {
    if |m| == 0 then []
    else ["# " + m[0].0] + BodyLines(m[0].1, |m| == 1) + BlockLines(m[1..])
  }

  lemma BlockSplit(e: (string, string))
    requires '\n' !in e.0
    ensures Split(Block(e), '\n') == ["# " + e.0, ""] + Split(e.1, '\n')
  {
    var h := "# " + e.0;
    var t := "" + ['\n'] + e.1;
    assert Block(e) == h + ['\n'] + t;
    assert '\n' !in h by {
      forall i | 0 <= i < |h| ensures h[i] != '\n' {
        if i >= 2 { assert h[i] == e.0[i - 2]; }
      }
    }
    SplitWithout(h, '\n');
    SplitWithout("", '\n');
    SplitAppend(h, '\n', t);
    SplitAppend("", '\n', e.1);
  }

  /** A blank line between two texts. */
  lemma SplitBlankLine(a: string, b: string)
    ensures Split(a + "\n\n" + b, '\n') == Split(a, '\n') + [""] + Split(b, '\n')
  {
    var t := "" + ['\n'] + b;
    assert a + "\n\n" + b == a + ['\n'] + t;
    SplitAppend(a, '\n', t);
    SplitAppend("", '\n', b);
    SplitWithout("", '\n');
  }

  lemma {:induction false} ReconstructLines(m: Entries)
    requires |m| > 0
    requires forall e :: e in m ==> '\n' !in e.0
    ensures Split(Reconstruct(m), '\n') == BlockLines(m)
    decreases |m|
  {
    assert m[0] in m;
    if |m| == 1 {
      LastBlockLines(m);
    } else {
      assert forall e :: e in m[1..] ==> e in m;
      ReconstructLines(m[1..]);
      NextBlockLines(m);
    }
  }

  lemma LastBlockLines(m: Entries)
    requires |m| == 1 && '\n' !in m[0].0
    ensures Split(Reconstruct(m), '\n') == BlockLines(m)
  {
    var h, ls := "# " + m[0].0, Split(m[0].1, '\n');
    assert Split(Reconstruct(m), '\n') == [h, ""] + ls by {
      assert Reconstruct(m) == Block(m[0]);
      BlockSplit(m[0]);
    }
    assert BlockLines(m) == [h] + ([""] + ls + []) + [] by {
      assert BlockLines(m[1..]) == [];
    }
    RegroupLines(h, ls, []);
  }

  lemma RegroupLines(h: string, ls: seq<string>, rest: seq<string>)
    ensures [h, ""] + ls + [""] + rest == [h] + ([""] + ls + [""]) + rest
    ensures [h, ""] + ls == [h] + ([""] + ls + []) + []
  {
    assert [h, ""] == [h] + [""];
  }

  lemma NextBlockLines(m: Entries)
    requires |m| > 1 && '\n' !in m[0].0
    requires Split(Reconstruct(m[1..]), '\n') == BlockLines(m[1..])
    ensures Split(Reconstruct(m), '\n') == BlockLines(m)
  {
    var h, ls, rest := "# " + m[0].0, Split(m[0].1, '\n'), BlockLines(m[1..]);
    assert Split(Reconstruct(m), '\n') == Split(Block(m[0]), '\n') + [""] + rest by {
      assert Reconstruct(m) == Block(m[0]) + "\n\n" + Reconstruct(m[1..]);
      SplitBlankLine(Block(m[0]), Reconstruct(m[1..]));
    }
    assert Split(Block(m[0]), '\n') == [h, ""] + ls by {
      BlockSplit(m[0]);
    }
    assert BlockLines(m) == [h] + ([""] + ls + [""]) + rest;
    RegroupLines(h, ls, rest);
  }


  /** The text collected under a written heading trims to the value's own trim. */
  lemma ValueBody(v: string, tail: seq<string>)
    requires tail == [] || tail == [""]
    ensures Trim(Js, ConcatLines([""] + Split(v, '\n') + tail)) == Trim(Js, v)
  {
    var ls := Split(v, '\n');
    ConcatLinesAppend([""] + ls, tail);
    ConcatLinesAppend([""], ls);
    ConcatLinesIsJoin(ls);
    SplitThenJoin(v, '\n');
    assert ConcatLines([""]) == "\n" by {
      assert ConcatLines([""]) == "" + "\n" + ConcatLines([]);
    }
    if tail == [""] {
      assert ConcatLines(tail) == "\n" by {
        assert ConcatLines([""]) == "" + "\n" + ConcatLines([]);
      }
    }
    var pad := "\n" + ConcatLines(tail);
    assert AllSpace(Js, pad);
    assert ConcatLines([""] + ls + tail) == "\n" + v + pad;
    TrimPadded(Js, "\n", v, pad);
  }

  lemma HeadingOf(k: string)
    requires ValidName(k)
    ensures IsExpressHeading("# " + k)
    ensures ("# " + k)[2..] == k && Trim(Js, k) == k
  {
    assert ("# " + k)[2..] == k;
    TrimFixedPoint(Js, k);
    forall i | 2 <= i < |"# " + k| ensures !IsLineTerminator(("# " + k)[i]) {
      assert ("# " + k)[i] == k[i - 2];
      assert k[i - 2] in k;
    }
  }

  lemma OneBlock(k: string, v: string, last: bool, st: ExpressState)
    requires ValidName(k) && NoExpressHeading(Split(v, '\n'))
    ensures CloseExpress(ExpressRun(["# " + k] + BodyLines(v, last), st)) == Put(CloseExpress(st), k, Trim(Js, v))
  {
    HeadingOf(k);
    var body := BodyLines(v, last);
    var ls := Split(v, '\n');
    assert NoExpressHeading(body) by {
      forall l | l in body ensures !IsExpressHeading(l) {
        if l !in ls { assert l == ""; }
      }
    }
    ExpressBlock("# " + k, body, st);
    ValueBody(v, if last then [] else [""]);
  }

  lemma {:induction false} RunBlocks(m: Entries, st: ExpressState)
    requires |m| > 0 && Rereadable(m)
    ensures CloseExpress(ExpressRun(BlockLines(m), st)) == PutAll(CloseExpress(st), TrimValues(m))
    decreases |m|
  {
    var k, v := m[0].0, m[0].1;
    assert m[0] in m;
    var first := ["# " + k] + BodyLines(v, |m| == 1);
    OneBlock(k, v, |m| == 1, st);
    var st1 := ExpressRun(first, st);
    if |m| == 1 {
      assert BlockLines(m) == first + [];
      assert first + [] == first;
    } else {
      ExpressRunAppend(first, BlockLines(m[1..]), st);
      assert forall e :: e in m[1..] ==> e in m;
      RunBlocks(m[1..], st1);
    }
  }

  /** Writing sections with `Reconstruct` and parsing the result with
      `parseSections` assigns the entries back in order, each value trimmed. */
  lemma ReconstructReads(m: Entries)
    requires Rereadable(m)
    ensures ParseExpress(Reconstruct(m)) == PutAll([], TrimValues(m))
  {
    if |m| == 0 {
      assert Split("", '\n') == [""] by { SplitWithout("", '\n'); }
      assert !IsExpressHeading("");
      ExpressBodyLines([""], ExpressStart);
    } else {
      assert forall e :: e in m ==> '\n' !in e.0 by {
        forall e | e in m ensures '\n' !in e.0 {
          assert ValidName(e.0);
        }
      }
      ReconstructLines(m);
      RunBlocks(m, ExpressStart);
    }
  }

  /** With trimmed values the entries come back as they were assigned: the
      original entries when their names are distinct. */
  lemma ReconstructRoundTrip(m: Entries)
    requires Writable(m)
    ensures ParseExpress(Reconstruct(m)) == PutAll([], m)
    ensures UniqueKeys(m) ==> ParseExpress(Reconstruct(m)) == m
  {
    ReconstructReads(m);
    TrimValuesTrimmed(m);
    if UniqueKeys(m) {
      assert [] + m == m;
      PutAllFresh([], m);
    }
  }

  /** Parsing then writing then parsing again changes nothing, provided no
      parsed value has a line that reads as a heading. */
  lemma ParseReconstructParse(content: string)
    requires forall e :: e in ParseExpress(content) ==> NoExpressHeading(Split(e.1, '\n'))
    ensures ParseExpress(Reconstruct(ParseExpress(content))) == ParseExpress(content)
  {
    ReconstructRoundTrip(ParseExpress(content));
  }

  /** The proviso is needed: an indented `# b` is body text for `parseSections`,
      but trimming moves it to the start of the value, and written back it is a
      heading of its own, so section `a` loses its text to a new section `b`. */
  lemma IndentedHeadingResurfaces(a: string, b: string)
    requires ValidName(a) && ValidName(b) && a != b
    ensures ParseExpress("# " + a + "\n  # " + b) == [(a, "# " + b)]
    ensures ParseExpress(Reconstruct([(a, "# " + b)])) == [(a, ""), (b, "")]
  {
    ReadIndented(a, b);
    ReadWrittenBack(a, b);
  }

  lemma NameLines(a: string)
    requires ValidName(a)
    ensures '\n' !in a && '\n' !in "# " + a && '\n' !in "  # " + a
  {
    assert forall c :: c in a ==> !IsLineTerminator(c);
    assert "# " + a == "# " + a;
  }

  lemma ReadIndented(a: string, b: string)
    requires ValidName(a) && ValidName(b)
    ensures ParseExpress("# " + a + "\n  # " + b) == [(a, "# " + b)]
  {
    var ha, ib := "# " + a, "  # " + b;
    HeadingOf(a);
    IndentedLines(a, b);
    assert NoExpressHeading([ib]) by {
      assert ib[..2] == "  ";
    }
    assert [ha, ib] == [ha] + [ib];
    ExpressBlock(ha, [ib], ExpressStart);
    IndentedValue(b);
  }

  lemma IndentedLines(a: string, b: string)
    requires ValidName(a) && ValidName(b)
    ensures Split("# " + a + "\n  # " + b, '\n') == ["# " + a, "  # " + b]
  {
    var ha, ib := "# " + a, "  # " + b;
    NameLines(a);
    NameLines(b);
    assert "# " + a + "\n  # " + b == ha + ['\n'] + ib;
    SplitAppend(ha, '\n', ib);
    SplitWithout(ha, '\n');
    SplitWithout(ib, '\n');
  }

  lemma IndentedValue(b: string)
    requires ValidName(b)
    ensures Trim(Js, ConcatLines(["  # " + b])) == "# " + b
  {
    var hb := "# " + b;
    assert AllSpace(Js, "  ") && AllSpace(Js, "\n");
    HeadingTrimmed(b);
    assert ConcatLines(["  # " + b]) == "  " + hb + "\n" by {
      assert ConcatLines(["  # " + b]) == "  # " + b + "\n" + ConcatLines([]);
    }
    PaddedTrimmed("  ", hb, "\n");
  }

  lemma HeadingTrimmed(b: string)
    requires ValidName(b)
    ensures IsTrimmed(Js, "# " + b)
  {
    var hb := "# " + b;
    assert hb[0] == '#' && hb[|hb| - 1] == b[|b| - 1];
  }

  lemma PaddedTrimmed(pad: string, v: string, tail: string)
    requires AllSpace(Js, pad) && AllSpace(Js, tail) && IsTrimmed(Js, v)
    ensures Trim(Js, pad + v + tail) == v
  {
    TrimPadded(Js, pad, v, tail);
    TrimFixedPoint(Js, v);
  }

  lemma ReadWrittenBack(a: string, b: string)
    requires ValidName(a) && ValidName(b) && a != b
    ensures ParseExpress(Reconstruct([(a, "# " + b)])) == [(a, ""), (b, "")]
  {
    var ha, hb := "# " + a, "# " + b;
    var first: seq<string> := [ha, ""];
    WrittenLines(a, b);
    ExpressRunAppend(first, [hb], ExpressStart);
    var st1 := ExpressState([], a, "\n");
    FirstWrittenBlock(a);
    SecondWrittenBlock(a, b);
  }

  lemma WrittenLines(a: string, b: string)
    requires ValidName(a) && ValidName(b)
    ensures Split(Reconstruct([(a, "# " + b)]), '\n') == ["# " + a, ""] + ["# " + b]
  {
    var e := (a, "# " + b);
    NameLines(a);
    NameLines(b);
    assert Reconstruct([e]) == Block(e);
    BlockSplit(e);
    SplitWithout("# " + b, '\n');
  }

  lemma FirstWrittenBlock(a: string)
    requires ValidName(a)
    ensures ExpressRun(["# " + a, ""], ExpressStart) == ExpressState([], a, "\n")
    ensures CloseExpress(ExpressState([], a, "\n")) == [(a, "")]
  {
    var ha := "# " + a;
    HeadingOf(a);
    assert NoExpressHeading([""]);
    assert [ha, ""] == [ha] + [""];
    ExpressBlock(ha, [""], ExpressStart);
    assert ConcatLines([""]) == "" + "\n" + ConcatLines([]);
    assert Trim(Js, "\n") == "" by { assert AllSpace(Js, "\n"); }
  }

  lemma SecondWrittenBlock(a: string, b: string)
    requires ValidName(a) && ValidName(b) && a != b
    ensures CloseExpress(ExpressRun(["# " + b], ExpressState([], a, "\n"))) == [(a, ""), (b, "")]
  {
    FirstWrittenBlock(a);
    assert Keys([(a, "")]) == [a];
    EmptyHeading(ExpressState([], a, "\n"), b);
    assert [(a, "")] + [(b, "")] == [(a, ""), (b, "")];
  }

  /** A heading with nothing under it, after the sections so far, adds an
      empty section. */
  lemma EmptyHeading(st: ExpressState, b: string)
    requires ValidName(b) && b !in Keys(CloseExpress(st))
    ensures CloseExpress(ExpressRun(["# " + b], st)) == CloseExpress(st) + [(b, "")]
  {
    var hb := "# " + b;
    HeadingOf(b);
    assert [hb] == [hb] + [];
    ExpressBlock(hb, [], st);
    assert ConcatLines([]) == "";
    assert Trim(Js, "") == "" by { assert AllSpace(Js, ""); }
  }
}

=== FILE: records.dfy ===
/** The Education, Experience and Projects records and their two parsers each:
    the site's `parseEducation`/`parseExperience`/`parseProjects` (the
    "component" parsers, which drop records with an empty name) and the sync
    script's loops (which emit every record they open, and test the label
    prefixes with separate `if`s instead of an `else if` chain). */
module Records {
  import opened Text
  import opened Options
  import opened Items

  datatype Education = Education(institution: string, degree: string, period: string, proficientIn: string)

  datatype Experience = Experience(company: string, role: string, period: string, description: seq<string>)

  datatype Project = Project(title: string, tech: seq<string>, description: string, github: string, live: string)

  const ItemMark := "## "
  const DegreeLabel := "**Degree:**"
  const PeriodLabel := "**Period:**"
  const ProficientLabel := "**Proficient In:**"
  const BulletMark := "- "
  const TechLabel := "**Tech:**"
  const DescriptionLabel := "**Description:**"
  const GitHubLabel := "**GitHub:**"
  const LiveLabel := "**Live:**"

  /** `line.replace(prefix, '').trim()`. */
  function Value(line: string, prefix: string): string {
    Trim(Js, RemoveFirst(line, prefix))
  }

  predicate IsItemHeading(line: string) {
    StartsWith(line, ItemMark)
  }

  /** Two prefixes that differ at some position cannot both start a line. */
  lemma PrefixClash(l: string, p: string, q: string, k: nat)
    requires k < |p| && k < |q| && p[k] != q[k]
    ensures !(StartsWith(l, p) && StartsWith(l, q))
  {
  }

  // ================================================================ Education

  /** parseContent.ts: a `## ` line opens a record unless it mentions `Skills`. */
  predicate IsEducationHeading(line: string) {
    IsItemHeading(line) && !Contains(line, "Skills")
  }

  function StartEducation(line: string): Education {
    Education(Value(line, ItemMark), "", "", "")
  }

  function FillEducation(e: Education, line: string): Education {
    if StartsWith(line, DegreeLabel) then e.(degree := Value(line, DegreeLabel))
    else if StartsWith(line, PeriodLabel) then e.(period := Value(line, PeriodLabel))
    else if StartsWith(line, ProficientLabel) then e.(proficientIn := Value(line, ProficientLabel))
    else e
  }

  /** The sync script tests the three labels with separate `if`s. */
  function FillEducationInTurn(e: Education, line: string): Education {
    var e1 := if StartsWith(line, DegreeLabel) then e.(degree := Value(line, DegreeLabel)) else e;
    var e2 := if StartsWith(line, PeriodLabel) then e1.(period := Value(line, PeriodLabel)) else e1;
    if StartsWith(line, ProficientLabel) then e2.(proficientIn := Value(line, ProficientLabel)) else e2
  }

  const EducationComponent: Grammar<Education> :=
    Grammar(IsEducationHeading, StartEducation, FillEducation, (e: Education) => e.institution != "")

  const EducationScript: Grammar<Education> :=
    Grammar(IsItemHeading, StartEducation, FillEducationInTurn, (e: Education) => true)

  /** `parseEducation(content)`: every record it returns has an institution. */
  function ParseEducation(content: string): (r: seq<Education>)
    ensures forall i :: 0 <= i < |r| ==> r[i].institution != ""
  {
    Parse(EducationComponent, content)
  }

  /** The sync script's Education loop. */
  function ScriptEducation(content: string): (r: seq<Education>)
    ensures |r| == Headings(EducationScript, Split(content, '\n'))
  {
    EmitAll(EducationScript, Split(content, '\n'));
    Parse(EducationScript, content)
  }

  /** The label prefixes exclude one another, so testing them in turn is the
      same as testing them as alternatives. */
  lemma EducationInTurn(e: Education, line: string)
    ensures FillEducationInTurn(e, line) == FillEducation(e, line)
  {
    PrefixClash(line, DegreeLabel, PeriodLabel, 2);
    PrefixClash(line, DegreeLabel, ProficientLabel, 2);
    PrefixClash(line, PeriodLabel, ProficientLabel, 3);
  }

  // ---------------------------------------------------------------- last one wins

  /** The last line that starts with `p`, if any. */
  function LastWith(p: string, lines: seq<string>): (r: Option<string>)
    ensures r.Some? ==> r.value in lines && StartsWith(r.value, p)
    ensures r.None? ==> forall i :: 0 <= i < |lines| ==> !StartsWith(lines[i], p)
    decreases |lines|
  {
    if |lines| == 0 then None
    else if StartsWith(lines[|lines| - 1], p) then Some(lines[|lines| - 1])
    else
      var r := LastWith(p, lines[..|lines| - 1]);
      assert forall i :: 0 <= i < |lines| - 1 ==> lines[..|lines| - 1][i] == lines[i];
      r
  }

  /** The field a label sets: from its last line in the block, else the default. */
  function LastValue(p: string, lines: seq<string>, default: string): string {
    match LastWith(p, lines)
    case None => default
    case Some(l) => Value(l, p)
  }

  lemma LastWithSnoc(p: string, lines: seq<string>, l: string)
    ensures LastWith(p, lines + [l]) == if StartsWith(l, p) then Some(l) else LastWith(p, lines)
  {
    assert (lines + [l])[..|lines|] == lines;
  }

  /** The value a line gives a field: its own when it carries the label,
      else the field keeps `d`. */
  function Pick(p: string, l: string, d: string): string {
    if StartsWith(l, p) then Value(l, p) else d
  }

  lemma LastValueSnoc(p: string, lines: seq<string>, l: string, d: string)
    ensures LastValue(p, lines + [l], d) == Pick(p, l, LastValue(p, lines, d))
  {
    LastWithSnoc(p, lines, l);
  }

  /** One line changes at most the field its label names. */
  lemma EducationFill(x: Education, l: string)
    ensures FillEducation(x, l) ==
            Education(x.institution, Pick(DegreeLabel, l, x.degree), Pick(PeriodLabel, l, x.period),
                      Pick(ProficientLabel, l, x.proficientIn))
  {
    EducationInTurn(x, l);
  }

  /** The fields of an education record after its block: each label's value
      from the last line carrying it, the heading's name untouched. */
  lemma {:induction false} EducationFields(e: Education, lines: seq<string>)
    ensures Labels(EducationComponent, e, lines) ==
            Education(e.institution,
                      LastValue(DegreeLabel, lines, e.degree),
                      LastValue(PeriodLabel, lines, e.period),
                      LastValue(ProficientLabel, lines, e.proficientIn))
    decreases |lines|
  {
    if |lines| > 0 {
      var init, l := lines[..|lines| - 1], lines[|lines| - 1];
      assert lines == init + [l];
      EducationFields(e, init);
      EducationFieldsStep(e, init, l);
    }
  }

  lemma EducationFieldsStep(e: Education, init: seq<string>, l: string)
    requires Labels(EducationComponent, e, init) ==
             Education(e.institution,
                       LastValue(DegreeLabel, init, e.degree),
                       LastValue(PeriodLabel, init, e.period),
                       LastValue(ProficientLabel, init, e.proficientIn))
    ensures Labels(EducationComponent, e, init + [l]) ==
            Education(e.institution,
                      LastValue(DegreeLabel, init + [l], e.degree),
                      LastValue(PeriodLabel, init + [l], e.period),
                      LastValue(ProficientLabel, init + [l], e.proficientIn))
  {
    LabelsSnoc(EducationComponent, e, init, l);
    EducationFill(Labels(EducationComponent, e, init), l);
    LastValueSnoc(DegreeLabel, init, l, e.degree);
    LastValueSnoc(PeriodLabel, init, l, e.period);
    LastValueSnoc(ProficientLabel, init, l, e.proficientIn);
  }

  /** A heading and its block yield one record, named after the heading, with
      every field from the last line carrying its label (`''` when none does);
      the record is dropped when its name trims to nothing. */
  lemma EducationBlock(h: string, body: seq<string>)
    requires IsEducationHeading(h) && NoHeading(EducationComponent, body)
    ensures var x := Education(Value(h, ItemMark),
                               LastValue(DegreeLabel, body, ""),
                               LastValue(PeriodLabel, body, ""),
                               LastValue(ProficientLabel, body, ""));
            ParseLines(EducationComponent, [h] + body) == if x.institution != "" then [x] else []
  {
    SingleBlock(EducationComponent, h, body);
    EducationFields(StartEducation(h), body);
  }

  /** A `## ` line that mentions `Skills` is neither a heading nor a label
      line for parseEducation: removing it changes nothing, so the record
      above it stays open. */
  lemma SkillsLineIgnored(a: seq<string>, l: string, b: seq<string>)
    requires IsItemHeading(l) && Contains(l, "Skills")
    ensures ParseLines(EducationComponent, a + [l] + b) == ParseLines(EducationComponent, a + b)
  {
    forall x ensures FillEducation(x, l) == x {
      PrefixClash(l, ItemMark, DegreeLabel, 0);
      PrefixClash(l, ItemMark, PeriodLabel, 0);
      PrefixClash(l, ItemMark, ProficientLabel, 0);
    }
    InertLine(EducationComponent, a, l, b);
  }

  /** Where no `## ` line mentions `Skills` and no heading name trims to
      nothing, parseEducation and the sync script agree. */
  lemma EducationParsersAgree(lines: seq<string>)
    requires forall i :: 0 <= i < |lines| && IsItemHeading(lines[i]) ==> !Contains(lines[i], "Skills")
    requires forall i :: 0 <= i < |ParseLines(EducationScript, lines)| ==>
               ParseLines(EducationScript, lines)[i].institution != ""
    ensures ParseLines(EducationComponent, lines) == ParseLines(EducationScript, lines)
  {
    forall x, l ensures EducationComponent.fill(x, l) == EducationScript.fill(x, l) {
      EducationInTurn(x, l);
    }
    SameRecords(EducationComponent, EducationScript, lines);
  }

  // ================================================================ Experience

  /** `line.replace('## ', '').split('|').map(p => p.trim())`, then part 0 as
      the company and part 1 (or `''`) as the role. */
  function StartExperience(line: string): Experience {
    var parts := TrimAll(Split(RemoveFirst(line, ItemMark), '|'));
    Experience(parts[0], if |parts| > 1 then parts[1] else "", "", [])
  }

  function FillExperience(x: Experience, line: string): Experience {
    if StartsWith(line, PeriodLabel) then x.(period := Value(line, PeriodLabel))
    else if StartsWith(line, BulletMark) then x.(description := x.description + [Value(line, BulletMark)])
    else x
  }

  function FillExperienceInTurn(x: Experience, line: string): Experience {
    var x1 := if StartsWith(line, PeriodLabel) then x.(period := Value(line, PeriodLabel)) else x;
    if StartsWith(line, BulletMark) then x1.(description := x1.description + [Value(line, BulletMark)]) else x1
  }

  const ExperienceComponent: Grammar<Experience> :=
    Grammar(IsItemHeading, StartExperience, FillExperience, (x: Experience) => x.company != "")

  const ExperienceScript: Grammar<Experience> :=
    Grammar(IsItemHeading, StartExperience, FillExperienceInTurn, (x: Experience) => true)

  /** `parseExperience(content)`: every record it returns has a company. */
  function ParseExperience(content: string): (r: seq<Experience>)
    ensures forall i :: 0 <= i < |r| ==> r[i].company != ""
  {
    Parse(ExperienceComponent, content)
  }

  /** The sync script's Experience loop. */
  function ScriptExperience(content: string): (r: seq<Experience>)
    ensures |r| == Headings(ExperienceScript, Split(content, '\n'))
  {
    EmitAll(ExperienceScript, Split(content, '\n'));
    Parse(ExperienceScript, content)
  }

  lemma ExperienceInTurn(x: Experience, line: string)
    ensures FillExperienceInTurn(x, line) == FillExperience(x, line)
  {
    PrefixClash(line, PeriodLabel, BulletMark, 0);
  }

  /** The `- ` lines of a block, prefix removed and trimmed, in order. */
  function Bullets(lines: seq<string>): (r: seq<string>)
    ensures |r| <= |lines|
    decreases |lines|
  {
    if |lines| == 0 then []
    else
      var l := lines[|lines| - 1];
      Bullets(lines[..|lines| - 1]) + (if StartsWith(l, BulletMark) then [Value(l, BulletMark)] else [])
  }

  /** The fields of an experience record after its block: the period from the
      last `**Period:**` line, the description extended by exactly the block's
      bullets, company and role untouched. */
  lemma {:induction false} ExperienceFields(x: Experience, lines: seq<string>)
    ensures Labels(ExperienceComponent, x, lines) ==
            x.(period := LastValue(PeriodLabel, lines, x.period),
               description := x.description + Bullets(lines))
    decreases |lines|
  {
    if |lines| == 0 {
      assert x.description + [] == x.description;
    } else {
      var init, l := lines[..|lines| - 1], lines[|lines| - 1];
      assert lines == init + [l];
      ExperienceFields(x, init);
      LabelsSnoc(ExperienceComponent, x, init, l);
      ExperienceFieldsStep(x, init, l);
    }
  }

  lemma ExperienceFieldsStep(x: Experience, init: seq<string>, l: string)
    ensures var y := x.(period := LastValue(PeriodLabel, init, x.period),
                        description := x.description + Bullets(init));
            FillExperience(y, l) ==
            x.(period := LastValue(PeriodLabel, init + [l], x.period),
               description := x.description + Bullets(init + [l]))
  {
    var lines := init + [l];
    assert lines[..|lines| - 1] == init && lines[|lines| - 1] == l;
    LastWithSnoc(PeriodLabel, init, l);
    PrefixClash(l, PeriodLabel, BulletMark, 0);
    if StartsWith(l, BulletMark) {
      assert Bullets(lines) == Bullets(init) + [Value(l, BulletMark)];
      assert x.description + Bullets(init) + [Value(l, BulletMark)] == x.description + Bullets(lines);
    } else {
      assert Bullets(lines) == Bullets(init) + [];
      assert Bullets(init) + [] == Bullets(init);
    }
  }

  lemma ExperienceBlock(h: string, body: seq<string>)
    requires IsItemHeading(h) && NoHeading(ExperienceComponent, body)
    ensures var s := StartExperience(h);
            var x := s.(period := LastValue(PeriodLabel, body, ""), description := Bullets(body));
            ParseLines(ExperienceComponent, [h] + body) == if x.company != "" then [x] else []
  {
    SingleBlock(ExperienceComponent, h, body);
    ExperienceFields(StartExperience(h), body);
    assert [] + Bullets(body) == Bullets(body);
  }

  /** Heading text `a|b…`: the company is `a` trimmed and the role `b` trimmed;
      whatever follows a second `|` is ignored. */
  lemma ExperienceHeadingParts(a: string, b: string, rest: string)
    requires '|' !in a && '|' !in b
    requires rest == "" || rest[0] == '|'
    ensures StartExperience(ItemMark + a + "|" + b + rest).company == Trim(Js, a)
    ensures StartExperience(ItemMark + a + "|" + b + rest).role == Trim(Js, b)
  {
    var line := ItemMark + a + "|" + b + rest;
    assert RemoveFirst(line, ItemMark) == a + ['|'] + (b + rest) by {
      assert StartsWith(line, ItemMark) by { assert line[..3] == ItemMark; }
      RemoveFirstPrefix(line, ItemMark);
      assert line[3..] == a + ['|'] + (b + rest);
    }
    var parts := Split(a + ['|'] + (b + rest), '|');
    assert |parts| >= 2 && parts[0] == a && parts[1] == b by {
      SplitAppend(a, '|', b + rest);
      SplitWithout(a, '|');
      BarParts(b, rest);
    }
  }

  lemma BarParts(b: string, rest: string)
    requires '|' !in b
    requires rest == "" || rest[0] == '|'
    ensures Split(b + rest, '|')[0] == b
  {
    if rest == "" {
      assert b + rest == b;
      SplitWithout(b, '|');
    } else {
      assert b + rest == b + ['|'] + rest[1..];
      SplitAppend(b, '|', rest[1..]);
      SplitWithout(b, '|');
    }
  }

  /** Without a `|` the whole heading text is the company and the role is `''`. */
  lemma ExperienceHeadingNoBar(a: string)
    requires '|' !in a
    ensures StartExperience(ItemMark + a).company == Trim(Js, a)
    ensures StartExperience(ItemMark + a).role == ""
  {
    var line := ItemMark + a;
    assert StartsWith(line, ItemMark) by { assert line[..3] == ItemMark; }
    RemoveFirstPrefix(line, ItemMark);
    assert line[3..] == a;
    SplitWithout(a, '|');
  }

  /** Where no heading's company trims to nothing, parseExperience and the sync
      script agree. */
  lemma ExperienceParsersAgree(lines: seq<string>)
    requires forall i :: 0 <= i < |ParseLines(ExperienceScript, lines)| ==>
               ParseLines(ExperienceScript, lines)[i].company != ""
    ensures ParseLines(ExperienceComponent, lines) == ParseLines(ExperienceScript, lines)
  {
    forall x, l ensures ExperienceComponent.fill(x, l) == ExperienceScript.fill(x, l) {
      ExperienceInTurn(x, l);
    }
    SameRecords(ExperienceComponent, ExperienceScript, lines);
  }

  // ================================================================ Projects

  function StartProject(line: string): Project {
    Project(Value(line, ItemMark), [], "", "#", "#")
  }

  function FillProject(x: Project, line: string): Project {
    if StartsWith(line, TechLabel) then x.(tech := CommaList(Value(line, TechLabel)))
    else if StartsWith(line, DescriptionLabel) then x.(description := Value(line, DescriptionLabel))
    else if StartsWith(line, GitHubLabel) then x.(github := Value(line, GitHubLabel))
    else if StartsWith(line, LiveLabel) then x.(live := Value(line, LiveLabel))
    else x
  }

  function FillProjectInTurn(x: Project, line: string): Project {
    var x1 := if StartsWith(line, TechLabel) then x.(tech := CommaList(Value(line, TechLabel))) else x;
    var x2 := if StartsWith(line, DescriptionLabel) then x1.(description := Value(line, DescriptionLabel)) else x1;
    var x3 := if StartsWith(line, GitHubLabel) then x2.(github := Value(line, GitHubLabel)) else x2;
    if StartsWith(line, LiveLabel) then x3.(live := Value(line, LiveLabel)) else x3
  }

  const ProjectComponent: Grammar<Project> :=
    Grammar(IsItemHeading, StartProject, FillProject, (x: Project) => x.title != "")

  const ProjectScript: Grammar<Project> :=
    Grammar(IsItemHeading, StartProject, FillProjectInTurn, (x: Project) => true)

  /** `parseProjects(content)`: every record it returns has a title. */
  function ParseProjects(content: string): (r: seq<Project>)
    ensures forall i :: 0 <= i < |r| ==> r[i].title != ""
  {
    Parse(ProjectComponent, content)
  }

  /** The sync script's Projects loop. */
  function ScriptProjects(content: string): (r: seq<Project>)
    ensures |r| == Headings(ProjectScript, Split(content, '\n'))
  {
    EmitAll(ProjectScript, Split(content, '\n'));
    Parse(ProjectScript, content)
  }

  lemma ProjectInTurn(x: Project, line: string)
    ensures FillProjectInTurn(x, line) == FillProject(x, line)
  {
    PrefixClash(line, TechLabel, DescriptionLabel, 2);
    PrefixClash(line, TechLabel, GitHubLabel, 2);
    PrefixClash(line, TechLabel, LiveLabel, 2);
    PrefixClash(line, DescriptionLabel, GitHubLabel, 2);
    PrefixClash(line, DescriptionLabel, LiveLabel, 2);
    PrefixClash(line, GitHubLabel, LiveLabel, 2);
  }

  /** The tech list after a block: from the last `**Tech:**` line alone. */
  function LastTech(lines: seq<string>, default: seq<string>): seq<string> {
    match LastWith(TechLabel, lines)
    case None => default
    case Some(l) => CommaList(Value(l, TechLabel))
  }

  /** The fields of a project after its block: each from the last line with its
      label, so a second `**Tech:**` line replaces the whole list. */
  lemma {:induction false} ProjectFields(x: Project, lines: seq<string>)
    ensures Labels(ProjectComponent, x, lines) ==
            Project(x.title,
                    LastTech(lines, x.tech),
                    LastValue(DescriptionLabel, lines, x.description),
                    LastValue(GitHubLabel, lines, x.github),
                    LastValue(LiveLabel, lines, x.live))
    decreases |lines|
  {
    if |lines| > 0 {
      var init, l := lines[..|lines| - 1], lines[|lines| - 1];
      assert lines == init + [l];
      ProjectFields(x, init);
      LabelsSnoc(ProjectComponent, x, init, l);
      LastWithSnoc(TechLabel, init, l);
      LastWithSnoc(DescriptionLabel, init, l);
      LastWithSnoc(GitHubLabel, init, l);
      LastWithSnoc(LiveLabel, init, l);
      ProjectInTurn(Labels(ProjectComponent, x, init), l);
    }
  }

  /** A project heading and its block: tech `[]`, description `''`, github and
      live `#` unless a label line sets them. */
  lemma ProjectBlock(h: string, body: seq<string>)
    requires IsItemHeading(h) && NoHeading(ProjectComponent, body)
    ensures var x := Project(Value(h, ItemMark),
                             LastTech(body, []),
                             LastValue(DescriptionLabel, body, ""),
                             LastValue(GitHubLabel, body, "#"),
                             LastValue(LiveLabel, body, "#"));
            ParseLines(ProjectComponent, [h] + body) == if x.title != "" then [x] else []
  {
    SingleBlock(ProjectComponent, h, body);
    ProjectFields(StartProject(h), body);
  }

  /** A bare `**Tech:**` line gives a one-element list holding the empty string. */
  lemma BareTechLine(x: Project)
    ensures FillProject(x, TechLabel).tech == [""]
  {
    assert StartsWith(TechLabel, TechLabel);
    RemoveFirstPrefix(TechLabel, TechLabel);
    assert TechLabel[|TechLabel|..] == "";
    assert Trim(Js, "") == "" by { assert AllSpace(Js, ""); }
    SplitWithout("", ',');
    assert CommaList("") == TrimAll([""]);
  }

  /** Where no title trims to nothing, parseProjects and the sync script agree. */
  lemma ProjectParsersAgree(lines: seq<string>)
    requires forall i :: 0 <= i < |ParseLines(ProjectScript, lines)| ==>
               ParseLines(ProjectScript, lines)[i].title != ""
    ensures ParseLines(ProjectComponent, lines) == ParseLines(ProjectScript, lines)
  {
    forall x, l ensures ProjectComponent.fill(x, l) == ProjectScript.fill(x, l) {
      ProjectInTurn(x, l);
    }
    SameRecords(ProjectComponent, ProjectScript, lines);
  }
}

=== FILE: sections.dfy ===
/** Splitting a markdown body into its top-level `# Name` sections.
    The repository does this three times: the Express API's `parseSections`
    (a regex heading test and a string accumulator), FastAPI's `parse_sections`
    and the build-time sync script (a prefix heading test and a list of lines,
    differing only in the runtime's notion of whitespace). Each is a left fold
    over the body's `\n`-separated lines. */
module Sections {
  import opened Text
  import opened Assoc
  import opened Options

  /** A section name as the parsers produce it: non-empty, trimmed, and free of
      line terminators. */
  predicate ValidName(k: string) {
    k != "" && IsTrimmed(Js, k) && forall c :: c in k ==> !IsLineTerminator(c)
  }

  /** Unique valid names, each mapped to a trimmed value. */
  predicate WellKeyed(m: Entries) {
    && UniqueKeys(m)
    && forall e :: e in m ==> ValidName(e.0) && IsTrimmed(Js, e.1)
  }

  lemma PutWellKeyed(m: Entries, k: string, v: string)
    requires WellKeyed(m) && ValidName(k) && IsTrimmed(Js, v)
    ensures WellKeyed(Put(m, k, v))
  {
    PutEntries(m, k, v);
  }

  // ================================================================ Express

  /** `line.match(/^# (.+)$/)`: `# ` followed by at least one character, none of
      which is a line terminator (the regex `.` matches none of them and `$`
      without the `m` flag only matches at the end of the line). */
  predicate IsExpressHeading(line: string) {
    && |line| >= 3
    && line[..2] == "# "
    && forall i :: 2 <= i < |line| ==> !IsLineTerminator(line[i])
  }

  /** The loop variables of `parseSections`: the object built so far, the open
      section's name (`""` stands for both `null` and the empty string, which
      JavaScript treats alike as falsy) and the text collected for it. */
  datatype ExpressState = ExpressState(sections: Entries, current: string, content: string)

  const ExpressStart := ExpressState([], "", "")

  /** Stores the open section, trimmed, if it has a (truthy) name. */
  function CloseExpress(st: ExpressState): Entries {
    if st.current != "" then Put(st.sections, st.current, Trim(Js, st.content))
    else st.sections
  }

  function ExpressStep(st: ExpressState, line: string): ExpressState {
    if IsExpressHeading(line) then ExpressState(CloseExpress(st), Trim(Js, line[2..]), "")
    else if st.current != "" then st.(content := st.content + line + "\n")
    else st
  }

  function ExpressRun(lines: seq<string>, st: ExpressState): ExpressState
    decreases |lines|
  {
    if |lines| == 0 then st else ExpressRun(lines[1..], ExpressStep(st, lines[0]))
  }

  /** `parseSections(content)` of backend/api/index.js. Every key it produces is a
      valid section name and every value is trimmed. */
  function ParseExpress(content: string): (r: Entries)
    ensures WellKeyed(r)
  {
    var lines := Split(content, '\n');
    ExpressRunWellKeyed(lines, ExpressStart);
    CloseExpress(ExpressRun(lines, ExpressStart))
  }

  predicate ExpressGood(st: ExpressState) {
    WellKeyed(st.sections) && (st.current == "" || ValidName(st.current))
  }

  lemma ExpressHeadingName(line: string)
    requires IsExpressHeading(line)
    ensures var k := Trim(Js, line[2..]); k == "" || ValidName(k)
  {
    TrimmedCharsFromSource(Js, line[2..]);
  }

  lemma {:induction false} ExpressRunWellKeyed(lines: seq<string>, st: ExpressState)
    requires ExpressGood(st)
    ensures ExpressGood(ExpressRun(lines, st))
    ensures WellKeyed(CloseExpress(ExpressRun(lines, st)))
    decreases |lines|
  {
    if |lines| == 0 {
      if st.current != "" {
        PutWellKeyed(st.sections, st.current, Trim(Js, st.content));
      }
    } else {
      if IsExpressHeading(lines[0]) {
        ExpressHeadingName(lines[0]);
        if st.current != "" {
          PutWellKeyed(st.sections, st.current, Trim(Js, st.content));
        }
      }
      ExpressRunWellKeyed(lines[1..], ExpressStep(st, lines[0]));
    }
  }

  lemma {:induction false} ExpressRunAppend(a: seq<string>, b: seq<string>, st: ExpressState)
    ensures ExpressRun(a + b, st) == ExpressRun(b, ExpressRun(a, st))
    decreases |a|
  {
    if |a| > 0 {
      assert (a + b)[1..] == a[1..] + b;
      ExpressRunAppend(a[1..], b, ExpressStep(st, a[0]));
    } else {
      assert a + b == b;
    }
  }

  predicate NoExpressHeading(lines: seq<string>) {
    forall l :: l in lines ==> !IsExpressHeading(l)
  }

  /** Lines that are not headings only append to the open section, or vanish
      when no (named) section is open. */
  lemma {:induction false} ExpressBodyLines(lines: seq<string>, st: ExpressState)
    requires NoExpressHeading(lines)
    ensures ExpressRun(lines, st) ==
            if st.current != "" then st.(content := st.content + ConcatLines(lines)) else st
    decreases |lines|
  {
    if |lines| > 0 {
      assert lines[0] in lines;
      ExpressBodyLines(lines[1..], ExpressStep(st, lines[0]));
      if st.current != "" {
        assert st.content + lines[0] + "\n" + ConcatLines(lines[1..])
            == st.content + ConcatLines(lines);
      }
    }
  }

  /** One heading and the body lines under it: the previous section is stored,
      and the new one is open holding exactly those lines (or, if the heading's
      trimmed name is empty, nothing is open and the lines are dropped). */
  lemma ExpressBlock(h: string, body: seq<string>, st: ExpressState)
    requires IsExpressHeading(h) && NoExpressHeading(body)
    ensures var k := Trim(Js, h[2..]);
            ExpressRun([h] + body, st) ==
            if k != "" then ExpressState(CloseExpress(st), k, ConcatLines(body))
            else ExpressState(CloseExpress(st), "", "")
  {
    assert ([h] + body)[1..] == body;
    var st1 := ExpressStep(st, h);
    ExpressBodyLines(body, st1);
    assert "" + ConcatLines(body) == ConcatLines(body);
  }

  /** Lines before the first heading are discarded. */
  lemma ExpressPreambleIgnored(pre: string, rest: string)
    requires NoExpressHeading(Split(pre, '\n'))
    ensures ParseExpress(pre + "\n" + rest) == ParseExpress(rest)
  {
    SplitAppend(pre, '\n', rest);
    ExpressRunAppend(Split(pre, '\n'), Split(rest, '\n'), ExpressStart);
    ExpressBodyLines(Split(pre, '\n'), ExpressStart);
  }

  /** A repeated section name keeps the value of its last occurrence: after
      the heading `h` and its body `b`, whatever came before (`a`, which may
      hold earlier `h` sections) is overwritten, and the sections that follow
      (`c`, from the next heading on) leave the value alone as long as none of
      them has the same name. */
  lemma ExpressLastDuplicateWins(a: seq<string>, h: string, b: seq<string>, c: seq<string>, st: ExpressState)
    requires IsExpressHeading(h) && NoExpressHeading(b) && Trim(Js, h[2..]) != ""
    requires |c| == 0 || IsExpressHeading(c[0])
    requires forall l <- c :: IsExpressHeading(l) ==> Trim(Js, l[2..]) != Trim(Js, h[2..])
    ensures Get(CloseExpress(ExpressRun(a + [h] + b + c, st)), Trim(Js, h[2..]))
            == Some(Trim(Js, ConcatLines(b)))
  {
    var k, v := Trim(Js, h[2..]), Trim(Js, ConcatLines(b));
    assert a + [h] + b + c == a + ([h] + b) + c;
    ExpressRunAppend(a + ([h] + b), c, st);
    ExpressRunAppend(a, [h] + b, st);
    var st1 := ExpressRun(a, st);
    ExpressBlock(h, b, st1);
    var st2 := ExpressRun([h] + b, st1);
    assert st2 == ExpressState(CloseExpress(st1), k, ConcatLines(b));
    PutGet(CloseExpress(st1), k, v);
    ExpressAfterBlock(c, st2, k, v);
  }

  /** The sections after the block, from the next heading on, keep its value. */
  lemma ExpressAfterBlock(c: seq<string>, st: ExpressState, k: string, v: string)
    requires st.current == k && Get(CloseExpress(st), k) == Some(v)
    requires |c| == 0 || IsExpressHeading(c[0])
    requires forall l <- c :: IsExpressHeading(l) ==> Trim(Js, l[2..]) != k
    ensures Get(CloseExpress(ExpressRun(c, st)), k) == Some(v)
  {
    if |c| > 0 {
      assert c[0] in c;
      var st1 := ExpressStep(st, c[0]);
      assert st1.sections == CloseExpress(st) && st1.current != k;
      forall l <- c[1..] ensures IsExpressHeading(l) ==> Trim(Js, l[2..]) != k {
        assert l in c;
      }
      ExpressKeeps(c[1..], st1, k, v);
    }
  }

  /** The same, for the whole of `parseSections` on a document whose lines
      are `a`, the heading `h`, its body `b` and the sections `c`. */
  lemma ParseExpressLastWins(content: string, a: seq<string>, h: string, b: seq<string>, c: seq<string>)
    requires Split(content, '\n') == a + [h] + b + c
    requires IsExpressHeading(h) && NoExpressHeading(b) && Trim(Js, h[2..]) != ""
    requires |c| == 0 || IsExpressHeading(c[0])
    requires forall l <- c :: IsExpressHeading(l) ==> Trim(Js, l[2..]) != Trim(Js, h[2..])
    ensures Get(ParseExpress(content), Trim(Js, h[2..])) == Some(Trim(Js, ConcatLines(b)))
  {
    ExpressLastDuplicateWins(a, h, b, c, ExpressStart);
  }

  /** Sections of other names never disturb the value stored under `k`. */
  lemma {:induction false} ExpressKeeps(c: seq<string>, st: ExpressState, k: string, v: string)
    requires st.current != k && Get(st.sections, k) == Some(v)
    requires forall l <- c :: IsExpressHeading(l) ==> Trim(Js, l[2..]) != k
    ensures Get(CloseExpress(ExpressRun(c, st)), k) == Some(v)
    decreases |c|
  {
    if st.current != "" {
      PutGet(st.sections, st.current, Trim(Js, st.content));
    }
    if |c| > 0 {
      assert c[0] in c;
      forall l <- c[1..] ensures IsExpressHeading(l) ==> Trim(Js, l[2..]) != k {
        assert l in c;
      }
      ExpressKeeps(c[1..], ExpressStep(st, c[0]), k, v);
    }
  }

  // ================================================================ FastAPI and the sync script

  /** `line.startswith('# ') and not line.startswith('## ')` (Python), and
      `line.startsWith('# ') && !line.startsWith('## ')` (sync script). */
  predicate IsHashHeading(line: string) {
    StartsWith(line, "# ") && !StartsWith(line, "## ")
  }

  /** The second conjunct is redundant: a line starting `# ` cannot start `## `. */
  lemma HashHeadingIsPrefix(line: string)
    ensures IsHashHeading(line) <==> StartsWith(line, "# ")
  {
    if StartsWith(line, "# ") {
      assert line[1] == ' ';
      assert !StartsWith(line, "## ") by {
        if |line| >= 3 { assert line[..3][1] == line[1]; }
      }
    }
  }

  /** Loop variables of `parse_sections` / the sync script's section loop. */
  datatype HashState = HashState(sections: Entries, current: string, lines: seq<string>)

  const HashStart := HashState([], "", [])

  /** Stores the open section as its lines joined by `\n`, trimmed, if it has a name. */
  function CloseHash(f: Flavor, st: HashState): Entries {
    if st.current != "" then Put(st.sections, st.current, Trim(f, Join(st.lines, "\n")))
    else st.sections
  }

  function HashStep(f: Flavor, st: HashState, line: string): HashState {
    if IsHashHeading(line) then HashState(CloseHash(f, st), Trim(f, line[2..]), [])
    else if st.current != "" then st.(lines := st.lines + [line])
    else st
  }

  function HashRun(f: Flavor, lines: seq<string>, st: HashState): HashState
    decreases |lines|
  {
    if |lines| == 0 then st else HashRun(f, lines[1..], HashStep(f, st, lines[0]))
  }

  /** `parse_sections(content)` of backend/main.py with `f == Py`; the section
      loop of portfolio-3d/scripts/sync-content.cjs with `f == Js`. Names are
      non-empty and trimmed, values trimmed, no name twice. */
  function ParseHash(f: Flavor, content: string): (r: Entries)
    ensures UniqueKeys(r)
    ensures forall e :: e in r ==> e.0 != "" && IsTrimmed(f, e.0) && IsTrimmed(f, e.1)
  {
    var lines := Split(content, '\n');
    HashRunGood(f, lines, HashStart);
    CloseHash(f, HashRun(f, lines, HashStart))
  }

  predicate HashGood(f: Flavor, st: HashState) {
    && UniqueKeys(st.sections)
    && (forall e :: e in st.sections ==> e.0 != "" && IsTrimmed(f, e.0) && IsTrimmed(f, e.1))
    && IsTrimmed(f, st.current)
  }

  lemma HashCloseGood(f: Flavor, st: HashState)
    requires HashGood(f, st)
    ensures var m := CloseHash(f, st);
            UniqueKeys(m) && forall e :: e in m ==> e.0 != "" && IsTrimmed(f, e.0) && IsTrimmed(f, e.1)
  {
    if st.current != "" {
      PutEntries(st.sections, st.current, Trim(f, Join(st.lines, "\n")));
    }
  }

  lemma {:induction false} HashRunGood(f: Flavor, lines: seq<string>, st: HashState)
    requires HashGood(f, st)
    ensures HashGood(f, HashRun(f, lines, st))
    ensures var m := CloseHash(f, HashRun(f, lines, st));
            UniqueKeys(m) && forall e :: e in m ==> e.0 != "" && IsTrimmed(f, e.0) && IsTrimmed(f, e.1)
    decreases |lines|
  {
    if |lines| == 0 {
      HashCloseGood(f, st);
    } else {
      HashCloseGood(f, st);
      HashRunGood(f, lines[1..], HashStep(f, st, lines[0]));
    }
  }

  lemma {:induction false} HashRunAppend(f: Flavor, a: seq<string>, b: seq<string>, st: HashState)
    ensures HashRun(f, a + b, st) == HashRun(f, b, HashRun(f, a, st))
    decreases |a|
  {
    if |a| > 0 {
      assert (a + b)[1..] == a[1..] + b;
      HashRunAppend(f, a[1..], b, HashStep(f, st, a[0]));
    } else {
      assert a + b == b;
    }
  }

  predicate NoHashHeading(lines: seq<string>) {
    forall l :: l in lines ==> !IsHashHeading(l)
  }

  lemma {:induction false} HashBodyLines(f: Flavor, lines: seq<string>, st: HashState)
    requires NoHashHeading(lines)
    ensures HashRun(f, lines, st) ==
            if st.current != "" then st.(lines := st.lines + lines) else st
    decreases |lines|
  {
    if |lines| > 0 {
      assert lines[0] in lines;
      HashBodyLines(f, lines[1..], HashStep(f, st, lines[0]));
      if st.current != "" {
        assert st.lines + [lines[0]] + lines[1..] == st.lines + lines;
      }
    }
  }

  /** One heading and the lines under it. A heading whose stripped name is empty
      closes the previous section and opens nothing: the lines under it are dropped. */
  lemma HashBlock(f: Flavor, h: string, body: seq<string>, st: HashState)
    requires IsHashHeading(h) && NoHashHeading(body)
    ensures var k := Trim(f, h[2..]);
            HashRun(f, [h] + body, st) ==
            if k != "" then HashState(CloseHash(f, st), k, body)
            else HashState(CloseHash(f, st), "", [])
  {
    assert ([h] + body)[1..] == body;
    HashBodyLines(f, body, HashStep(f, st, h));
    assert [] + body == body;
  }

  /** Text without a heading line has no sections. */
  lemma HashNoHeadingNoSections(f: Flavor, content: string)
    requires NoHashHeading(Split(content, '\n'))
    ensures ParseHash(f, content) == []
  {
    HashBodyLines(f, Split(content, '\n'), HashStart);
  }

  /** A repeated section name keeps the value of its last occurrence, in the
      same sense as `ExpressLastDuplicateWins`. */
  lemma HashLastDuplicateWins(f: Flavor, a: seq<string>, h: string, b: seq<string>, c: seq<string>,
                              st: HashState)
    requires IsHashHeading(h) && NoHashHeading(b) && Trim(f, h[2..]) != ""
    requires |c| == 0 || IsHashHeading(c[0])
    requires forall l <- c :: IsHashHeading(l) ==> Trim(f, l[2..]) != Trim(f, h[2..])
    ensures Get(CloseHash(f, HashRun(f, a + [h] + b + c, st)), Trim(f, h[2..]))
            == Some(Trim(f, Join(b, "\n")))
  {
    var k, v := Trim(f, h[2..]), Trim(f, Join(b, "\n"));
    assert a + [h] + b + c == a + ([h] + b) + c;
    HashRunAppend(f, a + ([h] + b), c, st);
    HashRunAppend(f, a, [h] + b, st);
    var st1 := HashRun(f, a, st);
    HashBlock(f, h, b, st1);
    var st2 := HashRun(f, [h] + b, st1);
    assert st2 == HashState(CloseHash(f, st1), k, b);
    PutGet(CloseHash(f, st1), k, v);
    HashAfterBlock(f, c, st2, k, v);
  }

  /** The sections after the block, from the next heading on, keep its value. */
  lemma HashAfterBlock(f: Flavor, c: seq<string>, st: HashState, k: string, v: string)
    requires st.current == k && Get(CloseHash(f, st), k) == Some(v)
    requires |c| == 0 || IsHashHeading(c[0])
    requires forall l <- c :: IsHashHeading(l) ==> Trim(f, l[2..]) != k
    ensures Get(CloseHash(f, HashRun(f, c, st)), k) == Some(v)
  {
    if |c| > 0 {
      assert c[0] in c;
      var st1 := HashStep(f, st, c[0]);
      assert st1.sections == CloseHash(f, st) && st1.current != k;
      forall l <- c[1..] ensures IsHashHeading(l) ==> Trim(f, l[2..]) != k {
        assert l in c;
      }
      HashKeeps(f, c[1..], st1, k, v);
    }
  }

  /** The same, for the whole of `parse_sections` and the sync script's
      section loop. */
  lemma ParseHashLastWins(f: Flavor, content: string, a: seq<string>, h: string, b: seq<string>, c: seq<string>)
    requires Split(content, '\n') == a + [h] + b + c
    requires IsHashHeading(h) && NoHashHeading(b) && Trim(f, h[2..]) != ""
    requires |c| == 0 || IsHashHeading(c[0])
    requires forall l <- c :: IsHashHeading(l) ==> Trim(f, l[2..]) != Trim(f, h[2..])
    ensures Get(ParseHash(f, content), Trim(f, h[2..])) == Some(Trim(f, Join(b, "\n")))
  {
    HashLastDuplicateWins(f, a, h, b, c, HashStart);
  }

  /** Sections of other names never disturb the value stored under `k`. */
  lemma {:induction false} HashKeeps(f: Flavor, c: seq<string>, st: HashState, k: string, v: string)
    requires st.current != k && Get(st.sections, k) == Some(v)
    requires forall l <- c :: IsHashHeading(l) ==> Trim(f, l[2..]) != k
    ensures Get(CloseHash(f, HashRun(f, c, st)), k) == Some(v)
    decreases |c|
  {
    if st.current != "" {
      PutGet(st.sections, st.current, Trim(f, Join(st.lines, "\n")));
    }
    if |c| > 0 {
      assert c[0] in c;
      forall l <- c[1..] ensures IsHashHeading(l) ==> Trim(f, l[2..]) != k {
        assert l in c;
      }
      HashKeeps(f, c[1..], HashStep(f, st, c[0]), k, v);
    }
  }

  // ================================================================ how the three compare

  /** A bare `# ` line and a `##` line are body text for Express; for the
      prefix test a bare `# ` is a heading with an empty name, which closes
      the open section and opens none, while a `##` line is body text too. */
  lemma BareAndSubheadingLines(x: string, st: ExpressState, f: Flavor, hs: HashState)
    ensures ExpressStep(st, "# ") == if st.current != "" then st.(content := st.content + "# \n") else st
    ensures ExpressStep(st, "##" + x) ==
            if st.current != "" then st.(content := st.content + ("##" + x) + "\n") else st
    ensures HashStep(f, hs, "# ") == HashState(CloseHash(f, hs), "", [])
    ensures !IsHashHeading("##" + x)
  {
    assert ("##" + x)[..2] == "##";
    assert ("##" + x)[1] == '#';
    assert "# "[2..] == "";
    assert Trim(f, "") == "";
  }


  /** Express and the sync script split alike as long as every line that starts
      with `# ` is a heading for the Express regex too, i.e. has a character after
      `# ` and no carriage return or Unicode line separator. */
  lemma ExpressAgreesWithScript(content: string)
    requires forall l :: l in Split(content, '\n') && StartsWith(l, "# ") ==> IsExpressHeading(l)
    ensures ParseExpress(content) == ParseHash(Js, content)
  {
    var lines := Split(content, '\n');
    ExpressHashLockstep(lines, ExpressStart, HashStart);
  }

  predicate Lockstep(es: ExpressState, hs: HashState) {
    es.sections == hs.sections && es.current == hs.current && es.content == ConcatLines(hs.lines)
  }

  lemma CloseLockstep(es: ExpressState, hs: HashState)
    requires Lockstep(es, hs)
    ensures CloseExpress(es) == CloseHash(Js, hs)
  {
    if |hs.lines| > 0 {
      ConcatLinesIsJoin(hs.lines);
      TrimAppendSpace(Js, Join(hs.lines, "\n"), '\n');
    }
  }

  lemma StepLockstep(es: ExpressState, hs: HashState, l: string)
    requires Lockstep(es, hs)
    requires StartsWith(l, "# ") ==> IsExpressHeading(l)
    ensures Lockstep(ExpressStep(es, l), HashStep(Js, hs, l))
  {
    HashHeadingIsPrefix(l);
    if IsExpressHeading(l) {
      assert StartsWith(l, "# ");
      CloseLockstep(es, hs);
    } else {
      assert !IsHashHeading(l);
      if es.current != "" {
        ConcatLinesAppend(hs.lines, [l]);
      }
    }
  }

  lemma {:induction false} ExpressHashLockstep(lines: seq<string>, es: ExpressState, hs: HashState)
    requires Lockstep(es, hs)
    requires forall l :: l in lines && StartsWith(l, "# ") ==> IsExpressHeading(l)
    ensures CloseExpress(ExpressRun(lines, es)) == CloseHash(Js, HashRun(Js, lines, hs))
    decreases |lines|
  {
    if |lines| == 0 {
      CloseLockstep(es, hs);
    } else {
      assert lines[0] in lines;
      StepLockstep(es, hs, lines[0]);
      ExpressHashLockstep(lines[1..], ExpressStep(es, lines[0]), HashStep(Js, hs, lines[0]));
    }
  }

  /** FastAPI and the sync script split alike on text whose characters Python
      and JavaScript classify alike as whitespace or not. */
  lemma PythonAgreesWithScript(content: string)
    requires SameSpaces(content)
    ensures ParseHash(Py, content) == ParseHash(Js, content)
  {
    var lines := Split(content, '\n');
    SplitPartsFromSource(content, '\n');
    FlavorLockstep(lines, HashStart);
  }

  lemma SameSpacesJoin(parts: seq<string>)
    requires forall p :: p in parts ==> SameSpaces(p)
    ensures SameSpaces(Join(parts, "\n"))
    decreases |parts|
  {
    if |parts| > 1 {
      assert parts[0] in parts;
      SameSpacesJoin(parts[1..]);
    } else if |parts| == 1 {
      assert parts[0] in parts;
    }
  }

  lemma SameSpacesDrop(l: string)
    requires SameSpaces(l) && |l| >= 2
    ensures SameSpaces(l[2..])
  {
    forall c | c in l[2..] ensures c in l { }
  }

  lemma StepFlavors(st: HashState, l: string)
    requires SameSpaces(l)
    requires forall x :: x in st.lines ==> SameSpaces(x)
    ensures HashStep(Py, st, l) == HashStep(Js, st, l)
  {
    SameSpacesJoin(st.lines);
    TrimFlavors(Join(st.lines, "\n"));
    if IsHashHeading(l) {
      SameSpacesDrop(l);
      TrimFlavors(l[2..]);
    }
  }

  lemma {:induction false} FlavorLockstep(lines: seq<string>, st: HashState)
    requires forall l :: l in lines ==> SameSpaces(l)
    requires forall l :: l in st.lines ==> SameSpaces(l)
    ensures CloseHash(Py, HashRun(Py, lines, st)) == CloseHash(Js, HashRun(Js, lines, st))
    decreases |lines|
  {
    if |lines| == 0 {
      SameSpacesJoin(st.lines);
      TrimFlavors(Join(st.lines, "\n"));
    } else {
      var l := lines[0];
      assert l in lines;
      StepFlavors(st, l);
      var st1 := HashStep(Js, st, l);
      assert forall x :: x in st1.lines ==> SameSpaces(x) by {
        if !IsHashHeading(l) && st.current != "" {
          assert st1.lines == st.lines + [l];
        }
      }
      FlavorLockstep(lines[1..], st1);
    }
  }
}

=== FILE: sync.dfy ===
/** The sync script as a whole: the config it reads from the front matter
    and the About, Education, Experience and Projects data it reads from the
    sections of the body. Writing the generated TypeScript file is not
    modelled; `Content` is what that file is generated from. */
module Sync {
  import opened Text
  import opened Options
  import opened Assoc
  import opened Sections
  import opened FrontMatter
  import opened About
  import opened Records
  import ExpressApi

  datatype Content = Content(
    config: Entries,
    about: AboutParts,
    education: seq<Education>,
    experience: seq<Experience>,
    projects: seq<Project>)

  /** The sections object: the text with its leading `---\n` block removed,
      cut at `# ` headings. */
  function ScriptSections(text: string): Entries {
    ParseHash(Js, StripFrontMatter(text))
  }

  /** `sections.X`, where a missing section and an empty one are both falsy. */
  function SectionText(sections: Entries, name: string): string {
    Get(sections, name).GetOr("")
  }

  /** Everything the script reads from one data file. Each record list is
      read only `if (sections.X)`, so a missing or empty section gives none. */
  function SyncContent(text: string): (r: Content)
    ensures ConfigBlock(text).None? ==> r.config == []
    ensures UniqueKeys(r.config)
    ensures Get(ScriptSections(text), "About").None? ==> r.about == AboutParts([], [])
    ensures SectionText(ScriptSections(text), "Education") == "" ==> r.education == []
    ensures SectionText(ScriptSections(text), "Experience") == "" ==> r.experience == []
    ensures SectionText(ScriptSections(text), "Projects") == "" ==> r.projects == []
  {
    var sections := ScriptSections(text);
    var education := SectionText(sections, "Education");
    var experience := SectionText(sections, "Experience");
    var projects := SectionText(sections, "Projects");
    Content(
      ParseConfig(text),
      ScriptAbout(sections),
      if education != "" then ScriptEducation(education) else [],
      if experience != "" then ScriptExperience(experience) else [],
      if projects != "" then ScriptProjects(projects) else [])
  }

  // ================================================================ reading what Express writes

  /** A config entry the script reads back unchanged: a word key, and a
      non-empty trimmed value without quotes or line breaks. */
  predicate CleanEntry(e: (string, string)) {
    |e.0| > 0 && IsWordString(e.0) && IsGroup(e.1) && IsTrimmed(Js, e.1)
  }

  predicate CleanConfig(cfg: Entries) {
    UniqueKeys(cfg) && forall e <- cfg :: CleanEntry(e)
  }

  /** A file written by either Express write route is read back by the sync
      script with the config Express wrote and the sections of the body it
      wrote. */
  lemma SyncReadsWrittenFile(cfg: Entries, body: string)
    requires CleanConfig(cfg)
    ensures SyncContent(ExpressApi.Serialise(cfg, body)).config == cfg
    ensures ScriptSections(ExpressApi.Serialise(cfg, body)) == ParseHash(Js, body)
  {
    WrittenFileParts(cfg, body);
    LeadingBreakIgnored(body);
  }

  lemma WrittenFileParts(cfg: Entries, body: string)
    requires CleanConfig(cfg)
    ensures ParseConfig(ExpressApi.Serialise(cfg, body)) == cfg
    ensures StripFrontMatter(ExpressApi.Serialise(cfg, body)) == "\n" + body
  {
    var file := ExpressApi.Serialise(cfg, body);
    var lines := ExpressApi.ConfigLines(cfg);
    var j := Join(lines, "\n");
    assert file == "---\n" + j + "\n---\n\n" + body;
    ConfigLinesShape(cfg);
    JoinBreaks(lines);
    WrittenBlock(j, body, file);
    WrittenConfig(cfg);
  }

  /** The config lines Express writes, read by the config-line pattern, give
      back the config. */
  lemma WrittenConfig(cfg: Entries)
    requires CleanConfig(cfg)
    ensures PutAll([], LineEntries(SplitLines(Join(ExpressApi.ConfigLines(cfg), "\n")))) == cfg
  {
    var lines := ExpressApi.ConfigLines(cfg);
    if |cfg| == 0 {
      assert Join(lines, "\n") == "";
      EmptyBlockRead();
    } else {
      ConfigLinesShape(cfg);
      SplitLinesOfJoin(lines);
      ConfigLinesRead(cfg);
      assert [] + cfg == cfg;
      PutAllFresh([], cfg);
    }
  }

  /** An empty block is one empty line, which assigns nothing. */
  lemma EmptyBlockRead()
    ensures LineEntries(SplitLines("")) == []
  {
    SplitWithout("", '\n');
    assert SplitLines("") == [""];
    assert MatchLine("").None?;
    assert [""][1..] == [];
  }

  /** Each written line `key: "value"` matches with that key and stores that
      value. */
  lemma ConfigLineRead(e: (string, string))
    requires CleanEntry(e)
    ensures MatchLine(ExpressApi.ConfigLine(e)).Some?
    ensures MatchLine(ExpressApi.ConfigLine(e)).value.key == e.0
    ensures LineValue(MatchLine(ExpressApi.ConfigLine(e)).value) == e.1
  {
    var line := ExpressApi.ConfigLine(e);
    var m := LineMatch(e.0, " ", "\"", e.1, "\"");
    QuotedLine(e.0, e.1);
    assert AllSpace(Js, " ");
    MatchLineComplete(line, m);
    var found := MatchLine(line).value;
    LineValueIsTrimmedGroup(found);
    TrimFixedPoint(Js, e.1);
  }

  lemma QuotedLine(k: string, v: string)
    ensures k + ": \"" + v + "\"" == k + ":" + (" " + "\"" + v + "\"")
  {
    assert ": \"" == ":" + " " + "\"";
  }

  lemma {:induction false} ConfigLinesRead(cfg: Entries)
    requires forall e <- cfg :: CleanEntry(e)
    ensures LineEntries(ExpressApi.ConfigLines(cfg)) == cfg
    decreases |cfg|
  {
    if |cfg| > 0 {
      assert cfg[0] in cfg;
      ConfigLineRead(cfg[0]);
      assert forall e <- cfg[1..] :: e in cfg;
      ConfigLinesRead(cfg[1..]);
      assert ExpressApi.ConfigLines(cfg) == [ExpressApi.ConfigLine(cfg[0])] + ExpressApi.ConfigLines(cfg[1..]);
      ReadLinesCons(ExpressApi.ConfigLine(cfg[0]), ExpressApi.ConfigLines(cfg[1..]), cfg[0]);
      assert cfg == [cfg[0]] + cfg[1..];
    }
  }

  lemma ReadLinesCons(line: string, rest: seq<string>, e: (string, string))
    requires MatchLine(line).Some? && MatchLine(line).value.key == e.0
    requires LineValue(MatchLine(line).value) == e.1
    ensures LineEntries([line] + rest) == [e] + LineEntries(rest)
  {
    assert ([line] + rest)[1..] == rest;
  }

  /** A written line starts with its key and holds no line break. */
  lemma ConfigLineShape(e: (string, string))
    requires CleanEntry(e)
    ensures var line := ExpressApi.ConfigLine(e);
            |line| > 0 && IsWordChar(line[0]) && '\n' !in line && '\r' !in line
  {
    var line := ExpressApi.ConfigLine(e);
    assert line == e.0 + (": \"" + e.1 + "\"");
    assert line[0] == e.0[0];
    forall c | c in line ensures c != '\n' && c != '\r' {
      var i :| 0 <= i < |line| && line[i] == c;
      if i < |e.0| {
        assert line[i] == e.0[i];
      } else if |e.0| + 3 <= i < |e.0| + 3 + |e.1| {
        assert line[i] == e.1[i - |e.0| - 3];
      }
    }
  }

  lemma ConfigLinesShape(cfg: Entries)
    requires forall e <- cfg :: CleanEntry(e)
    ensures forall l <- ExpressApi.ConfigLines(cfg) :: |l| > 0 && IsWordChar(l[0]) && '\n' !in l && '\r' !in l
  {
    var lines := ExpressApi.ConfigLines(cfg);
    forall l | l in lines ensures |l| > 0 && IsWordChar(l[0]) && '\n' !in l && '\r' !in l {
      var i :| 0 <= i < |lines| && lines[i] == l;
      assert cfg[i] in cfg;
      ConfigLineShape(cfg[i]);
    }
  }

  /** Splitting the joined lines at `\r?\n` gives the lines back. */
  lemma SplitLinesOfJoin(lines: seq<string>)
    requires |lines| >= 1
    requires forall l <- lines :: '\n' !in l && '\r' !in l
    ensures SplitLines(Join(lines, "\n")) == lines
  {
    assert "\n" == ['\n'];
    SplitJoin(lines, '\n');
    var parts := Split(Join(lines, "\n"), '\n');
    forall i | 0 <= i < |parts| ensures !EndsWith(parts[i], "\r") {
      assert parts[i] in lines;
      if |parts[i]| > 0 {
        assert parts[i][|parts[i]| - 1] in parts[i];
      }
    }
  }

  /** Every line break in the joined config is followed by a word character,
      never by `-`, and there is no `\r`. */
  predicate BreaksBeforeWords(j: string) {
    && '\r' !in j
    && forall i :: 0 <= i < |j| && j[i] == '\n' ==> i + 1 < |j| && IsWordChar(j[i + 1])
  }

  lemma {:induction false} JoinBreaks(lines: seq<string>)
    requires forall l <- lines :: |l| > 0 && IsWordChar(l[0]) && '\n' !in l && '\r' !in l
    ensures BreaksBeforeWords(Join(lines, "\n"))
    decreases |lines|
  {
    if |lines| == 1 {
      assert lines[0] in lines;
    } else if |lines| > 1 {
      var head, rest := lines[0], Join(lines[1..], "\n");
      assert head in lines && lines[1] in lines;
      assert forall l <- lines[1..] :: l in lines;
      JoinBreaks(lines[1..]);
      JoinStart(lines[1..]);
      GlueBreaks(head, rest);
    }
  }

  lemma JoinStart(lines: seq<string>)
    requires |lines| >= 1 && |lines[0]| > 0
    ensures |Join(lines, "\n")| > 0 && Join(lines, "\n")[0] == lines[0][0]
  {
  }

  lemma GlueBreaks(head: string, rest: string)
    requires '\n' !in head && '\r' !in head
    requires BreaksBeforeWords(rest) && |rest| > 0 && IsWordChar(rest[0])
    ensures BreaksBeforeWords(head + "\n" + rest)
  {
    var j := head + "\n" + rest;
    assert forall i :: 0 <= i < |head| ==> j[i] == head[i];
    assert forall i :: |head| < i < |j| ==> j[i] == rest[i - |head| - 1];
    assert forall c :: c in j ==> c in head || c == '\n' || c in rest;
  }

  /** The file's opening block is the written config, and the strip leaves
      the blank line and the body. */
  lemma WrittenBlock(j: string, body: string, file: string)
    requires file == "---\n" + j + "\n---\n\n" + body
    requires BreaksBeforeWords(j)
    ensures ConfigBlock(file) == Some(j)
    ensures StripFrontMatter(file) == "\n" + body
  {
    var p := 4 + |j|;
    WrittenShape(j, body, file);
    NoEarlyClose(j, file);
    FindCloseIs(file, 4, p);
    NoEarlyStrip(j, file);
  }

  lemma WrittenShape(j: string, body: string, file: string)
    requires file == "---\n" + j + "\n---\n\n" + body
    ensures StartsWith(file, "---\n") && !StartsWith(file, "---\r\n")
    ensures OpenLength(file) == Some(4)
    ensures file[4..4 + |j|] == j
    ensures file[4 + |j|..] == "\n---\n\n" + body
    ensures file[4 + |j| + 5..] == "\n" + body
  {
    assert file == "---\n" + (j + ("\n---\n\n" + body));
    assert file[3] == '\n';
  }

  /** No `\r?\n---` before the written closing line. */
  lemma NoEarlyClose(j: string, file: string)
    requires |file| >= 4 + |j| + 4 && file[4..4 + |j|] == j
    requires StartsWith(file[4 + |j|..], "\n---")
    requires BreaksBeforeWords(j)
    ensures CloseAt(file, 4 + |j|)
    ensures forall q :: 4 <= q < 4 + |j| ==> !CloseAt(file, q)
  {
    forall q | 4 <= q < 4 + |j| ensures !CloseAt(file, q) {
      assert file[q] == j[q - 4];
      assert file[q..][0] == file[q];
      if j[q - 4] == '\n' {
        assert file[q + 1] == j[q - 3];
        assert file[q..][1] == file[q + 1];
      } else {
        assert j[q - 4] in j;
      }
    }
  }

  /** No `\n---\n` before the written closing line either. */
  lemma NoEarlyStrip(j: string, file: string)
    requires |file| >= 4 + |j| + 5 && file[4..4 + |j|] == j
    requires StartsWith(file[4 + |j|..], "\n---\n")
    requires BreaksBeforeWords(j)
    ensures FindFrom(file, "\n---\n", 4) == Some(4 + |j|)
  {
    forall q | 4 <= q < 4 + |j| ensures !StartsWith(file[q..], "\n---\n") {
      assert file[q] == j[q - 4];
      assert file[q..][0] == file[q];
      if j[q - 4] == '\n' {
        assert file[q + 1] == j[q - 3];
        assert file[q..][1] == file[q + 1];
      }
    }
    FindFirst(file, "\n---\n", 4, 4 + |j|);
  }

  /** The blank line the strip leaves in front of the body comes before any
      heading, so it is dropped. */
  lemma LeadingBreakIgnored(body: string)
    ensures ParseHash(Js, "\n" + body) == ParseHash(Js, body)
  {
    assert "\n" + body == "" + ['\n'] + body;
    SplitAppend("", '\n', body);
    SplitWithout("", '\n');
    HashRunAppend(Js, [""], Split(body, '\n'), HashStart);
    assert HashStep(Js, HashStart, "") == HashStart;
    assert HashRun(Js, [""], HashStart) == HashStart by {
      assert [""][1..] == [];
    }
  }

  // ================================================================ an empty value

  /** Express writes an empty value as `key: ""`, but the config-line pattern
      needs at least one character that is not a quote, so the sync script
      skips the line and the key disappears from its config. */
  lemma EmptyValueNotRead(k: string)
    requires |k| > 0 && IsWordString(k)
    ensures MatchLine(ExpressApi.ConfigLine((k, ""))).None?
  {
    var line := ExpressApi.ConfigLine((k, ""));
    assert line == k + ": \"\"";
    assert line[..|k|] == k;
    WordPrefixIs(line, |k|);
    assert line[|k| + 1..] == " \"\"";
    NoValueAfterColon(k);
  }

  /** ` ""` is no `\s*"?([^"\r\n]+)"?`: the only character the group could
      take is the space, and then two quotes are left for one `"?`. */
  lemma NoValueAfterColon(k: string)
    ensures MatchRest(k, " \"\"").None?
  {
    assert LeadSpaces(Js, " \"\"") == 1;
  }
}

=== FILE: text.dfy ===
/** The string toolkit every parser of the content pipeline is built from:
    prefix tests, searches, the `split`/`join` pair, and the two runtimes'
    notions of whitespace and trimming. Strings are `seq<char>` of code points. */
module Text {
  import opened Options

  /** Whose whitespace rules apply: JavaScript (`String.prototype.trim`, regex `\s`)
      or Python (`str.strip`, `str.isspace`). */
  datatype Flavor = Js | Py

  /** ECMAScript WhiteSpace plus LineTerminator for `Js`; `str.isspace` for `Py`.
      The two sets differ only in U+FEFF (JavaScript only) and in U+001C..U+001F
      and U+0085 (Python only). */
  predicate IsSpace(f: Flavor, c: char) {
    var n := c as int;
    || 0x09 <= n <= 0x0D
    || n == 0x20 || n == 0xA0 || n == 0x1680
    || 0x2000 <= n <= 0x200A
    || n == 0x2028 || n == 0x2029 || n == 0x202F || n == 0x205F || n == 0x3000
    || (f == Js && n == 0xFEFF)
    || (f == Py && (0x1C <= n <= 0x1F || n == 0x85))
  }

  /** The characters a JavaScript regex `.` refuses to match. */
  predicate IsLineTerminator(c: char) {
    c == '\n' || c == '\r' || c as int == 0x2028 || c as int == 0x2029
  }

  /** The JavaScript regex class `\w`. */
  predicate IsWordChar(c: char) {
    ('a' <= c <= 'z') || ('A' <= c <= 'Z') || ('0' <= c <= '9') || c == '_'
  }

  predicate AllSpace(f: Flavor, s: string) {
    forall i :: 0 <= i < |s| ==> IsSpace(f, s[i])
  }

  /** Neither end of `s` is whitespace: what a trim leaves behind. */
  predicate IsTrimmed(f: Flavor, s: string) {
    |s| == 0 || (!IsSpace(f, s[0]) && !IsSpace(f, s[|s| - 1]))
  }

  /** The two flavours agree on every character of `s`. */
  predicate SameSpaces(s: string) {
    forall c :: c in s ==> (IsSpace(Js, c) <==> IsSpace(Py, c))
  }

  predicate StartsWith(s: string, p: string) {
    |p| <= |s| && s[..|p|] == p
  }

  predicate EndsWith(s: string, p: string) {
    |p| <= |s| && s[|s| - |p|..] == p
  }

  // ---------------------------------------------------------------- trimming

  /** The first index at or after `k` that does not hold whitespace, or `|s|`. */
  function LeadEnd(f: Flavor, s: string, k: nat): (e: nat)
    requires k <= |s|
    ensures k <= e <= |s|
    ensures forall j :: k <= j < e ==> IsSpace(f, s[j])
    ensures e < |s| ==> !IsSpace(f, s[e])
    decreases |s| - k
  {
    if k < |s| && IsSpace(f, s[k]) then LeadEnd(f, s, k + 1) else k
  }

  /** Length of the longest all-whitespace prefix of `s` (what a regex `\s*` takes). */
  function LeadSpaces(f: Flavor, s: string): (n: nat)
    ensures n <= |s|
    ensures forall j :: 0 <= j < n ==> IsSpace(f, s[j])
    ensures n < |s| ==> !IsSpace(f, s[n])
  {
    LeadEnd(f, s, 0)
  }

  /** The smallest `e <= k` such that `s[e..k]` is all whitespace. */
  function TrailStart(f: Flavor, s: string, k: nat): (e: nat)
    requires k <= |s|
    ensures e <= k
    ensures forall j :: e <= j < k ==> IsSpace(f, s[j])
    ensures e > 0 ==> !IsSpace(f, s[e - 1])
    decreases k
  {
    if k > 0 && IsSpace(f, s[k - 1]) then TrailStart(f, s, k - 1) else k
  }

  /** Length of the longest all-whitespace suffix of `s`. */
  function TrailSpaces(f: Flavor, s: string): (n: nat)
    ensures n <= |s|
    ensures forall j :: |s| - n <= j < |s| ==> IsSpace(f, s[j])
    ensures n < |s| ==> !IsSpace(f, s[|s| - n - 1])
  {
    |s| - TrailStart(f, s, |s|)
  }

  /** `s.trim()` for `Js`, `s.strip()` for `Py`: the slice of `s` from its
      first to its last non-whitespace character, empty when there is none. */
  function Trim(f: Flavor, s: string): (r: string)
    ensures IsTrimmed(f, r)
    ensures |r| == 0 <==> AllSpace(f, s)
    ensures |r| <= |s|
  {
    var i := LeadSpaces(f, s);
    if i == |s| then "" else s[i..|s| - TrailSpaces(f, s)]
  }

  /** `LeadSpaces` is pinned down by where the whitespace stops. */
  lemma LeadSpacesAt(f: Flavor, s: string, i: nat)
    requires i <= |s| && (forall j :: 0 <= j < i ==> IsSpace(f, s[j])) && (i < |s| ==> !IsSpace(f, s[i]))
    ensures LeadSpaces(f, s) == i
  {
  }

  lemma TrailSpacesAt(f: Flavor, s: string, n: nat)
    requires n <= |s| && (forall j :: |s| - n <= j < |s| ==> IsSpace(f, s[j]))
    requires n < |s| ==> !IsSpace(f, s[|s| - n - 1])
    ensures TrailSpaces(f, s) == n
  {
  }

  /** `LeadSpacesAt` for a caller that knows the prefix as a slice. */
  lemma LeadSpacesOf(f: Flavor, s: string, i: nat)
    requires i <= |s| && AllSpace(f, s[..i]) && (i < |s| ==> !IsSpace(f, s[i]))
    ensures LeadSpaces(f, s) == i
  {
    SpacesBefore(f, s, i);
    LeadSpacesAt(f, s, i);
  }

  /** The leading whitespace, as a slice. */
  lemma LeadSlice(f: Flavor, s: string)
    ensures AllSpace(f, s[..LeadSpaces(f, s)])
  {
    var lead := s[..LeadSpaces(f, s)];
    assert forall j :: 0 <= j < |lead| ==> lead[j] == s[j];
  }

  lemma SpacesBefore(f: Flavor, s: string, i: nat)
    requires i <= |s| && AllSpace(f, s[..i])
    ensures forall j :: 0 <= j < i ==> IsSpace(f, s[j])
  {
    var lead := s[..i];
    forall j | 0 <= j < i ensures IsSpace(f, s[j]) {
      assert lead[j] == s[j];
    }
  }

  /** What a non-empty trim keeps: the slice that starts at the first
      non-whitespace character. */
  lemma TrimSlice(f: Flavor, s: string)
    ensures var r := Trim(f, s);
            |r| > 0 ==> var i := LeadSpaces(f, s);
                        i + |r| <= |s| && r == s[i..i + |r|]
  {
  }

  /** `Trim` of a string with something to keep, unfolded once: `i` and `n`
      are its leading and trailing whitespace counts. */
  lemma TrimAt(f: Flavor, s: string, i: nat, n: nat)
    requires i == LeadSpaces(f, s) < |s| && n == TrailSpaces(f, s)
    ensures i < |s| - n
    ensures Trim(f, s) == s[i..|s| - n]
  {
  }

  lemma TrimmedCharsFromSource(f: Flavor, s: string)
    ensures forall c :: c in Trim(f, s) ==> c in s
  {
    var r := Trim(f, s);
    TrimSlice(f, s);
    if |r| > 0 {
      var i := LeadSpaces(f, s);
      SliceCharsIn(s, i, i + |r|);
    }
  }

  lemma SliceCharsIn(s: string, i: nat, j: nat)
    requires i <= j <= |s|
    ensures forall c :: c in s[i..j] ==> c in s
  {
    forall c | c in s[i..j] ensures c in s {
      var k :| 0 <= k < j - i && s[i..j][k] == c;
      assert s[i + k] == c;
    }
  }

  /** Trimming a trimmed string changes nothing, and only trimmed strings are fixed points. */
  lemma TrimFixedPoint(f: Flavor, s: string)
    ensures Trim(f, s) == s <==> IsTrimmed(f, s)
  {
    if IsTrimmed(f, s) && |s| > 0 {
      LeadSpacesAt(f, s, 0);
      TrailSpacesAt(f, s, 0);
      assert s[0..|s|] == s;
    }
  }

  /** Whitespace around a string is invisible to `Trim`. */
  lemma TrimPadded(f: Flavor, a: string, s: string, b: string)
    requires AllSpace(f, a) && AllSpace(f, b)
    ensures Trim(f, a + s + b) == Trim(f, s)
  {
    if LeadSpaces(f, s) == |s| {
      PaddedSpace(f, a, s, b);
    } else {
      PaddedKept(f, a, s, b);
    }
  }

  lemma PaddedKept(f: Flavor, a: string, s: string, b: string)
    requires AllSpace(f, a) && AllSpace(f, b) && LeadSpaces(f, s) < |s|
    ensures Trim(f, a + s + b) == Trim(f, s)
  {
    var i, n := LeadSpaces(f, s), TrailSpaces(f, s);
    TrimAt(f, s, i, n);
    PaddedLead(f, a, s, b);
    PaddedTrail(f, a, s, b);
    TrimAt(f, a + s + b, |a| + i, |b| + n);
    PaddedSlice(a, s, b, i, n);
  }

  lemma PaddedSlice(a: string, s: string, b: string, i: nat, n: nat)
    requires i + n <= |s|
    ensures (a + s + b)[|a| + i..|a + s + b| - (|b| + n)] == s[i..|s| - n]
  {
    var t := a + s + b;
    var u, v := t[|a| + i..|a| + |s| - n], s[i..|s| - n];
    assert forall k :: 0 <= k < |v| ==> u[k] == v[k];
  }

  lemma PaddedSpace(f: Flavor, a: string, s: string, b: string)
    requires AllSpace(f, a) && AllSpace(f, s) && AllSpace(f, b)
    ensures AllSpace(f, a + s + b)
  {
    var t := a + s + b;
    forall k | 0 <= k < |t| ensures IsSpace(f, t[k]) {
      if k < |a| {
        assert t[k] == a[k];
      } else if k < |a| + |s| {
        assert t[k] == s[k - |a|];
      } else {
        assert t[k] == b[k - |a| - |s|];
      }
    }
  }

  lemma PaddedLead(f: Flavor, a: string, s: string, b: string)
    requires AllSpace(f, a) && LeadSpaces(f, s) < |s|
    ensures LeadSpaces(f, a + s + b) == |a| + LeadSpaces(f, s)
  {
    var t := a + s + b;
    var i := LeadSpaces(f, s);
    assert t[|a| + i] == s[i];
    forall k | 0 <= k < |a| + i ensures IsSpace(f, t[k]) {
      if k < |a| {
        assert t[k] == a[k];
      } else {
        assert t[k] == s[k - |a|];
      }
    }
    LeadSpacesAt(f, t, |a| + i);
  }

  lemma PaddedTrail(f: Flavor, a: string, s: string, b: string)
    requires AllSpace(f, b) && LeadSpaces(f, s) < |s|
    ensures TrailSpaces(f, a + s + b) == |b| + TrailSpaces(f, s)
  {
    var t := a + s + b;
    var n := TrailSpaces(f, s);
    var m := |b| + n;
    TrimAt(f, s, LeadSpaces(f, s), n);
    assert t[|t| - m - 1] == s[|s| - n - 1];
    forall k | |t| - m <= k < |t| ensures IsSpace(f, t[k]) {
      if k < |t| - |b| {
        assert t[k] == s[k - |a|];
      } else {
        assert t[k] == b[k - |a| - |s|];
      }
    }
    TrailSpacesAt(f, t, m);
  }

  lemma TrimAppendSpace(f: Flavor, s: string, c: char)
    requires IsSpace(f, c)
    ensures Trim(f, s + [c]) == Trim(f, s)
  {
    TrimPadded(f, "", s, [c]);
    assert "" + s + [c] == s + [c];
  }

  /** JavaScript's `trim` and Python's `strip` agree on any string whose
      characters both runtimes classify alike. */
  lemma TrimFlavors(s: string)
    requires SameSpaces(s)
    ensures Trim(Js, s) == Trim(Py, s)
  {
    SameSpacesAt(s);
    LeadSpacesAt(Py, s, LeadSpaces(Js, s));
    TrailSpacesAt(Py, s, TrailSpaces(Js, s));
  }

  lemma SameSpacesAt(s: string)
    requires SameSpaces(s)
    ensures forall j :: 0 <= j < |s| ==> (IsSpace(Js, s[j]) <==> IsSpace(Py, s[j]))
  {
    forall j | 0 <= j < |s| ensures IsSpace(Js, s[j]) <==> IsSpace(Py, s[j]) {
      assert s[j] in s;
    }
  }

  // ---------------------------------------------------------------- searching

  /** Index of the first `c` in `s`, or `|s|` when there is none. */
  function IndexOf(s: string, c: char): (i: nat)
    ensures i <= |s|
    ensures i < |s| ==> s[i] == c
    ensures forall j :: 0 <= j < i ==> s[j] != c
  {
    if |s| == 0 then 0
    else if s[0] == c then 0
    else 1 + IndexOf(s[1..], c)
  }

  /** The leftmost occurrence of `pat` in `t` at or after `from`. */
  function FindFrom(t: string, pat: string, from: nat): (r: Option<nat>)
    requires from <= |t|
    ensures r.Some? ==> from <= r.value <= |t| && StartsWith(t[r.value..], pat)
    ensures r.Some? ==> forall j :: from <= j < r.value ==> !StartsWith(t[j..], pat)
    ensures r.None? ==> forall j :: from <= j <= |t| ==> !StartsWith(t[j..], pat)
    decreases |t| - from
  {
    if StartsWith(t[from..], pat) then Some(from)
    else if from == |t| then None
    else FindFrom(t, pat, from + 1)
  }

  /** `s.includes(pat)`. */
  predicate Contains(s: string, pat: string) {
    FindFrom(s, pat, 0).Some?
  }

  /** `s.replace(pat, '')` with a string pattern: only the first occurrence goes. */
  function RemoveFirst(s: string, pat: string): (r: string)
    ensures !Contains(s, pat) ==> r == s
    ensures Contains(s, pat) ==> |r| == |s| - |pat|
    ensures Contains(s, pat) ==>
              exists i :: FindFrom(s, pat, 0) == Some(i) && i + |pat| <= |s| && r == s[..i] + s[i + |pat|..]
  {
    match FindFrom(s, pat, 0)
    case None => s
    case Some(i) => s[..i] + s[i + |pat|..]
  }

  /** When `s` starts with `pat`, removing its first occurrence drops the prefix. */
  lemma RemoveFirstPrefix(s: string, pat: string)
    requires StartsWith(s, pat)
    ensures RemoveFirst(s, pat) == s[|pat|..]
  {
    assert s[0..] == s;
    var r := FindFrom(s, pat, 0);
    assert r.Some? && r.value == 0;
  }

  lemma ContainsAt(s: string, pat: string, i: nat)
    requires i <= |s| && StartsWith(s[i..], pat)
    ensures Contains(s, pat)
  {
  }

  lemma NotContainsAt(s: string, pat: string, i: nat)
    requires i <= |s| && !Contains(s, pat)
    ensures !StartsWith(s[i..], pat)
  {
  }

  /** A string without `pat` has no slice with it. */
  lemma SliceKeepsOut(s: string, a: nat, b: nat, pat: string)
    requires a <= b <= |s| && !Contains(s, pat)
    ensures !Contains(s[a..b], pat)
  {
    var t := s[a..b];
    forall i | 0 <= i <= |t| ensures !StartsWith(t[i..], pat) {
      if i + |pat| <= |t| {
        assert t[i..][..|pat|] == s[a + i..][..|pat|];
      }
    }
  }

  /** The leftmost occurrence at or after `from` is the one with none between. */
  lemma FindFirst(s: string, pat: string, from: nat, k: nat)
    requires from <= k <= |s| && StartsWith(s[k..], pat)
    requires forall j :: from <= j < k ==> !StartsWith(s[j..], pat)
    ensures FindFrom(s, pat, from) == Some(k)
  {
  }

  // ---------------------------------------------------------------- split and join

  /** `parts.join(sep)`. */
  function Join(parts: seq<string>, sep: string): string
  {
    if |parts| == 0 then ""
    else if |parts| == 1 then parts[0]
    else parts[0] + sep + Join(parts[1..], sep)
  }

  /** `s.split(c)` for a one-character separator: never empty, and no part
      holds `c`; `SplitThenJoin` shows the parts join back into `s`. */
  function Split(s: string, c: char): (parts: seq<string>)
    ensures |parts| >= 1
    ensures forall p <- parts :: c !in p
    decreases |s|
  {
    var i := IndexOf(s, c);
    if i == |s| then
      assert c !in s;
      [s]
    else
      [s[..i]] + Split(s[i + 1..], c)
  }

  /** Joining the parts of a split with the separator gives the text back. */
  lemma {:induction false} SplitThenJoin(s: string, c: char)
    ensures Join(Split(s, c), [c]) == s
    decreases |s|
  {
    var i := IndexOf(s, c);
    if i < |s| {
      SplitFound(s, c);
      SplitThenJoin(s[i + 1..], c);
      JoinCons(s[..i], Split(s[i + 1..], c), [c]);
      assert s == s[..i] + [c] + s[i + 1..];
    }
  }

  /** One step of `Split` at the first separator. */
  lemma SplitFound(s: string, c: char)
    requires IndexOf(s, c) < |s|
    ensures var i := IndexOf(s, c); Split(s, c) == [s[..i]] + Split(s[i + 1..], c)
  {
  }

  lemma JoinCons(p: string, ps: seq<string>, sep: string)
    requires |ps| >= 1
    ensures Join([p] + ps, sep) == p + sep + Join(ps, sep)
  {
    assert ([p] + ps)[1..] == ps;
  }

  lemma SplitWithout(s: string, c: char)
    requires c !in s
    ensures Split(s, c) == [s]
  {
  }

  /** A separator in the middle splits the parts of both sides apart. */
  lemma {:induction false} SplitAppend(a: string, c: char, b: string)
    ensures Split(a + [c] + b, c) == Split(a, c) + Split(b, c)
    decreases |a|
  {
    var i := IndexOf(a, c);
    if i == |a| {
      SplitAtGlue(a, c, b);
    } else {
      var rest := a[i + 1..];
      SplitGlued(a, c, b);
      SplitFound(a, c);
      SplitAppend(rest, c, b);
      ConsChain(a[..i], Split(a + [c] + b, c), Split(rest + [c] + b, c), Split(rest, c), Split(b, c));
    }
  }

  /** Splitting `a + [c] + b` cuts first where `a` is cut. */
  lemma SplitGlued(a: string, c: char, b: string)
    requires IndexOf(a, c) < |a|
    ensures var i := IndexOf(a, c);
            Split(a + [c] + b, c) == [a[..i]] + Split(a[i + 1..] + [c] + b, c)
  {
    FirstSeparator(a, c, b);
    SplitFound(a + [c] + b, c);
    CutSlices(a, [c], b, IndexOf(a, c));
  }

  lemma SplitAtGlue(a: string, c: char, b: string)
    requires IndexOf(a, c) == |a|
    ensures Split(a + [c] + b, c) == Split(a, c) + Split(b, c)
  {
    FirstSeparator(a, c, b);
    SplitFound(a + [c] + b, c);
    CutSlices(a, [c], b, |a|);
  }

  /** The pieces of `a + g + b` around a cut at `i`, inside `a` or at the glue `g`. */
  lemma CutSlices(a: string, g: string, b: string, i: nat)
    requires i <= |a| && |g| == 1
    ensures (a + g + b)[..i] == a[..i]
    ensures i < |a| ==> (a + g + b)[i + 1..] == a[i + 1..] + g + b
    ensures i == |a| ==> (a + g + b)[i + 1..] == b && a[..i] == a
  {
  }

  /** The first `c` of `a + [c] + b` is the first of `a`, or the glued one. */
  lemma FirstSeparator(a: string, c: char, b: string)
    ensures IndexOf(a + [c] + b, c) == IndexOf(a, c)
  {
    var s := a + [c] + b;
    var i := IndexOf(a, c);
    assert s[i] == c;
    assert forall j :: 0 <= j < i ==> s[j] == a[j];
    IndexOfAt(s, c, i);
  }

  lemma IndexOfAt(s: string, c: char, i: nat)
    requires i < |s| && s[i] == c && forall j :: 0 <= j < i ==> s[j] != c
    ensures IndexOf(s, c) == i
  {
  }

  /** Splitting a join gives the parts back when no part holds the separator. */
  lemma {:induction false} SplitJoin(parts: seq<string>, c: char)
    requires |parts| >= 1
    requires forall p <- parts :: c !in p
    ensures Split(Join(parts, [c]), c) == parts
    decreases |parts|
  {
    SplitWithout(parts[0], c);
    if |parts| > 1 {
      JoinCons(parts[0], parts[1..], [c]);
      SplitJoin(parts[1..], c);
      SplitAppend(parts[0], c, Join(parts[1..], [c]));
      HeadTail(parts);
    }
  }

  lemma HeadTail(parts: seq<string>)
    requires |parts| >= 1
    ensures parts == [parts[0]] + parts[1..]
  {
  }

  lemma {:induction false} JoinAppend(a: seq<string>, b: seq<string>, sep: string)
    requires |a| >= 1 && |b| >= 1
    ensures Join(a + b, sep) == Join(a, sep) + sep + Join(b, sep)
    decreases |a|
  {
    if |a| == 1 {
      assert (a + b)[1..] == b;
    } else {
      assert (a + b)[1..] == a[1..] + b;
      JoinAppend(a[1..], b, sep);
    }
  }

  lemma {:induction false} SplitPartsFromSource(s: string, c: char)
    ensures forall p, x :: p in Split(s, c) && x in p ==> x in s
    decreases |s|
  {
    var i := IndexOf(s, c);
    if i < |s| {
      SplitPartsFromSource(s[i + 1..], c);
      forall p, x | p in Split(s, c) && x in p ensures x in s {
        if p != s[..i] {
          assert p in Split(s[i + 1..], c);
        }
      }
    }
  }

  /** `lines.map(l => l + '\n').join('')`: the accumulator the Express parser builds. */
  function ConcatLines(lines: seq<string>): string
  {
    if |lines| == 0 then "" else lines[0] + "\n" + ConcatLines(lines[1..])
  }

  lemma {:induction false} ConcatLinesAppend(a: seq<string>, b: seq<string>)
    ensures ConcatLines(a + b) == ConcatLines(a) + ConcatLines(b)
    decreases |a|
  {
    if |a| == 0 {
      assert a + b == b;
    } else {
      assert (a + b)[1..] == a[1..] + b;
      ConcatLinesAppend(a[1..], b);
    }
  }

  /** Appending a newline after every line is joining with newlines plus one more. */
  lemma {:induction false} ConcatLinesIsJoin(lines: seq<string>)
    requires |lines| >= 1
    ensures ConcatLines(lines) == Join(lines, "\n") + "\n"
    decreases |lines|
  {
    if |lines| > 1 {
      ConcatLinesIsJoin(lines[1..]);
    }
  }

  /** `s.split(sep)` for a separator string of one or more characters:
      the parts hold no occurrence of `sep` and join back to `s`. */
  function SplitOn(s: string, sep: string): (parts: seq<string>)
    requires |sep| > 0
    ensures |parts| >= 1
    ensures forall p <- parts :: !Contains(p, sep)
    ensures Join(parts, sep) == s
    decreases |s|
  {
    match FindFrom(s, sep, 0)
    case None =>
      [s]
    case Some(i) =>
      var rest := SplitOn(s[i + |sep|..], sep);
      PrefixWithout(s, sep, i);
      assert s == s[..i] + sep + s[i + |sep|..];
      [s[..i]] + rest
  }

  lemma PrefixWithout(s: string, sep: string, i: nat)
    requires |sep| > 0 && i <= |s|
    requires forall j :: 0 <= j < i ==> !StartsWith(s[j..], sep)
    ensures !Contains(s[..i], sep)
  {
    var p := s[..i];
    forall j | 0 <= j <= |p| ensures !StartsWith(p[j..], sep) {
      if j + |sep| <= i {
        assert p[j..][..|sep|] == s[j..][..|sep|];
      }
    }
  }

  /** Gluing `x` and `y` with a blank line: when `x` does not end in a line
      break, the cut falls exactly at the glue. */
  lemma {:induction false} SplitOnAt(x: string, y: string)
    requires x == "" || x[|x| - 1] != '\n'
    ensures SplitOn(x + "\n\n" + y, "\n\n") == SplitOn(x, "\n\n") + SplitOn(y, "\n\n")
    decreases |x|
  {
    var s := x + "\n\n" + y;
    match FindFrom(x, "\n\n", 0)
    case None =>
      GlueIsFirst(x, y);
      SplitOnFound(s, "\n\n", |x|);
      GlueSlices(x, y, |x|);
    case Some(i) =>
      SeparatorInFront(x, y, i);
      SplitOnFound(s, "\n\n", i);
      SplitOnFound(x, "\n\n", i);
      GlueSlices(x, y, i);
      SplitOnAt(x[i + 2..], y);
      ConsAppend(x[..i], SplitOn(x[i + 2..], "\n\n"), SplitOn(y, "\n\n"));
  }

  lemma ConsAppend(a: string, b: seq<string>, c: seq<string>)
    ensures [a] + (b + c) == ([a] + b) + c
  {
  }

  /** `s` is `h` then `t`, and `t` is `x` then `b`: so `s` is `[h] + x`, then `b`. */
  lemma ConsChain(h: string, s: seq<string>, t: seq<string>, x: seq<string>, b: seq<string>)
    requires s == [h] + t && t == x + b
    ensures s == ([h] + x) + b
  {
  }

  /** One step of `SplitOn` at the first separator, at `i`. */
  lemma SplitOnFound(s: string, sep: string, i: nat)
    requires |sep| > 0 && FindFrom(s, sep, 0) == Some(i)
    ensures i + |sep| <= |s|
    ensures SplitOn(s, sep) == [s[..i]] + SplitOn(s[i + |sep|..], sep)
  {
  }

  /** The first cut is at the leftmost separator, and there is a cut
      exactly when the text holds the separator. */
  lemma SplitOnFirstCut(s: string, sep: string)
    requires |sep| > 0
    ensures |SplitOn(s, sep)| > 1 <==> Contains(s, sep)
    ensures |SplitOn(s, sep)| > 1 ==> FindFrom(s, sep, 0) == Some(|SplitOn(s, sep)[0]|)
  {
    if Contains(s, sep) {
      SplitOnFound(s, sep, FindFrom(s, sep, 0).value);
    }
  }

  /** Every cut is at the leftmost separator of the text still to split, so
      overlapping separators are cut where `split` cuts them. */
  lemma {:induction false} SplitOnLeftmost(s: string, sep: string, n: nat)
    requires |sep| > 0 && n + 1 < |SplitOn(s, sep)|
    ensures FindFrom(Join(SplitOn(s, sep)[n..], sep), sep, 0) == Some(|SplitOn(s, sep)[n]|)
    decreases |s|
  {
    var parts := SplitOn(s, sep);
    if n == 0 {
      assert parts[n..] == parts;
      SplitOnFirstCut(s, sep);
    } else {
      var i := FindFrom(s, sep, 0).value;
      SplitOnFound(s, sep, i);
      var rest := s[i + |sep|..];
      assert parts[n..] == SplitOn(rest, sep)[n - 1..];
      SplitOnLeftmost(rest, sep, n - 1);
    }
  }

  /** The pieces of `x + "\n\n" + y` on either side of a cut inside `x` or at the glue. */
  lemma GlueSlices(x: string, y: string, i: nat)
    requires i <= |x| && (x == "" || x[|x| - 1] != '\n')
    ensures (x + "\n\n" + y)[..i] == x[..i]
    ensures i + 2 <= |x| ==> (x + "\n\n" + y)[i + 2..] == x[i + 2..] + "\n\n" + y
    ensures i == |x| ==> (x + "\n\n" + y)[i + 2..] == y && x[..i] == x
    ensures i + 2 <= |x| ==> var x' := x[i + 2..]; x' == "" || x'[|x'| - 1] != '\n'
  {
  }

  lemma GlueIsFirst(x: string, y: string)
    requires FindFrom(x, "\n\n", 0).None? && (x == "" || x[|x| - 1] != '\n')
    ensures FindFrom(x + "\n\n" + y, "\n\n", 0) == Some(|x|)
  {
    var s := x + "\n\n" + y;
    forall j | 0 <= j < |x| ensures !StartsWith(s[j..], "\n\n") {
      if j + 2 <= |x| {
        assert s[j..][..2] == x[j..][..2];
      } else {
        assert s[j] == x[|x| - 1];
      }
    }
    assert s[|x|..][..2] == "\n\n";
    FindFirst(s, "\n\n", 0, |x|);
  }

  lemma SeparatorInFront(x: string, y: string, i: nat)
    requires FindFrom(x, "\n\n", 0) == Some(i)
    ensures FindFrom(x + "\n\n" + y, "\n\n", 0) == Some(i)
  {
    var s := x + "\n\n" + y;
    forall j | 0 <= j < i ensures !StartsWith(s[j..], "\n\n") {
      assert s[j..][..2] == x[j..][..2];
    }
    assert s[i..][..2] == x[i..][..2];
    FindFirst(s, "\n\n", 0, i);
  }

  /** The parts of a string without `pat` are without it too. */
  lemma {:induction false} SplitOnKeepsOut(s: string, sep: string, pat: string)
    requires |sep| > 0 && !Contains(s, pat)
    ensures forall p <- SplitOn(s, sep) :: !Contains(p, pat)
    decreases |s|
  {
    match FindFrom(s, sep, 0)
    case None =>
    case Some(i) =>
      var rest := s[i + |sep|..];
      SliceKeepsOut(s, 0, i, pat);
      assert rest == s[i + |sep|..|s|];
      SliceKeepsOut(s, i + |sep|, |s|, pat);
      SplitOnKeepsOut(rest, sep, pat);
  }

  // ---------------------------------------------------------------- list helpers

  /** `parts.map(t => t.trim())` with the JavaScript trim. */
  function TrimAll(parts: seq<string>): (r: seq<string>)
    ensures |r| == |parts|
    ensures forall i :: 0 <= i < |r| ==> r[i] == Trim(Js, parts[i])
  {
    if |parts| == 0 then [] else [Trim(Js, parts[0])] + TrimAll(parts[1..])
  }

  /** `s.split(',').map(t => t.trim())`: one trimmed entry per comma-separated field, empties kept. */
  function CommaList(s: string): (r: seq<string>)
    ensures |r| == |Split(s, ',')| >= 1
    ensures forall i :: 0 <= i < |r| ==> r[i] == Trim(Js, Split(s, ',')[i])
    ensures forall i :: 0 <= i < |r| ==> IsTrimmed(Js, r[i]) && ',' !in r[i]
  {
    var parts := Split(s, ',');
    forall i | 0 <= i < |parts| ensures ',' !in Trim(Js, parts[i]) {
      assert parts[i] in parts;
      TrimmedCharsFromSource(Js, parts[i]);
    }
    TrimAll(parts)
  }

  /** `xs.filter(x => x)`: the non-empty strings, in order. */
  function DropEmpty(xs: seq<string>): (r: seq<string>)
    ensures |r| <= |xs|
    ensures forall x <- r :: x != "" && x in xs
    ensures forall x <- xs :: x != "" ==> x in r
  {
    if |xs| == 0 then []
    else if xs[0] == "" then DropEmpty(xs[1..])
    else [xs[0]] + DropEmpty(xs[1..])
  }

  /** `xs.filter(x => x.trim())`: the strings that are not all whitespace, untouched, in order. */
  function DropBlank(xs: seq<string>): (r: seq<string>)
    ensures |r| <= |xs|
    ensures forall x <- r :: Trim(Js, x) != "" && x in xs
    ensures forall x <- xs :: Trim(Js, x) != "" ==> x in r
  {
    if |xs| == 0 then []
    else if Trim(Js, xs[0]) == "" then DropBlank(xs[1..])
    else [xs[0]] + DropBlank(xs[1..])
  }

  lemma {:induction false} DropBlankAppend(xs: seq<string>, ys: seq<string>)
    ensures DropBlank(xs + ys) == DropBlank(xs) + DropBlank(ys)
    decreases |xs|
  {
    if |xs| == 0 {
      assert xs + ys == ys;
    } else {
      assert (xs + ys)[0] == xs[0] && (xs + ys)[1..] == xs[1..] + ys;
      DropBlankAppend(xs[1..], ys);
    }
  }

  lemma {:induction false} DropEmptyAppend(xs: seq<string>, ys: seq<string>)
    ensures DropEmpty(xs + ys) == DropEmpty(xs) + DropEmpty(ys)
    decreases |xs|
  {
    if |xs| == 0 {
      assert xs + ys == ys;
    } else {
      assert (xs + ys)[0] == xs[0] && (xs + ys)[1..] == xs[1..] + ys;
      DropEmptyAppend(xs[1..], ys);
    }
  }

  /** Filtering one more string keeps it exactly when it is not empty. */
  lemma DropEmptySnoc(xs: seq<string>, x: string)
    ensures DropEmpty(xs + [x]) == DropEmpty(xs) + (if x == "" then [] else [x])
  {
    DropEmptyAppend(xs, [x]);
    assert [x][1..] == [];
  }

  /** Filtering one more string keeps it exactly when it is not all whitespace. */
  lemma DropBlankSnoc(xs: seq<string>, x: string)
    ensures DropBlank(xs + [x]) == DropBlank(xs) + (if Trim(Js, x) == "" then [] else [x])
  {
    DropBlankAppend(xs, [x]);
    assert [x][1..] == [];
  }

  /** Regrouping a concatenation of strings. */
  lemma Regroup(a: string, b: string, c: string, d: string, e: string)
    ensures a + b + c + d == a + (b + c + d)
    ensures a + b + c + d + e == (a + b) + (c + d + e)
    ensures a + b + c + d + e == (a + b + c) + (d + e)
  {
  }
}
